=== FILE: README.md ===
# A verified model of the SSAM image-analysis kernels

This project models, in Dafny, the numerical core of the SSAM C extension
(`c/utils.cpp`). It covers:

- the row-major offset macros `I2D` and `I3D`;
- the Pearson correlation kernel `__corr__`;
- the correlation-guided region growing `flood_fill`;
- the sparse kernel density estimator `kde`;
- the neighbourhood correlation maps `calc_corrmap` and `calc_corrmap_2`;
- the cell-type scoring `calc_ctmap`.

Every operation is a pure function over immutable data. Doubles are exact
reals, and the NaN sentinel the library writes into output buffers is a
separate value. Threads run one after another. The square root is a
parameter `root`. The Gaussian kernel is a parameter `mass`.

Modules, in dependency order:

- `Values` (values.dfy): the `Value = NaN | Num(real)` cell type, `Result` and `Option`, the validation errors, and the `Variant` flag. The flag selects the code as written or the evidently intended code wherever the two differ.
- `Grid` (grid.dfy): `I2D`/`I3D`, voxel coordinates `Pos` (equality is per component, as `operator==` on `pos3d`), planes and volumes (`Dims`), offsets and their inverse, and the ordered box enumeration the loop nests share.
- `Fields` (fields.dfy): n-dimensional arrays, and the view of a rank-3 or rank-4 array as a field of channel vectors.
- `Correlation` (correlation.dfy): `__corr__` with its 8-lane batching. It is proved equal to the textbook population Pearson coefficient.
- `Flooding` (floodfill.dfy): the breadth-first traversal, written once over an arbitrary admission test, with its loop invariants. Also the library entry point.
- `FloodFillCases` (floodfill_cases.dfy): small fields followed pass by pass. They exhibit what the code as written does.
- `Kde` (kde.dfy): windows, per-worker maps and the merge. Proved equal to a split-independent reference sum.
- `CorrMaps` (corrmap.dfy): `calc_corrmap` and `calc_corrmap_2`.
- `CellTypeMaps` (ctmap.dfy): `calc_ctmap`.

Where the library's documentation and its code disagree, the model follows
the code:

- `flood_fill` on an array of rank 1, 2 or above 4 returns an empty list, not an error.
- The flood-fill result can list a voxel twice, although the documentation says each coordinate appears at most once. See Findings.
- `kde` reports every voxel some window touched, even where the accumulated mass is 0. The documentation speaks only of voxels with non-zero mass.
- The per-offset axis of `calc_corrmap_2` has (2c+1)^2 - 1 entries in 3D as well, not (2c+1)^3 - 1.
- `__corr__` on empty vectors yields NaN: the means are 0/0, and the NaN propagates to the result. It does not fail.

## Model

| member | source | states |
|---|---|---|
| Grid.I2DBounds | c/utils.cpp:21 | an in-range (x, y) has a 2D offset in [0, X*Y) |
| Grid.I2DDecode | c/utils.cpp:21 | the 2D offset is inverted by division and remainder by the row length |
| Grid.I3DIsNestedI2D | c/utils.cpp:21-22 | the 3D offset is the 2D offset of the (x, y) column, scaled by the depth, plus z |
| Grid.IndexInRange | c/utils.cpp:21-22 | every voxel of a plane or volume has an offset in [0, nvec), so every mask and vector access is in bounds |
| Grid.DecodeIndex | c/utils.cpp:21-22 | decoding a voxel's offset gives back the voxel |
| Grid.IndexDecode | c/utils.cpp:21-22 | every offset in [0, nvec) is the offset of exactly the voxel it decodes to |
| Grid.IndexInjective | c/utils.cpp:21-22 | distinct voxels of the field have distinct offsets |
| Grid.Box | c/utils.cpp:85-87 | the triple loop over [lo, hi) lists exactly the voxels of the box, in ascending order, and there are as many as the product of the extents |
| Fields.AsField | c/utils.cpp:276-281 | an array is a field exactly when it has 3 or 4 axes; the leading axes, in order, are the grid sizes, the last axis is the channel count, and 3 axes make a plane |
| Correlation.Corr | c/utils.cpp:103-179 | the kernel yields NaN exactly for empty vectors and a number otherwise |
| Correlation.VectorLoopEnd | c/utils.cpp:113 | the vectorised loop stops at the largest multiple of 8 not above n, so fewer than 8 entries are left for the scalar loop |
| Correlation.RegisterSum | c/utils.cpp:113-136 | the 8 lane accumulators, added up, hold the sum of the batched prefix |
| Correlation.TailSumIsSum | c/utils.cpp:143-148 | the remainder loop adds the sum of the entries after the batches |
| Correlation.BatchedSumIsSum | c/utils.cpp:155-173 | the batched cross sum (lanes plus remainder) equals the plain sum |
| Correlation.BatchedMeanIsMean | c/utils.cpp:113-148 | the batched mean (lanes divided by n, plus remainder terms divided by n) equals the plain mean |
| Correlation.KernelMoments | c/utils.cpp:130-151 | the kernel's means equal the plain means, and mean square minus squared mean is the population variance |
| Correlation.MomentsGiveVariance | c/utils.cpp:150-151 | mean of squares minus squared mean equals the mean squared deviation |
| Correlation.VarianceNonNegative | c/utils.cpp:150-151 | the quantity under the square root is never negative |
| Correlation.CorrIsPearson | c/utils.cpp:103-179 | the batched kernel equals the textbook population Pearson coefficient for every input |
| Correlation.PearsonNormalised | c/utils.cpp:154-175 | dividing the centred cross sum by sd_a * sd_b * n is the covariance divided by the product of the deviations, and 0 when either is 0 |
| Correlation.CorrZeroWhenFlat | c/utils.cpp:152-154 | when either standard deviation is 0 the result is exactly 0 |
| Correlation.ConstantVariance | c/utils.cpp:137-151 | a constant vector has that constant as mean and variance 0 |
| Correlation.CorrWithConstant | c/utils.cpp:150-154 | correlating with a constant vector gives exactly 0 |
| Correlation.CorrSymmetric | c/utils.cpp:103-179 | the kernel is symmetric in its two vectors |
| Correlation.CorrSelf | c/utils.cpp:150-175 | with a true square root, a vector of non-zero variance correlates with itself at exactly 1 |
| Correlation.CorrReversed | c/utils.cpp:103-179 | with a true square root, [1, 2, 3, 4] against [4, 3, 2, 1] gives exactly -1 |
| Correlation.ReversedMoments | c/utils.cpp:137-175 | the two four-entry vectors have variance 1.25 each and covariance -1.25 |
| Flooding.Start | c/utils.cpp:285-292 | before the loop only the seed is queued, nothing is listed, the counter is 0 and the loop is not capped; as written no mask bit is set, intended only the seed's |
| Flooding.Try | c/utils.cpp:304-311 | a neighbour test leaves the list, counter and cap flag alone and enqueues at most its target, only when that target is in the field and admitted |
| Flooding.TryTaken | c/utils.cpp:393-401 | a taken step sets the bit of the voxel MaskedBy names (as written the current voxel for z + 1) and enqueues the target |
| Flooding.TryBlocked | c/utils.cpp:304-335 | a step that fails its guard, meets a marked target or is not admitted changes nothing |
| Flooding.GuardAdjacent | c/utils.cpp:357-410 | a step that passes its bounds guard lands on a field voxel one unit away along one axis, at or above the lowest admitted coordinate |
| Flooding.AdjacentDir | c/utils.cpp:357-410 | conversely, every such neighbour is the target of a step of the rank's table that passes its guard |
| Flooding.VisitPlane | c/utils.cpp:304-335 | in a plane one pass tests x + 1, x - 1, y + 1, y - 1, in that order |
| Flooding.VisitVolume | c/utils.cpp:357-410 | in a volume one pass tests x + 1, x - 1, y + 1, y - 1, z + 1, z - 1, in that order |
| Flooding.Step | c/utils.cpp:293-356 | each pass ticks the counter once, and the loop breaks exactly when the counter exceeds max_pixels |
| Flooding.Traverse | c/utils.cpp:293-356 | the loop ends broken on the cap or with an empty queue, after at most max(max_pixels, 0) + 1 passes |
| Flooding.TryKeeps | c/utils.cpp:304-311 | one neighbour test keeps the list linked and the mask sound, only appends, and leaves an admitted guarded target found |
| Flooding.VisitKeeps | c/utils.cpp:304-335 | a whole pass keeps those invariants and leaves every admitted guarded neighbour found |
| Flooding.StepGrows | c/utils.cpp:293-335 | a pass lists the queue head, only appends to the found list, and closes the listed voxel |
| Flooding.TraverseKeeps | c/utils.cpp:293-336 | the loop either breaks with the counter above the cap or empties the queue with the invariant intact |
| Flooding.TraverseEnds | c/utils.cpp:293-302 | when the loop does not break, the list starts at the seed, has one entry per pass, and is sound and closed under admitted steps |
| Flooding.FloodSound | c/utils.cpp:285-417 | the list is kept exactly when the loop emptied its queue without breaking and cnt >= min_pixels; it is then the loop's discovery order with length cnt, starting at the seed with min_pixels <= length <= max_pixels; it stays in the field and is linked and closed; in a plane (and intended) no voxel but the first repeats |
| Flooding.TraverseCapped | c/utils.cpp:293-356 | when the loop breaks on the cap it has already found more than max_pixels voxels, each reachable from the seed and, where the mask records them, each once |
| Flooding.FloodLinked | c/utils.cpp:304-311 | every listed voxel after the first was admitted and lies one step from an earlier one |
| Flooding.FloodInBounds | c/utils.cpp:285-302 | every listed voxel has an offset inside the mask, and the loop makes at most max(max_pixels, 0) + 1 passes |
| Flooding.FloodLowerEdge | c/utils.cpp:312 | as written, no voxel with a coordinate 0 is listed unless the seed has that coordinate 0 |
| Flooding.FloodIsReach | c/utils.cpp:257-424 | a non-empty result (when that happens is FloodSound's) contains exactly the voxels reachable from the seed through admitted guarded steps |
| Flooding.Region | c/utils.cpp:257-424 | the region is the set of field voxels reachable from the seed through admitted guarded steps |
| Flooding.FloodRegionSize | c/utils.cpp:285-417 | with the corrections the result is non-empty exactly when the region has between min_pixels and max_pixels voxels, and it then lists every voxel of the region once, starting at the seed |
| Flooding.FloodFillSound | c/utils.cpp:257-424 | the library's result is empty or the seed, then voxels correlating with the seed above r, each next to an earlier one; in a plane no voxel after the first repeats |
| Flooding.FloodFillIntendedRegion | c/utils.cpp:257-424 | with the three corrections the result is non-empty exactly when the voxels connected to the seed through voxels correlating above r number between min_pixels and max_pixels, and it then lists each of them once, starting at the seed |
| Flooding.FloodFillEntry | c/utils.cpp:271-292 | a pos argument that is not a vector is refused; an array of another rank gives an empty list; otherwise the result is empty or starts at the seed pos names, with bounded length, inside the field |
| FloodFillCases.TryMarked | c/utils.cpp:304 | a step whose target's bit is already set changes nothing |
| FloodFillCases.RowAsWritten | c/utils.cpp:290-335 | on a fully admitted 3 x 1 row seeded at (1, 0) the code lists (1, 0), (2, 0), (1, 0): the seed twice and never (0, 0) |
| FloodFillCases.VolumeAsWritten | c/utils.cpp:393-401 | on a fully admitted 3 x 1 x 2 volume the code lists (2, 0, 1) and (1, 0, 1) twice each |
| FloodFillCases.UniformFieldAdmitsAll | c/utils.cpp:305-306 | in a field whose every value is 1.0 (so every vector is constant) every voxel correlates with the seed at 0, so a negative threshold admits every voxel |
| FloodFillCases.RowFloodFill | c/utils.cpp:257-424 | `flood_fill` on the uniform row gives the duplicated list above |
| FloodFillCases.VolumeFloodFill | c/utils.cpp:257-424 | `flood_fill` on the uniform volume gives the duplicated list above |
| Kde.Trunc | c/utils.cpp:74-76 | the double-to-int cast truncates toward zero |
| Kde.MaxDist | c/utils.cpp:61-66 | the half-width is the truncated bandwidth * prune_coeff when the coefficient is positive, and -1 otherwise |
| Kde.AxisWindow | c/utils.cpp:78-83 | the loop bounds on one axis admit exactly the grid coordinates within the half-width of the centre, or all of them when pruning is off |
| Kde.Window | c/utils.cpp:78-93 | the voxels a sample visits are exactly those it reaches, each once |
| Kde.WindowBounds | c/utils.cpp:78-87 | with a positive half-width every visited voxel is in the grid and in [max(0, c - md), min(shape, c + md + 1)) on each axis |
| Kde.NoPruneFullScan | c/utils.cpp:62-66 | a non-positive pruning coefficient scans the whole grid |
| Kde.ZeroFullScan | c/utils.cpp:78-83 | as written a half-width of 0 also scans the whole grid |
| Kde.AsWrittenNotMonotone | c/utils.cpp:63-83 | as written a smaller coefficient (0.5) can visit a voxel that a larger one (1.0) does not |
| Kde.IntendedMonotone | c/utils.cpp:78-83 | with the guard `maxdist >= 0`, a wider half-width never visits fewer voxels |
| Kde.MaxDistMonotone | c/utils.cpp:61-66 | for a non-negative bandwidth, a larger positive pruning coefficient never gives a smaller half-width |
| Kde.IntendedCoefficientMonotone | c/utils.cpp:61-83 | with the guard `maxdist >= 0`, for positive coefficients a larger coefficient never visits fewer voxels |
| Kde.Add | c/utils.cpp:90 | `m[q] += w` inserts q, adds w to its mass and leaves every other voxel alone |
| Kde.ScatterAt | c/utils.cpp:85-93 | one sample adds its mass to exactly the voxels of its window |
| Kde.LocalAt | c/utils.cpp:70-94 | a worker's map lists exactly the voxels its samples reach, each with the total mass they put there |
| Kde.TotalNonNegative | c/utils.cpp:56-58 | under a kernel that is never negative, as the Gaussian is, the mass on every voxel is non-negative |
| Kde.LocalGrows | c/utils.cpp:70-94 | under such a kernel, accumulation keeps every key and never lowers an entry |
| Kde.MergeAt | c/utils.cpp:96-99 | merging a local map adds its entries to the shared map, key by key |
| Kde.MergeOrderFree | c/utils.cpp:97-99 | the merge result does not depend on the order the local map is iterated in |
| Kde.MergeLocalAt | c/utils.cpp:96-99 | one worker's turn in the critical section adds the mass of its samples |
| Kde.CombineAt | c/utils.cpp:68-100 | after all workers the map holds the voxels some sample reaches, each with the sum of every sample's contribution |
| Kde.Estimate | c/utils.cpp:60-101 | the estimator's keys are the prior keys plus every touched voxel, and each value is the prior value plus the total mass |
| Kde.TotalPermutation | c/utils.cpp:72-73 | the total on a voxel depends only on the multiset of samples |
| Kde.EstimateSplitFree | c/utils.cpp:68-100 | the estimate is the same for every split among workers, worker order and map iteration order |
| Kde.EstimateSingleWorker | c/utils.cpp:60-101 | one worker yields exactly the reached voxels, each with the sum of the samples' mass |
| CorrMaps.Offsets | c/utils.cpp:467-469 | the neighbour offsets are the cube of half-width c without the zero offset, in loop order |
| CorrMaps.OffsetsCount | c/utils.cpp:538 | there are (2c+1)^2 - 1 offsets in a plane and (2c+1)^3 - 1 in a volume |
| CorrMaps.InteriorVoxels | c/utils.cpp:463-464 | the loops visit exactly the voxels at least c away from every border, in order |
| CorrMaps.NeighbourInField | c/utils.cpp:471 | an interior voxel plus any offset stays in the field |
| CorrMaps.NeighbourSumChannels | c/utils.cpp:465-473 | channel i of the accumulated vector is the sum of channel i over the neighbours |
| CorrMaps.NaNs | c/utils.cpp:452-455 | the initialisation fills every cell with NaN |
| CorrMaps.StoreCentresCells | c/utils.cpp:475 | after the interior loop a voxel's cell holds its correlation with its neighbour sum if it was visited, and its previous value otherwise |
| CorrMaps.CorrMap | c/utils.cpp:441-444 | an array of another rank than 3 or 4 is refused; otherwise the result has the spatial shape |
| CorrMaps.CorrMapCells | c/utils.cpp:452-507 | an interior cell holds the correlation of its vector with the sum of its neighbours' vectors, and every other cell NaN |
| CorrMaps.CorrMapNaN | c/utils.cpp:452-455 | a cell is NaN exactly when it is on the border or the vectors are empty |
| CorrMaps.Stride | c/utils.cpp:538 | as written the per-offset axis has (2c+1)^2 - 1 slots for both ranks; that is one slot per offset in a plane, and the corrected axis has one slot per offset in a volume too |
| CorrMaps.SlotValues | c/utils.cpp:557-564 | slot k of an interior voxel holds its correlation with the voxel at the k-th offset |
| CorrMaps.CorrMap2 | c/utils.cpp:533-545 | an array of another rank is refused; otherwise the shape is the spatial shape plus the per-offset axis |
| CorrMaps.WrittenSlots | c/utils.cpp:538 | the slot count computed from any integer size, (2 size + 1)^2 - 1, is never negative |
| CorrMaps.CorrMap2Sized | c/utils.cpp:518-594 | for any integer size: a non-negative size is the map above; a negative size leaves the neighbour loops empty, so the result is all NaN with (2 size + 1)^2 - 1 slots per voxel; the rank check holds either way |
| CorrMaps.StoreNeighboursCells | c/utils.cpp:561 | after the loop slot k of a visited voxel holds its k-th neighbour correlation, and every other slot its previous value |
| CorrMaps.CorrMap2Cells | c/utils.cpp:548-587 | with one slot per offset, slot k of an interior voxel holds the k-th neighbour correlation and every border slot NaN |
| CorrMaps.CorrMap2PlaneAsIntended | c/utils.cpp:552-567 | in a plane the code as written already has one slot per offset |
| CorrMaps.SingleInterior | c/utils.cpp:571-573 | a 3 x 3 x 3 volume with c = 1 has the single interior voxel (1, 1, 1) |
| CorrMaps.CentreStores | c/utils.cpp:579 | there, the 26 writes for (1, 1, 1) with stride 8 start at cell 104 |
| CorrMaps.AsWrittenOverrun | c/utils.cpp:579 | those writes reach cell 112, the first slot of voxel (1, 1, 2) |
| CorrMaps.CorrMap2VolumeOverrun | c/utils.cpp:568-587 | as written on a 3 x 3 x 3 volume the border voxel (1, 1, 2) gets a number in its first slot instead of NaN |
| CorrMaps.StoreOne | c/utils.cpp:557-564 | storing one voxel writes its slot values into its block and nothing else |
| CorrMaps.SlotsNotNaN | c/utils.cpp:562-563 | with non-empty vectors no neighbour correlation is NaN |
| CellTypeMaps.CtMap | c/utils.cpp:612-630 | a reference of rank other than 1, or of a length other than the field's last axis, is refused; otherwise cell i holds the correlation of the reference with slice i, and the shape drops the channel axis |
| CellTypeMaps.FieldVector | c/utils.cpp:629 | read as a field, voxel p's vector is the slice at p's row-major offset |

## Left out

- Argument parsing, array conversion, list and tuple construction, reference counting and the `goto fail` cleanup of every entry point, as well as `calc_kde` and `corr` wrappers: host-library plumbing. The rank and length checks of `flood_fill`, `calc_corrmap`, `calc_corrmap_2` and `calc_ctmap` are kept as `Result` errors; those of the `calc_kde` and `corr` wrappers go with the wrappers.
- OpenMP: parallel loops run sequentially. For `kde`, the split of samples among workers and the order of the critical sections are arbitrary parameters, and independence from them is proved. For `calc_corrmap_2` in 3D, the overlapping writes of different threads are modelled in loop order.
- AVX-512: each 8-lane register is a sequence of 8 reals.
- Floating point: values are exact reals. Rounding, reassociation by the batching, and overflow are not modelled. `sqrt` is the parameter `root` (a true square root only where a lemma requires `IsSqrt`). `gauss_kernel` and the division by the bandwidth are the parameter `mass`.
- The `std::hash<pos3d>` specialisation: only key equality matters to the map semantics.
- The unused `kernel` argument of `calc_kde`.
- Flooding.FloodFillEntry: a rank-0 array gives an empty list here, while the library first reads the size of its last axis (`dims[-1]`), an out-of-bounds read. It requires the seed named by pos to lie in the field. With a seed outside it the library reads outside its buffers, which is undefined behaviour. It also requires pos to hold at least three entries (two for a plane): the library checks only that pos has rank 1, so a shorter pos is an out-of-bounds read there.
- CellTypeMaps.CtMap: requires the field to have at least one axis. With none the library reads `dims[-1]`. The 32-bit loop counter `int i` is not modelled; an array of more than 2^31 - 1 vectors would overflow it.
- CorrMaps.CorrMap: the neighbourhood size is a `nat` (unlike CorrMaps.CorrMap2Sized, which takes any integer). A negative `size` makes the library read and write outside its buffers (undefined behaviour: the outer loops then start at -1), so it is excluded by the `nat` type.
- CorrMaps.CorrMap2: as written in 3D, writes that would fall beyond the end of the buffer are dropped, where the library writes past its allocation. This only happens when the last interior voxel's block overruns.
- Correlation.CorrWithConstant: requires `root(0) == 0`, which holds of `sqrt`.
- Correlation.CorrSelf: requires `root` to be a true square root.

## Findings

| source | as written | input that shows it | evidently intended | confidence | as-written member | corrected member |
|---|---|---|---|---|---|---|
| c/utils.cpp:290-292 | the seed is queued without setting its mask bit, so a neighbour re-enqueues it | fully admitted 3 x 1 plane, seed (1, 0): result (1, 0), (2, 0), (1, 0) | set the seed's bit before the loop, so each voxel is listed once | high, not executed | FloodFillCases.RowAsWritten | Flooding.FloodFillIntendedRegion |
| c/utils.cpp:312 | the downward guards are `x > 1`, `y > 1`, `z > 1`, so coordinate 0 is never entered | fully admitted 3 x 1 plane, seed (1, 0): (0, 0) is never listed | guard `> 0`, so every admitted connected voxel is reached | high, not executed | Flooding.FloodLowerEdge | Flooding.FloodFillIntendedRegion |
| c/utils.cpp:396 | the z + 1 step marks the current voxel instead of the one it enqueues | fully admitted 3 x 1 x 2 volume, seed (1, 0, 0): (2, 0, 1) and (1, 0, 1) listed twice | mark I3D(x, y, z + 1) | high, not executed | FloodFillCases.VolumeAsWritten | Flooding.FloodFillIntendedRegion |
| c/utils.cpp:78-83 | the window guard is `maxdist > 0`, so a truncated half-width of 0 scans the whole grid | shape 5 x 1 x 1, sample (2, 0, 0), bandwidth 1: coefficient 0.5 visits (0, 0, 0), coefficient 1 does not | guard `maxdist >= 0`, so for positive coefficients the windows grow with the coefficient | medium, not executed | Kde.AsWrittenNotMonotone | Kde.IntendedCoefficientMonotone |
| c/utils.cpp:538 | the per-offset axis has (2c+1)^2 - 1 slots in 3D too, while 26 values are written per voxel for c = 1 | 3 x 3 x 3 x n field with n > 0, c = 1: border voxel (1, 1, 2) gets a correlation in slot 0 | (2c+1)^3 - 1 slots in 3D | high, not executed | CorrMaps.CorrMap2VolumeOverrun | CorrMaps.CorrMap2Cells |

=== FILE: correlation.dfy ===
/** Pearson correlation of two channel vectors (`__corr__`), in exact real
    arithmetic. The library accumulates sums in one AVX-512 register of eight
    lanes over whole batches and handles the remaining elements one by one;
    here the register is a sequence of eight running sums, and the lemmas show
    that this batching computes the plain whole-vector sums. The square root
    is the parameter `root`: a lemma that needs it to be a square root says so
    with IsSqrt. */
module Correlation {
  import opened Values

  /** Doubles per AVX-512 register. */
  const Lanes: nat := 8

  function Sum(s: seq<real>): real
  {
    if |s| == 0 then 0.0 else Sum(s[..|s| - 1]) + s[|s| - 1]
  }

  lemma {:induction false} SumAppend(a: seq<real>, b: seq<real>)
    ensures Sum(a + b) == Sum(a) + Sum(b)
    decreases |b|
  {
    if |b| == 0 {
      assert a + b == a;
    } else {
      var b' := b[..|b| - 1];
      assert (a + b)[..|a + b| - 1] == a + b';
      SumAppend(a, b');
    }
  }

  /** Elementwise products a[i] * b[i]. */
  function Products(a: seq<real>, b: seq<real>): (p: seq<real>)
    requires |a| == |b|
    ensures |p| == |a|
    ensures forall i :: 0 <= i < |a| ==> p[i] == a[i] * b[i]
  {
    seq(|a|, i requires 0 <= i < |a| => a[i] * b[i])
  }

  /** Every element minus m (the `_mm512_sub_pd(va, set1(a_mean))` step). */
  function Shift(a: seq<real>, m: real): (c: seq<real>)
    ensures |c| == |a|
    ensures forall i :: 0 <= i < |a| ==> c[i] == a[i] - m
  {
    seq(|a|, i requires 0 <= i < |a| => a[i] - m)
  }

  lemma ProductsPrefix(a: seq<real>, b: seq<real>, n: nat)
    requires |a| == |b| && n <= |a|
    ensures Products(a, b)[..n] == Products(a[..n], b[..n])
  {
    forall i | 0 <= i < n
      ensures Products(a, b)[..n][i] == Products(a[..n], b[..n])[i]
    {
      assert a[..n][i] == a[i] && b[..n][i] == b[i];
    }
  }

  lemma ShiftPrefix(a: seq<real>, m: real, n: nat)
    requires n <= |a|
    ensures Shift(a, m)[..n] == Shift(a[..n], m)
  {
    forall i | 0 <= i < n
      ensures Shift(a, m)[..n][i] == Shift(a[..n], m)[i]
    {
      assert a[..n][i] == a[i];
    }
  }

  /** Where the vector loop `for (i = 0; i <= n - 8; i += 8)` leaves i. */
  function VectorLoop(n: int, i: nat): nat
    decreases n - i
  {
    if i <= n - Lanes then VectorLoop(n, i + Lanes) else i
  }

  /** The vector loop stops at the largest multiple of eight not above n: the
      elements before it are batched, fewer than eight remain. */
  lemma VectorLoopEnd(n: nat)
    ensures VectorLoop(n, 0) == (n / Lanes) * Lanes
    ensures VectorLoop(n, 0) <= n < VectorLoop(n, 0) + Lanes
    ensures (VectorLoop(n, 0) / Lanes) * Lanes == VectorLoop(n, 0)
  {
    VectorLoopFrom(n, 0);
    var q := n / 8;
    assert Lanes == 8 && VectorLoop(n, 0) == q * 8;
    assert (q * 8) / 8 == q;
  }

  lemma {:induction false} VectorLoopFrom(n: nat, i: nat)
    requires i % Lanes == 0 && i <= (n / Lanes) * Lanes
    ensures VectorLoop(n, i) == (n / Lanes) * Lanes
    decreases n - i
  {
    if i <= n - Lanes {
      assert i + Lanes <= (n / Lanes) * Lanes;
      VectorLoopFrom(n, i + Lanes);
    }
  }

  /** A register of eight zero lanes (`_mm512_setzero_pd`). */
  function ZeroRegister(): seq<real>
  {
    seq(Lanes, j => 0.0)
  }

  /** Lane-wise addition (`_mm512_add_pd`). */
  function LaneAdd(u: seq<real>, v: seq<real>): (w: seq<real>)
    requires |u| == |v|
    ensures |w| == |u|
    ensures forall j :: 0 <= j < |u| ==> w[j] == u[j] + v[j]
  {
    seq(|u|, j requires 0 <= j < |u| => u[j] + v[j])
  }

  /** The accumulator register after the first `batches` passes of the
      vector loop over s. */
  function Register(s: seq<real>, batches: nat): (reg: seq<real>)
    requires batches * Lanes <= |s|
    ensures |reg| == Lanes
  {
    if batches == 0 then ZeroRegister()
    else
      var lo := (batches - 1) * Lanes;
      LaneAdd(Register(s, batches - 1), s[lo .. lo + Lanes])
  }

  lemma {:induction false} LaneAddSum(u: seq<real>, v: seq<real>)
    requires |u| == |v|
    ensures Sum(LaneAdd(u, v)) == Sum(u) + Sum(v)
    decreases |u|
  {
    if |u| > 0 {
      var n := |u| - 1;
      assert LaneAdd(u, v)[..n] == LaneAdd(u[..n], v[..n]);
      LaneAddSum(u[..n], v[..n]);
    }
  }

  lemma {:induction false} ZeroSum(n: nat)
    ensures Sum(seq(n, j => 0.0)) == 0.0
  {
    if n > 0 {
      assert seq(n, j => 0.0)[..n - 1] == seq(n - 1, j => 0.0);
      ZeroSum(n - 1);
    }
  }

  /** Summing the eight lanes of the register (the horizontal reduction after
      `_mm512_storeu_pd`) gives the plain sum of the batched prefix. */
  lemma {:induction false} RegisterSum(s: seq<real>, batches: nat)
    requires batches * Lanes <= |s|
    ensures Sum(Register(s, batches)) == Sum(s[..batches * Lanes])
  {
    if batches == 0 {
      ZeroSum(Lanes);
      assert s[..0] == [];
    } else {
      assert Lanes == 8;
      var lo := (batches - 1) * Lanes;
      var hi := batches * Lanes;
      assert lo == (batches - 1) * 8 && hi == batches * 8 == lo + 8;
      var batch := s[lo .. hi];
      var r := Register(s, batches - 1);
      assert Sum(r) == Sum(s[..lo]) by {
        RegisterSum(s, batches - 1);
      }
      assert Sum(Register(s, batches)) == Sum(r) + Sum(batch) by {
        LaneAddSum(r, batch);
      }
      assert Sum(s[..hi]) == Sum(s[..lo]) + Sum(batch) by {
        assert s[..hi] == s[..lo] + batch;
        SumAppend(s[..lo], batch);
      }
    }
  }

  /** The scalar remainder loop of the second pass: s[i] + s[i+1] + ... */
  function TailSum(s: seq<real>, i: nat): real
    requires i <= |s|
    decreases |s| - i
  {
    if i == |s| then 0.0 else s[i] + TailSum(s, i + 1)
  }

  /** The scalar remainder loop of the first pass: s[i]/n + s[i+1]/n + ... */
  function TailMean(s: seq<real>, i: nat): real
    requires 0 < |s| && i <= |s|
    decreases |s| - i
  {
    if i == |s| then 0.0 else s[i] / (|s| as real) + TailMean(s, i + 1)
  }

  lemma {:induction false} TailSumIsSum(s: seq<real>, i: nat)
    requires i <= |s|
    ensures TailSum(s, i) == Sum(s[i..])
    decreases |s| - i
  {
    if i < |s| {
      TailSumIsSum(s, i + 1);
      assert s[i..] == [s[i]] + s[i + 1..];
      SumAppend([s[i]], s[i + 1..]);
      assert [s[i]][..0] == [];
    } else {
      assert s[i..] == [];
    }
  }

  lemma {:induction false} TailMeanIsMean(s: seq<real>, i: nat)
    requires 0 < |s| && i <= |s|
    ensures TailMean(s, i) == TailSum(s, i) / (|s| as real)
    decreases |s| - i
  {
    if i < |s| {
      TailMeanIsMean(s, i + 1);
    }
  }

  /** The first-pass means: register lanes summed and divided by n, then the
      remainder added one element at a time, each divided by n. */
  function BatchedMean(s: seq<real>): real
    requires 0 < |s|
  {
    var e := VectorLoop(|s|, 0);
    VectorLoopEnd(|s|);
    Sum(Register(s, e / Lanes)) / (|s| as real) + TailMean(s, e)
  }

  /** The second-pass cross sum: register lanes summed, then the remainder
      added one element at a time. */
  function BatchedSum(s: seq<real>): real
  {
    var e := VectorLoop(|s|, 0);
    VectorLoopEnd(|s|);
    Sum(Register(s, e / Lanes)) + TailSum(s, e)
  }

  lemma BatchedSumIsSum(s: seq<real>)
    ensures BatchedSum(s) == Sum(s)
  {
    var e := VectorLoop(|s|, 0);
    VectorLoopEnd(|s|);
    RegisterSum(s, e / Lanes);
    TailSumIsSum(s, e);
    assert s == s[..e] + s[e..];
    SumAppend(s[..e], s[e..]);
  }

  lemma BatchedMeanIsMean(s: seq<real>)
    requires 0 < |s|
    ensures BatchedMean(s) == Mean(s)
  {
    var e := VectorLoop(|s|, 0);
    VectorLoopEnd(|s|);
    var n := |s| as real;
    var x, y := Sum(s[..e]), Sum(s[e..]);
    assert BatchedMean(s) == x / n + y / n by {
      BatchedMeanParts(s);
    }
    assert Sum(s) == x + y by {
      assert s == s[..e] + s[e..];
      SumAppend(s[..e], s[e..]);
    }
    DivAdd(x, y, n);
  }

  /** The register part and the remainder part of the first pass are the
      sums of the batched prefix and of the rest, each divided by n. */
  lemma BatchedMeanParts(s: seq<real>)
    requires 0 < |s|
    ensures VectorLoop(|s|, 0) <= |s|
    ensures BatchedMean(s)
         == Sum(s[..VectorLoop(|s|, 0)]) / (|s| as real) + Sum(s[VectorLoop(|s|, 0)..]) / (|s| as real)
  {
    var e := VectorLoop(|s|, 0);
    VectorLoopEnd(|s|);
    var b := e / Lanes;
    assert b * Lanes == e;
    assert Sum(Register(s, b)) == Sum(s[..e]) by {
      RegisterSum(s, b);
    }
    assert TailMean(s, e) == Sum(s[e..]) / (|s| as real) by {
      TailMeanIsMean(s, e);
      TailSumIsSum(s, e);
    }
  }

  lemma DivAdd(x: real, y: real, n: real)
    requires n != 0.0
    ensures x / n + y / n == (x + y) / n
  {
  }

  lemma MulDivCancel(x: real, n: real)
    requires n != 0.0
    ensures n * (x / n) == x && (n * x) / n == x
  {
  }

  lemma ZeroSquare(x: real)
    ensures x == 0.0 ==> x * x == 0.0
  {
  }

  lemma DivSelf(x: real)
    requires x != 0.0
    ensures x / x == 1.0
  {
  }

  /** m * (x + y) == m * x + m * y and c * (b - m) == c * b - m * c. */
  lemma Distribute(m: real, x: real, y: real)
    ensures m * (x + y) == m * x + m * y && x * (y - m) == x * y - m * x
  {
  }

  lemma DivDiv(x: real, p: real, n: real)
    requires p != 0.0 && n != 0.0
    ensures x / (p * n) == (x / n) / p
  {
    var q, t := x / (p * n), (x / n) / p;
    assert q * (p * n) == x;
    assert t * p == x / n;
    assert t * p * n == x;
    assert q * (p * n) == t * (p * n);
  }

  /** `__corr__(a, b, n)`: the first pass yields the population means and
      mean squares, the standard deviations are the roots of
      mean-square minus squared mean, and only when both are non-zero does the
      second pass compute the centred cross sum, divided by sd_a * sd_b * n.
      With n == 0 the means are 0/0, hence NaN, and the NaN propagates to
      the result. */
  function Corr(a: seq<real>, b: seq<real>, root: real -> real): (r: Value)
    requires |a| == |b|
    ensures r == NaN <==> |a| == 0
  {
    if |a| == 0 then NaN
    else
      var n := |a| as real;
      var am := BatchedMean(a);
      var bm := BatchedMean(b);
      var aam := BatchedMean(Products(a, a));
      var bbm := BatchedMean(Products(b, b));
      Normalised(BatchedSum(Products(Shift(a, am), Shift(b, bm))), root(aam - am * am), root(bbm - bm * bm), n)
  }

  /** The last step of the kernel: the cross sum divided by sd_a * sd_b * n,
      or 0 when either standard deviation is 0. */
  function Normalised(cross: real, asd: real, bsd: real, n: real): (r: Value)
    requires n != 0.0
    ensures r.Num?
  {
    if asd != 0.0 && bsd != 0.0 then Num(cross / (asd * bsd * n)) else Num(0.0)
  }

  // ---------------------------------------------------------------------
  // The textbook definition, written independently of the batching.

  function Mean(s: seq<real>): real
    requires 0 < |s|
  {
    Sum(s) / (|s| as real)
  }

  /** Population covariance (divides by n, not n - 1). */
  function Covariance(a: seq<real>, b: seq<real>): real
    requires 0 < |a| == |b|
  {
    Sum(Products(Shift(a, Mean(a)), Shift(b, Mean(b)))) / (|a| as real)
  }

  /** Population variance: mean squared deviation from the mean. */
  function Variance(a: seq<real>): real
    requires 0 < |a|
  {
    Covariance(a, a)
  }

  /** Pearson's r, defined as 0 when either standard deviation is 0 and NaN
      for empty vectors. */
  function Pearson(a: seq<real>, b: seq<real>, root: real -> real): Value
    requires |a| == |b|
  {
    if |a| == 0 then NaN
    else
      var sa := root(Variance(a));
      var sb := root(Variance(b));
      if sa != 0.0 && sb != 0.0 then Num(Covariance(a, b) / (sa * sb)) else Num(0.0)
  }

  /** `root` returns the non-negative square root of every non-negative real. */
  ghost predicate IsSqrt(root: real -> real)
  {
    forall v :: 0.0 <= v ==> 0.0 <= root(v) && root(v) * root(v) == v
  }

  lemma SumLast(s: seq<real>)
    requires 0 < |s|
    ensures Sum(s) == Sum(s[..|s| - 1]) + s[|s| - 1]
  {
  }

  lemma ProductsCommute(a: seq<real>, b: seq<real>)
    requires |a| == |b|
    ensures Products(a, b) == Products(b, a)
  {
    assert forall i :: 0 <= i < |a| ==> Products(a, b)[i] == Products(b, a)[i];
  }

  /** Shifting every element of one factor by m takes m times the other
      factor's sum off the sum of products. */
  lemma SumProductsShift(c: seq<real>, b: seq<real>, m: real)
    requires |c| == |b|
    ensures Sum(Products(c, Shift(b, m))) == Sum(Products(c, b)) - m * Sum(c)
  {
    var p, q := Products(c, Shift(b, m)), Products(c, b);
    forall i | 0 <= i < |c|
      ensures p[i] == q[i] - m * c[i]
    {
      ProductsShiftAt(c, b, m, i);
    }
    SumScaledDifference(p, q, c, m);
  }

  /** Pointwise p = q - m * c carries over to the sums. */
  lemma {:induction false} SumScaledDifference(p: seq<real>, q: seq<real>, c: seq<real>, m: real)
    requires |p| == |q| == |c|
    requires forall i :: 0 <= i < |p| ==> p[i] == q[i] - m * c[i]
    ensures Sum(p) == Sum(q) - m * Sum(c)
    decreases |p|
  {
    if |p| > 0 {
      var k := |p| - 1;
      var sp, sq, sc := Sum(p[..k]), Sum(q[..k]), Sum(c[..k]);
      assert sp == sq - m * sc by {
        SumScaledDifference(p[..k], q[..k], c[..k], m);
      }
      ShiftStep(sp, sq, p[k], q[k], m, sc, c[k], Sum(c), Sum(p), Sum(q));
    }
  }

  lemma ProductsShiftAt(c: seq<real>, b: seq<real>, m: real, i: nat)
    requires |c| == |b| && i < |c|
    ensures Products(c, Shift(b, m))[i] == Products(c, b)[i] - m * c[i]
  {
    var x := Shift(b, m)[i];
    assert Products(c, Shift(b, m))[i] == c[i] * x;
    MulShift(c[i], x, b[i], m);
  }

  lemma MulShift(c: real, x: real, y: real, m: real)
    requires x == y - m
    ensures c * x == c * y - m * c
  {
  }

  /** The arithmetic of the step, with every sum a plain number. */
  lemma ShiftStep(sp: real, sq: real, pk: real, qk: real, m: real, sc: real, ck: real, s: real, tp: real, tq: real)
    requires sp == sq - m * sc && pk == qk - m * ck
    requires s == sc + ck && tp == sp + pk && tq == sq + qk
    ensures tp == tq - m * s
  {
    Distribute(m, sc, ck);
  }

  /** Shifting n elements by m takes n * m off their sum. */
  lemma {:induction false} SumShift(a: seq<real>, m: real, n: real)
    requires n == |a| as real
    ensures Sum(Shift(a, m)) == Sum(a) - n * m
    decreases |a|
  {
    if |a| > 0 {
      var k := |a| - 1;
      assert Shift(a, m)[..k] == Shift(a[..k], m) by {
        ShiftPrefix(a, m, k);
      }
      SumShift(a[..k], m, n - 1.0);
      Distribute(m, n - 1.0, 1.0);
      assert (n - 1.0) * m + m == n * m;
    }
  }

  /** Deviations from the mean sum to zero. */
  lemma CentredSumZero(a: seq<real>)
    requires 0 < |a|
    ensures Sum(Shift(a, Mean(a))) == 0.0
  {
    var n := |a| as real;
    SumShift(a, Mean(a), n);
    MulDivCancel(Sum(a), n);
  }

  /** Squares of deviations from a point m whose deviations sum to zero add
      up to the raw sum of squares less m times the plain sum. */
  lemma CentredSquares(a: seq<real>, m: real)
    requires Sum(Shift(a, m)) == 0.0
    ensures Sum(Products(Shift(a, m), Shift(a, m))) == Sum(Products(a, a)) - m * Sum(a)
  {
    var c := Shift(a, m);
    var scc, sca, saa, sa := Sum(Products(c, c)), Sum(Products(c, a)), Sum(Products(a, a)), Sum(a);
    assert scc == sca - m * 0.0 by {
      SumProductsShift(c, a, m);
    }
    assert sca == saa - m * sa by {
      ProductsCommute(c, a);
      SumProductsShift(a, a, m);
    }
  }

  /** The library's "mean square minus squared mean" is the variance. */
  lemma MomentsGiveVariance(a: seq<real>)
    requires 0 < |a|
    ensures Mean(Products(a, a)) - Mean(a) * Mean(a) == Variance(a)
  {
    CentredSumZero(a);
    MomentsUnfold(a);
    MomentsAround(a, Mean(a));
  }

  /** VarianceIdentity divided by n. */
  lemma MomentsAround(a: seq<real>, m: real)
    requires 0 < |a| && Sum(Shift(a, m)) == 0.0
    ensures Sum(Products(a, a)) / (|a| as real) - m * m == Sum(Products(Shift(a, m), Shift(a, m))) / (|a| as real)
  {
    VarianceIdentity(a, m);
    MeanSquareStep(Sum(Products(Shift(a, m), Shift(a, m))), Sum(Products(a, a)), m * m, |a| as real);
  }

  lemma MomentsUnfold(a: seq<real>)
    requires 0 < |a|
    ensures Mean(a) == Sum(a) / (|a| as real)
    ensures Mean(Products(a, a)) == Sum(Products(a, a)) / (|a| as real)
    ensures Variance(a) == Sum(Products(Shift(a, Mean(a)), Shift(a, Mean(a)))) / (|a| as real)
  {
  }

  /** For the point m that the deviations balance around, the sum of squared
      deviations is the raw sum of squares less n times m squared. */
  lemma VarianceIdentity(a: seq<real>, m: real)
    requires Sum(Shift(a, m)) == 0.0
    ensures Sum(Products(Shift(a, m), Shift(a, m))) == Sum(Products(a, a)) - (|a| as real) * (m * m)
  {
    var n := |a| as real;
    var scc, saa, sa := Sum(Products(Shift(a, m), Shift(a, m))), Sum(Products(a, a)), Sum(a);
    assert sa == n * m by {
      SumShift(a, m, n);
    }
    assert scc == saa - m * sa by {
      CentredSquares(a, m);
    }
    MulSwap(m, sa, n);
  }

  lemma MulSwap(m: real, sa: real, n: real)
    requires sa == n * m
    ensures m * sa == n * (m * m)
  {
  }

  /** Dividing the identity by n. */
  lemma MeanSquareStep(scc: real, saa: real, mm: real, n: real)
    requires n != 0.0 && scc == saa - n * mm
    ensures saa / n - mm == scc / n
  {
    MulDivCancel(-mm, n);
    DivAdd(saa, -(n * mm), n);
  }

  /** The variance is a mean of squares, so never negative. */
  lemma VarianceNonNegative(a: seq<real>)
    requires 0 < |a|
    ensures 0.0 <= Variance(a)
  {
    SquaresNonNegative(Shift(a, Mean(a)));
  }

  lemma {:induction false} SquaresNonNegative(c: seq<real>)
    ensures 0.0 <= Sum(Products(c, c))
    decreases |c|
  {
    if |c| > 0 {
      var n := |c| - 1;
      ProductsPrefix(c, c, n);
      SquaresNonNegative(c[..n]);
    }
  }

  /** The batched kernel computes the textbook Pearson correlation, whatever
      the split into eight-wide batches and scalar remainder. */
  lemma CorrIsPearson(a: seq<real>, b: seq<real>, root: real -> real)
    requires |a| == |b|
    ensures Corr(a, b, root) == Pearson(a, b, root)
  {
    if |a| > 0 {
      var n := |a| as real;
      KernelMoments(a);
      KernelMoments(b);
      var s := Products(Shift(a, Mean(a)), Shift(b, Mean(b)));
      assert BatchedSum(s) == Sum(s) by {
        BatchedSumIsSum(s);
      }
      assert Corr(a, b, root) == Normalised(Sum(s), root(Variance(a)), root(Variance(b)), n);
      PearsonNormalised(a, b, root);
    }
  }

  /** The first pass of the kernel yields the mean and, through the mean
      square, the variance. */
  lemma KernelMoments(a: seq<real>)
    requires 0 < |a|
    ensures BatchedMean(a) == Mean(a)
    ensures BatchedMean(Products(a, a)) - BatchedMean(a) * BatchedMean(a) == Variance(a)
  {
    BatchedMeanIsMean(a);
    BatchedMeanIsMean(Products(a, a));
    MomentsGiveVariance(a);
  }

  /** Pearson's r is the centred cross sum normalised as the kernel does. */
  lemma PearsonNormalised(a: seq<real>, b: seq<real>, root: real -> real)
    requires 0 < |a| == |b|
    ensures Pearson(a, b, root)
         == Normalised(Sum(Products(Shift(a, Mean(a)), Shift(b, Mean(b)))),
                       root(Variance(a)), root(Variance(b)), |a| as real)
  {
    var x := Sum(Products(Shift(a, Mean(a)), Shift(b, Mean(b))));
    PearsonUnfold(a, b, root);
    QuotientOrder(x, |a| as real, root(Variance(a)), root(Variance(b)), Covariance(a, b));
  }

  lemma PearsonUnfold(a: seq<real>, b: seq<real>, root: real -> real)
    requires 0 < |a| == |b|
    ensures Covariance(a, b) == Sum(Products(Shift(a, Mean(a)), Shift(b, Mean(b)))) / (|a| as real)
    ensures Pearson(a, b, root)
         == if root(Variance(a)) != 0.0 && root(Variance(b)) != 0.0
            then Num(Covariance(a, b) / (root(Variance(a)) * root(Variance(b))))
            else Num(0.0)
  {
  }

  /** Dividing by n and then by sa * sb is dividing by sa * sb * n. */
  lemma QuotientOrder(x: real, n: real, sa: real, sb: real, cov: real)
    requires n != 0.0 && cov == x / n
    ensures (if sa != 0.0 && sb != 0.0 then Num(cov / (sa * sb)) else Num(0.0)) == Normalised(x, sa, sb, n)
  {
    if sa != 0.0 && sb != 0.0 {
      assert sa * sb != 0.0;
      DivDiv(x, sa * sb, n);
    }
  }

  /** Edge case of the kernel: when either standard deviation is zero the
      result is exactly 0, not a division by zero. */
  lemma CorrZeroWhenFlat(a: seq<real>, b: seq<real>, root: real -> real)
    requires 0 < |a| == |b|
    requires root(Variance(a)) == 0.0 || root(Variance(b)) == 0.0
    ensures Corr(a, b, root) == Num(0.0)
  {
    CorrIsPearson(a, b, root);
  }

  /** A constant vector has no variance. */
  lemma {:induction false} ConstantVariance(b: seq<real>, c: real)
    requires 0 < |b|
    requires forall i :: 0 <= i < |b| ==> b[i] == c
    ensures Mean(b) == c && Variance(b) == 0.0
  {
    var n := |b| as real;
    assert Mean(b) == c by {
      ConstantSum(b, c);
      MulDivCancel(c, n);
      MomentsUnfold(b);
    }
    assert Sum(Products(Shift(b, c), Shift(b, c))) == 0.0 by {
      assert Products(Shift(b, c), Shift(b, c)) == seq(|b|, i => 0.0);
      ZeroSum(|b|);
    }
    MomentsUnfold(b);
  }

  lemma {:induction false} ConstantSum(b: seq<real>, c: real)
    requires forall i :: 0 <= i < |b| ==> b[i] == c
    ensures Sum(b) == (|b| as real) * c
    decreases |b|
  {
    if |b| > 0 {
      ConstantSum(b[..|b| - 1], c);
    }
  }

  /** Correlating anything with a constant vector gives 0 (the square root
      of 0 is 0). */
  lemma CorrWithConstant(a: seq<real>, b: seq<real>, c: real, root: real -> real)
    requires root(0.0) == 0.0
    requires 0 < |a| == |b|
    requires forall i :: 0 <= i < |b| ==> b[i] == c
    ensures Corr(a, b, root) == Num(0.0)
  {
    ConstantVariance(b, c);
    CorrZeroWhenFlat(a, b, root);
  }

  /** Pearson's r is symmetric in its arguments. */
  lemma CorrSymmetric(a: seq<real>, b: seq<real>, root: real -> real)
    requires |a| == |b|
    ensures Corr(a, b, root) == Corr(b, a, root)
  {
    CorrIsPearson(a, b, root);
    CorrIsPearson(b, a, root);
    if |a| > 0 {
      var sa, sb := Shift(a, Mean(a)), Shift(b, Mean(b));
      assert Products(sa, sb) == Products(sb, sa);
      assert root(Variance(a)) * root(Variance(b)) == root(Variance(b)) * root(Variance(a));
    }
  }

  /** A vector that varies correlates perfectly with itself. */
  lemma CorrSelf(a: seq<real>, root: real -> real)
    requires IsSqrt(root)
    requires 0 < |a| && Variance(a) != 0.0
    ensures Corr(a, a, root) == Num(1.0)
  {
    CorrIsPearson(a, a, root);
    var v := Variance(a);
    var s := root(v);
    assert s * s == v by {
      VarianceNonNegative(a);
    }
    SelfQuotient(Covariance(a, a), v, s);
  }

  /** A non-zero covariance over the square of its own root is 1. */
  lemma SelfQuotient(cov: real, v: real, s: real)
    requires cov == v && s * s == v && v != 0.0
    ensures s != 0.0 && cov / (s * s) == 1.0
  {
    ZeroSquare(s);
    DivSelf(v);
  }

  lemma SumFour(s: seq<real>)
    requires |s| == 4
    ensures Sum(s) == s[0] + s[1] + s[2] + s[3]
  {
    SumLast(s);
    SumLast(s[..3]);
    SumLast(s[..3][..2]);
    SumLast(s[..3][..2][..1]);
    assert s[..3][..2][..1][..0] == [];
  }

  lemma MeanFour(s: seq<real>)
    requires |s| == 4
    ensures Mean(s) == (s[0] + s[1] + s[2] + s[3]) / 4.0
  {
    SumFour(s);
  }

  lemma CovarianceFour(a: seq<real>, b: seq<real>)
    requires |a| == |b| == 4
    ensures Covariance(a, b)
         == ((a[0] - Mean(a)) * (b[0] - Mean(b)) + (a[1] - Mean(a)) * (b[1] - Mean(b))
           + (a[2] - Mean(a)) * (b[2] - Mean(b)) + (a[3] - Mean(a)) * (b[3] - Mean(b))) / 4.0
  {
    SumFour(Products(Shift(a, Mean(a)), Shift(b, Mean(b))));
  }

  /** The worked example: [1, 2, 3, 4] against [4, 3, 2, 1] gives -1. */
  lemma CorrReversed(a: seq<real>, b: seq<real>, root: real -> real)
    requires IsSqrt(root)
    requires a == [1.0, 2.0, 3.0, 4.0] && b == [4.0, 3.0, 2.0, 1.0]
    ensures Corr(a, b, root) == Num(-1.0)
  {
    ReversedMoments(a, b);
    CorrIsPearson(a, b, root);
    PearsonOfMoments(a, b, root);
  }

  /** Equal variances v and covariance -v make Pearson's r exactly -1. */
  lemma PearsonOfMoments(a: seq<real>, b: seq<real>, root: real -> real)
    requires IsSqrt(root)
    requires 0 < |a| == |b| && Variance(a) == 1.25 && Variance(b) == 1.25 && Covariance(a, b) == -1.25
    ensures Pearson(a, b, root) == Num(-1.0)
  {
    var s := root(1.25);
    var ss := s * s;
    assert ss == 1.25;
    assert Pearson(a, b, root) == Num(-1.25 / ss);
  }

  /** The moments of the worked example: both variances are 1.25 and the
      covariance is -1.25. */
  lemma ReversedMoments(a: seq<real>, b: seq<real>)
    requires a == [1.0, 2.0, 3.0, 4.0] && b == [4.0, 3.0, 2.0, 1.0]
    ensures Variance(a) == 1.25 && Variance(b) == 1.25 && Covariance(a, b) == -1.25
  {
    assert Mean(a) == 2.5 by {
      MeanFour(a);
    }
    assert Mean(b) == 2.5 by {
      MeanFour(b);
    }
    assert Variance(a) == 1.25 by {
      CovarianceFour(a, a);
    }
    assert Variance(b) == 1.25 by {
      CovarianceFour(b, b);
    }
    assert Covariance(a, b) == -1.25 by {
      CovarianceFour(a, b);
    }
  }
}

=== FILE: corrmap.dfy ===
/** Local correlation maps. Both entry points start from an output buffer
    filled with NaN and then visit the interior voxels only, those at least
    `size` cells away from every face:

    - the summed map stores, per voxel, the correlation of its vector with
      the sum of the vectors of its cube of neighbours;
    - the per-neighbour map stores, per voxel, one correlation per neighbour,
      in slot k of a trailing axis whose length is the stride.

    As written, the per-neighbour map sizes its trailing axis for a square
    neighbourhood, (2c + 1)^2 - 1 slots, also for volumes, where a voxel has
    (2c + 1)^3 - 1 neighbours; the Variant flag selects that stride or the
    evidently intended one. */
module CorrMaps {
  import opened Grid
  import opened Values
  import opened Fields
  import opened Correlation

  /** Cells along one side of the neighbourhood cube. */
  function Side(c: nat): nat
  {
    2 * c + 1
  }

  function Plus(p: Pos, o: Pos): Pos
  {
    Pos(p.x + o.x, p.y + o.y, p.z + o.z)
  }

  /** o is an offset of the neighbourhood loops: every component in [-c, c],
      and no offset along the third axis of a plane. */
  predicate InCube(d: Dims, c: nat, o: Pos)
  {
    var m: int := c;
    -m <= o.x <= m && -m <= o.y <= m && (if d.Plane? then o.z == 0 else -m <= o.z <= m)
  }

  /** A voxel whose whole neighbourhood lies in the field: the loops run each
      axis from c up to (but excluding) extent - c. */
  predicate Interior(d: Dims, c: nat, p: Pos)
  {
    c <= p.x < d.nx - c && c <= p.y < d.ny - c && (if d.Plane? then p.z == 0 else c <= p.z < d.nz - c)
  }

  /** s with x removed, order kept. */
  function Without(s: seq<Pos>, x: Pos): (r: seq<Pos>)
    requires Ascending(s)
    ensures forall q :: q in r <==> q in s && q != x
    ensures Ascending(r)
    ensures |r| == if x in s then |s| - 1 else |s|
  {
    if |s| == 0 then []
    else
      assert s == [s[0]] + s[1..];
      var rest := Without(s[1..], x);
      assert forall j :: 0 < j < |s| ==> Before(s[0], s[j]);
      if s[0] == x then rest
      else
        AscendingConcat([s[0]], rest);
        [s[0]] + rest
  }

  /** The neighbourhood loops (dx slowest, then dy, then dz), skipping the
      zero offset. */
  function Offsets(d: Dims, c: nat): (r: seq<Pos>)
    ensures forall o :: o in r <==> InCube(d, c, o) && o != Pos(0, 0, 0)
    ensures forall k :: 0 <= k < |r| ==> InCube(d, c, r[k])
    ensures Ascending(r)
  {
    var m: int := c;
    var lo := Pos(-m, -m, if d.Plane? then 0 else -m);
    var hi := Pos(c + 1, c + 1, if d.Plane? then 1 else c + 1);
    assert InBox(lo, hi, Pos(0, 0, 0));
    Without(Box(lo, hi), Pos(0, 0, 0))
  }

  /** A plane has (2c + 1)^2 - 1 neighbour offsets, a volume (2c + 1)^3 - 1. */
  lemma OffsetsCount(d: Dims, c: nat)
    ensures |Offsets(d, c)| == (if d.Plane? then Side(c) * Side(c) else Side(c) * Side(c) * Side(c)) - 1
  {
    var m: int := c;
    var lo := Pos(-m, -m, if d.Plane? then 0 else -m);
    var hi := Pos(c + 1, c + 1, if d.Plane? then 1 else c + 1);
    var box := Box(lo, hi);
    assert InBox(lo, hi, Pos(0, 0, 0));
    var n := Side(c);
    assert Span(lo.x, hi.x) == n && Span(lo.y, hi.y) == n;
    assert |box| == n * (n * Span(lo.z, hi.z));
    assert d.Plane? ==> |box| == n * n;
    assert d.Volume? ==> |box| == n * n * n;
  }

  /** The interior voxels in the order of the outer loops. */
  function InteriorVoxels(d: Dims, c: nat): (r: seq<Pos>)
    ensures forall p :: p in r <==> Interior(d, c, p)
    ensures AllInterior(d, c, r)
    ensures Ascending(r)
  {
    if d.Plane? then Box(Pos(c, c, 0), Pos(d.nx - c, d.ny - c, 1))
    else Box(Pos(c, c, c), Pos(d.nx - c, d.ny - c, d.nz - c))
  }

  predicate AllInterior(d: Dims, c: nat, ps: seq<Pos>)
  {
    forall i :: 0 <= i < |ps| ==> Interior(d, c, ps[i])
  }

  /** Every neighbour of an interior voxel is a voxel of the field, so no
      read leaves the buffer. */
  lemma NeighbourInField(d: Dims, c: nat, p: Pos, o: Pos)
    requires Interior(d, c, p) && o in Offsets(d, c)
    ensures d.Contains(p) && d.Contains(Plus(p, o))
  {
  }

  // ---------------------------------------------------------------------
  // The summed neighbourhood vector (tmpvec).

  function Zeros(n: nat): (z: seq<real>)
    ensures |z| == n && forall i :: 0 <= i < n ==> z[i] == 0.0
  {
    seq(n, i => 0.0)
  }

  function VecAdd(u: seq<real>, w: seq<real>): (t: seq<real>)
    requires |u| == |w|
    ensures |t| == |u| && forall i :: 0 <= i < |u| ==> t[i] == u[i] + w[i]
  {
    seq(|u|, i requires 0 <= i < |u| => u[i] + w[i])
  }

  predicate AllInField(f: Field, p: Pos, offs: seq<Pos>)
  {
    forall o | o in offs :: f.dims.Contains(Plus(p, o))
  }

  /** tmpvec after the neighbourhood loops: zeroed, then each neighbour's
      vector added in loop order. */
  function NeighbourSum(f: Field, p: Pos, offs: seq<Pos>): (t: seq<real>)
    requires f.Valid() && AllInField(f, p, offs)
    ensures |t| == f.ngene
    decreases |offs|
  {
    if |offs| == 0 then Zeros(f.ngene)
    else
      var last := offs[|offs| - 1];
      VecAdd(NeighbourSum(f, p, offs[..|offs| - 1]), VoxelVector(f, Plus(p, last)))
  }

  /** Channel i of every neighbour, in loop order. */
  function Channel(f: Field, p: Pos, offs: seq<Pos>, i: nat): (col: seq<real>)
    requires f.Valid() && AllInField(f, p, offs) && i < f.ngene
    ensures |col| == |offs|
    ensures forall k :: 0 <= k < |offs| ==> col[k] == VoxelVector(f, Plus(p, offs[k]))[i]
  {
    seq(|offs|, k requires 0 <= k < |offs| => VoxelVector(f, Plus(p, offs[k]))[i])
  }

  /** Channel i of the summed vector is the sum of channel i over the
      neighbours. */
  lemma {:induction false} NeighbourSumChannels(f: Field, p: Pos, offs: seq<Pos>, i: nat)
    requires f.Valid() && AllInField(f, p, offs) && i < f.ngene
    ensures NeighbourSum(f, p, offs)[i] == Sum(Channel(f, p, offs, i))
    decreases |offs|
  {
    if |offs| > 0 {
      var init := offs[..|offs| - 1];
      NeighbourSumChannels(f, p, init, i);
      var col := Channel(f, p, offs, i);
      assert col[..|col| - 1] == Channel(f, p, init, i);
    }
  }

  // ---------------------------------------------------------------------
  // Writing into the output buffer.

  /** A store to buffer offset j; offsets outside the buffer are dropped. */
  function Store(buf: seq<Value>, j: int, x: Value): (r: seq<Value>)
    ensures |r| == |buf|
    ensures forall i :: 0 <= i < |buf| ==> r[i] == if i == j then x else buf[i]
  {
    if 0 <= j < |buf| then buf[j := x] else buf
  }

  /** The slot loop of one voxel: vals[k] stored at base + k, k ascending. */
  function Fill(buf: seq<Value>, base: int, vals: seq<Value>): (r: seq<Value>)
    ensures |r| == |buf|
    ensures forall i :: 0 <= i < |buf| ==> r[i] == if base <= i < base + |vals| then vals[i - base] else buf[i]
    decreases |vals|
  {
    if |vals| == 0 then buf
    else Fill(Store(buf, base, vals[0]), base + 1, vals[1..])
  }

  function NaNs(n: nat): (buf: seq<Value>)
    ensures |buf| == n && forall i :: 0 <= i < n ==> buf[i] == NaN
  {
    seq(n, i => NaN)
  }

  /** The output shape: the spatial axes of the input, without the channel
      axis. */
  function Spatial(a: NdArray): seq<nat>
    requires |a.shape| > 0
  {
    a.shape[..|a.shape| - 1]
  }

  lemma SpatialCount(a: NdArray, f: Field)
    requires AsField(a) == Some(f)
    ensures Product(Spatial(a)) == f.dims.Count()
  {
    var s := a.shape;
    ProductPrefix(s, |s| - 1);
  }

  // ---------------------------------------------------------------------
  // calc_corrmap: one value per voxel.

  function SummedValue(f: Field, c: nat, p: Pos, root: real -> real): Value
    requires f.Valid() && Interior(f.dims, c, p)
  {
    var offs := Offsets(f.dims, c);
    assert AllInField(f, p, offs);
    Corr(VoxelVector(f, p), NeighbourSum(f, p, offs), root)
  }

  /** The outer loops: one store per interior voxel, at its offset. */
  function StoreCentres(f: Field, c: nat, buf: seq<Value>, ps: seq<Pos>, root: real -> real): (r: seq<Value>)
    requires f.Valid() && AllInterior(f.dims, c, ps)
    ensures |r| == |buf|
    decreases |ps|
  {
    if |ps| == 0 then buf
    else StoreCentres(f, c, Store(buf, f.dims.Index(ps[0]), SummedValue(f, c, ps[0], root)), ps[1..], root)
  }

  lemma {:induction false} StoreCentresCells(f: Field, c: nat, buf: seq<Value>, ps: seq<Pos>, root: real -> real, q: Pos)
    requires f.Valid() && AllInterior(f.dims, c, ps)
    requires |buf| == f.dims.Count() && f.dims.Contains(q)
    ensures 0 <= f.dims.Index(q) < |buf|
    ensures StoreCentres(f, c, buf, ps, root)[f.dims.Index(q)]
         == if q in ps then SummedValue(f, c, q, root) else buf[f.dims.Index(q)]
    decreases |ps|
  {
    IndexInRange(f.dims, q);
    if |ps| > 0 {
      var p := ps[0];
      var v := SummedValue(f, c, p, root);
      var buf' := Store(buf, f.dims.Index(p), v);
      StoreCentresCells(f, c, buf', ps[1..], root, q);
      CentreStep(f.dims, buf, p, q, v);
      HeadOrTail(ps, q);
    }
  }

  /** One centre store leaves every other voxel's cell alone. */
  lemma CentreStep(d: Dims, buf: seq<Value>, p: Pos, q: Pos, v: Value)
    requires d.Contains(p) && d.Contains(q) && |buf| == d.Count()
    ensures 0 <= d.Index(q) < |buf|
    ensures Store(buf, d.Index(p), v)[d.Index(q)] == if q == p then v else buf[d.Index(q)]
  {
    IndexInRange(d, q);
    if d.Index(q) == d.Index(p) {
      IndexInjective(d, p, q);
    }
  }

  /** calc_corrmap: a rank other than 3 or 4 is refused; otherwise an array of
      the spatial shape whose interior cells hold the correlation of the
      voxel with its summed neighbourhood and whose other cells hold NaN. */
  function CorrMap(a: NdArray, c: nat, root: real -> real): (r: Result<ValueArray>)
    requires a.Valid()
    ensures r.Err? <==> AsField(a).None?
    ensures r.Err? ==> r.error == RankError
    ensures r.Ok? ==> r.value.shape == Spatial(a) && r.value.Valid()
  {
    match AsField(a)
    case None => Err(RankError)
    case Some(f) =>
      SpatialCount(a, f);
      var cells := StoreCentres(f, c, NaNs(f.dims.Count()), InteriorVoxels(f.dims, c), root);
      Ok(ValueArray(Spatial(a), cells))
  }

  /** Every voxel's cell: the summed-neighbourhood correlation inside, NaN on
      the border band of width c. */
  lemma CorrMapCells(a: NdArray, c: nat, root: real -> real, f: Field, q: Pos)
    requires a.Valid() && AsField(a) == Some(f) && f.dims.Contains(q)
    ensures CorrMap(a, c, root).Ok?
    ensures 0 <= f.dims.Index(q) < |CorrMap(a, c, root).value.cells|
    ensures CorrMap(a, c, root).value.cells[f.dims.Index(q)]
         == if Interior(f.dims, c, q) then SummedValue(f, c, q, root) else NaN
  {
    SpatialCount(a, f);
    StoreCentresCells(f, c, NaNs(f.dims.Count()), InteriorVoxels(f.dims, c), root, q);
  }

  /** A cell is NaN exactly when its voxel is on the border band or the
      vectors are empty. */
  lemma CorrMapNaN(a: NdArray, c: nat, root: real -> real, f: Field, q: Pos)
    requires a.Valid() && AsField(a) == Some(f) && f.dims.Contains(q)
    ensures CorrMap(a, c, root).Ok? && 0 <= f.dims.Index(q) < |CorrMap(a, c, root).value.cells|
    ensures CorrMap(a, c, root).value.cells[f.dims.Index(q)] == NaN
        <==> !Interior(f.dims, c, q) || f.ngene == 0
  {
    CorrMapCells(a, c, root, f, q);
  }

  // ---------------------------------------------------------------------
  // calc_corrmap_2: one value per voxel and neighbour.

  /** Length of the trailing axis. As written it is (2c + 1)^2 - 1 for both
      ranks. */
  function Stride(v: Variant, d: Dims, c: nat): (k: nat)
    ensures v == AsWritten ==> k == Side(c) * Side(c) - 1
    ensures v == Intended || d.Plane? ==> k == |Offsets(d, c)|
  {
    OffsetsCount(d, c);
    if v == AsWritten then Side(c) * Side(c) - 1 else |Offsets(d, c)|
  }

  /** The values one interior voxel stores: its correlation with each
      neighbour, in loop order. */
  function SlotValues(f: Field, c: nat, p: Pos, root: real -> real): (vals: seq<Value>)
    requires f.Valid() && Interior(f.dims, c, p)
    ensures |vals| == |Offsets(f.dims, c)|
    ensures forall k :: 0 <= k < |vals| ==>
      vals[k] == Corr(VoxelVector(f, p), VoxelVector(f, Plus(p, Offsets(f.dims, c)[k])), root)
  {
    var offs := Offsets(f.dims, c);
    seq(|offs|, k requires 0 <= k < |offs| => Corr(VoxelVector(f, p), VoxelVector(f, Plus(p, offs[k])), root))
  }

  /** The outer loops: for each interior voxel, the slot loop from the
      voxel's offset times the stride. */
  function StoreNeighbours(f: Field, c: nat, stride: nat, buf: seq<Value>, ps: seq<Pos>, root: real -> real): (r: seq<Value>)
    requires f.Valid() && AllInterior(f.dims, c, ps)
    ensures |r| == |buf|
    decreases |ps|
  {
    if |ps| == 0 then buf
    else
      var p := ps[0];
      StoreNeighbours(f, c, stride, Fill(buf, f.dims.Index(p) * stride, SlotValues(f, c, p, root)), ps[1..], root)
  }

  /** Size of the output buffer: count voxels of stride slots each. */
  function Cells(count: nat, stride: nat): nat
  {
    count * stride
  }

  /** calc_corrmap_2: a rank other than 3 or 4 is refused; otherwise an array
      of the spatial shape plus a trailing axis of length Stride, filled with
      NaN and then with the stores of every interior voxel. */
  function CorrMap2(v: Variant, a: NdArray, c: nat, root: real -> real): (r: Result<ValueArray>)
    requires a.Valid()
    ensures r.Err? <==> AsField(a).None?
    ensures r.Err? ==> r.error == RankError
    ensures r.Ok? ==> r.value.shape == Spatial(a) + [Stride(v, AsField(a).value.dims, c)] && r.value.Valid()
  {
    match AsField(a)
    case None => Err(RankError)
    case Some(f) =>
      var k := Stride(v, f.dims, c);
      var shape := Spatial(a) + [k];
      SpatialCount(a, f);
      assert shape[..|shape| - 1] == Spatial(a);
      var cells := StoreNeighbours(f, c, k, NaNs(Cells(f.dims.Count(), k)), InteriorVoxels(f.dims, c), root);
      Ok(ValueArray(shape, cells))
  }

  /** The trailing axis the library sizes from any integer size:
      (2 size + 1)^2 - 1, never negative since 2 size + 1 is odd. */
  function WrittenSlots(size: int): (k: nat)
    ensures size >= 0 ==> k == Side(size) * Side(size) - 1
    ensures size < 0 ==> k == (2 * size + 1) * (2 * size + 1) - 1
  {
    var w := 2 * size + 1;
    assert w * w >= 1 by {
      if w < 0 {
        assert w * w == (-w) * (-w);
      }
    }
    w * w - 1
  }

  /** calc_corrmap_2 for an integer size. A non-negative size is CorrMap2.
      For a negative size the neighbour loops run from -size up to size, an
      empty range, so the outer loops store nothing: the result keeps the
      NaN of its initialisation in every slot of a trailing axis of
      (2 size + 1)^2 - 1 slots. */
  function CorrMap2Sized(v: Variant, a: NdArray, size: int, root: real -> real): (r: Result<ValueArray>)
    requires a.Valid()
    ensures r.Err? <==> AsField(a).None?
    ensures r.Err? ==> r.error == RankError
    ensures size >= 0 ==> r == CorrMap2(v, a, size, root)
    ensures size < 0 && r.Ok? ==>
              && r.value.shape == Spatial(a) + [WrittenSlots(size)] && r.value.Valid()
              && forall i :: 0 <= i < |r.value.cells| ==> r.value.cells[i] == NaN
  {
    if size >= 0 then CorrMap2(v, a, size, root)
    else
      match AsField(a)
      case None => Err(RankError)
      case Some(f) =>
        var k := WrittenSlots(size);
        var shape := Spatial(a) + [k];
        SpatialCount(a, f);
        assert shape[..|shape| - 1] == Spatial(a);
        Ok(ValueArray(shape, NaNs(Cells(f.dims.Count(), k))))
  }

  /** The block of stride slots of voxel offset i misses every slot of
      another voxel offset. */
  lemma BlocksDisjoint(i: nat, i': nat, stride: nat, k: nat)
    requires i != i' && k < stride
    ensures !(i * stride <= i' * stride + k < i * stride + stride)
  {
    if i < i' {
      MulLeft(i + 1, i', stride);
      assert (i + 1) * stride == i * stride + stride;
    } else {
      MulLeft(i' + 1, i, stride);
      assert (i' + 1) * stride == i' * stride + stride;
    }
  }

  /** With the intended stride the stores of distinct voxels hit disjoint
      blocks, so every block holds its own voxel's values or NaN. */
  lemma {:induction false} StoreNeighboursCells(f: Field, c: nat, n: nat, buf: seq<Value>, ps: seq<Pos>,
                                                root: real -> real, q: Pos, k: nat)
    requires f.Valid() && AllInterior(f.dims, c, ps) && n == |Offsets(f.dims, c)|
    requires |buf| == Cells(f.dims.Count(), n) && f.dims.Contains(q) && k < n
    ensures 0 <= f.dims.Index(q) * n + k < |buf|
    ensures q in ps ==> StoreNeighbours(f, c, n, buf, ps, root)[f.dims.Index(q) * n + k] == SlotValues(f, c, q, root)[k]
    ensures q !in ps ==> StoreNeighbours(f, c, n, buf, ps, root)[f.dims.Index(q) * n + k] == buf[f.dims.Index(q) * n + k]
    decreases |ps|
  {
    var iq := f.dims.Index(q);
    IndexInRange(f.dims, q);
    SlotInRange(iq, f.dims.Count(), n, k);
    if |ps| > 0 {
      var p := ps[0];
      var ip := f.dims.Index(p);
      var vals := SlotValues(f, c, p, root);
      var buf' := Fill(buf, ip * n, vals);
      assert StoreNeighbours(f, c, n, buf, ps, root) == StoreNeighbours(f, c, n, buf', ps[1..], root);
      StoreNeighboursCells(f, c, n, buf', ps[1..], root, q, k);
      HeadOrTail(ps, q);
      var j := iq * n + k;
      IndexInRange(f.dims, p);
      BlockStep(buf, ip, iq, n, k, vals);
      if q !in ps {
        assert ip != iq by {
          if ip == iq {
            IndexInjective(f.dims, p, q);
          }
        }
        assert buf'[j] == buf[j];
      } else if q !in ps[1..] {
        assert buf'[j] == vals[k];
      }
    }
  }

  /** Filling block ip changes slot k of block iq only when the blocks coincide. */
  lemma BlockStep(buf: seq<Value>, ip: nat, iq: nat, n: nat, k: nat, vals: seq<Value>)
    requires |vals| == n && k < n && iq * n + k < |buf|
    ensures Fill(buf, ip * n, vals)[iq * n + k] == if ip == iq then vals[k] else buf[iq * n + k]
  {
    if ip != iq {
      BlocksDisjoint(ip, iq, n, k);
    }
  }

  lemma SlotInRange(i: nat, count: nat, n: nat, k: nat)
    requires i < count && k < n
    ensures 0 <= i * n + k < Cells(count, n)
  {
    MulLeft(i + 1, count, n);
    assert (i + 1) * n == i * n + n;
  }

  /** The per-neighbour map with the intended stride: slot k of an interior
      voxel holds its correlation with its k-th neighbour, and every slot of
      a border voxel holds NaN. */
  lemma CorrMap2Cells(a: NdArray, c: nat, root: real -> real, f: Field, q: Pos, k: nat)
    requires a.Valid() && AsField(a) == Some(f) && f.dims.Contains(q) && k < |Offsets(f.dims, c)|
    ensures CorrMap2(Intended, a, c, root).Ok?
    ensures 0 <= f.dims.Index(q) * |Offsets(f.dims, c)| + k < |CorrMap2(Intended, a, c, root).value.cells|
    ensures CorrMap2(Intended, a, c, root).value.cells[f.dims.Index(q) * |Offsets(f.dims, c)| + k]
         == if Interior(f.dims, c, q)
            then Corr(VoxelVector(f, q), VoxelVector(f, Plus(q, Offsets(f.dims, c)[k])), root)
            else NaN
  {
    CorrMap2Intended(a, c, root, f);
    IntendedSlot(f, c, root, q, k);
  }

  /** One slot of the intended stores, over the NaN buffer. */
  lemma IntendedSlot(f: Field, c: nat, root: real -> real, q: Pos, k: nat)
    requires f.Valid() && f.dims.Contains(q) && k < |Offsets(f.dims, c)|
    ensures var n := |Offsets(f.dims, c)|;
      var cells := StoreNeighbours(f, c, n, NaNs(Cells(f.dims.Count(), n)), InteriorVoxels(f.dims, c), root);
      && 0 <= f.dims.Index(q) * n + k < |cells|
      && cells[f.dims.Index(q) * n + k]
         == if Interior(f.dims, c, q)
            then Corr(VoxelVector(f, q), VoxelVector(f, Plus(q, Offsets(f.dims, c)[k])), root)
            else NaN
  {
    var n := |Offsets(f.dims, c)|;
    var buf := NaNs(Cells(f.dims.Count(), n));
    var ps := InteriorVoxels(f.dims, c);
    StoreNeighboursCells(f, c, n, buf, ps, root, q, k);
    var j := f.dims.Index(q) * n + k;
    if Interior(f.dims, c, q) {
      assert q in ps;
      assert StoreNeighbours(f, c, n, buf, ps, root)[j] == SlotValues(f, c, q, root)[k];
    } else {
      assert q !in ps;
      assert StoreNeighbours(f, c, n, buf, ps, root)[j] == buf[j] == NaN;
    }
  }

  /** With the intended stride, the map is the NaN buffer of one slot per
      offset and voxel, filled by the stores of every interior voxel. */
  lemma CorrMap2Intended(a: NdArray, c: nat, root: real -> real, f: Field)
    requires a.Valid() && AsField(a) == Some(f)
    ensures var n := |Offsets(f.dims, c)|;
      CorrMap2(Intended, a, c, root)
        == Ok(ValueArray(Spatial(a) + [n], StoreNeighbours(f, c, n, NaNs(Cells(f.dims.Count(), n)), InteriorVoxels(f.dims, c), root)))
  {
    CorrMap2Unfold(Intended, a, c, root);
  }

  /** On planes the written stride equals the neighbourhood size, so both
      variants produce the same map. */
  lemma CorrMap2PlaneAsIntended(a: NdArray, c: nat, root: real -> real)
    requires a.Valid() && |a.shape| == 3
    ensures CorrMap2(AsWritten, a, c, root) == CorrMap2(Intended, a, c, root)
  {
  }

  /** The 3 x 3 x 3 volume has one interior voxel for neighbourhood size 1. */
  lemma SingleInterior(d: Dims, c: nat)
    requires d == Volume(3, 3, 3) && c == 1
    ensures InteriorVoxels(d, c) == [Pos(1, 1, 1)]
  {
    var ps := InteriorVoxels(d, c);
    assert |ps| == 1;
    assert ps[0] in ps;
  }

  /** As written, on a 3 x 3 x 3 volume with neighbourhood size 1 the stride
      is 8 while the single interior voxel (1, 1, 1), at offset 13, stores
      26 values from 104 on: cell 112 = 14 * 8, slot 0 of the border voxel
      (1, 1, 2), receives a correlation. With the intended stride every slot
      of a border voxel keeps NaN (CorrMap2Cells). */
  lemma CorrMap2VolumeOverrun(a: NdArray, c: nat, root: real -> real)
    requires a.Valid() && |a.shape| == 4 && a.shape[0] == 3 && a.shape[1] == 3 && a.shape[2] == 3 && a.shape[3] > 0
    requires c == 1
    ensures Volume(3, 3, 3).Index(Pos(1, 1, 2)) == 14 && !Interior(Volume(3, 3, 3), c, Pos(1, 1, 2))
    ensures CorrMap2(AsWritten, a, c, root).Ok?
    ensures CorrMap2(AsWritten, a, c, root).value.shape == Spatial(a) + [8]
    ensures |CorrMap2(AsWritten, a, c, root).value.cells| == 27 * 8
    ensures CorrMap2(AsWritten, a, c, root).value.cells[14 * 8] != NaN
  {
    var f := AsField(a).value;
    assert f.dims == Volume(3, 3, 3);
    CorrMap2Unfold(AsWritten, a, c, root);
    var k := Stride(AsWritten, f.dims, c);
    assert k == 8;
    AsWrittenOverrun(f, c, k, root);
  }

  lemma CorrMap2Unfold(v: Variant, a: NdArray, c: nat, root: real -> real)
    requires a.Valid() && AsField(a).Some?
    ensures CorrMap2(v, a, c, root)
         == Ok(ValueArray(Spatial(a) + [Stride(v, AsField(a).value.dims, c)],
                          StoreNeighbours(AsField(a).value, c, Stride(v, AsField(a).value.dims, c),
                                          NaNs(Cells(AsField(a).value.dims.Count(), Stride(v, AsField(a).value.dims, c))),
                                          InteriorVoxels(AsField(a).value.dims, c), root)))
  {
  }

  /** The store sequence behind CorrMap2VolumeOverrun. */
  lemma AsWrittenOverrun(f: Field, c: nat, k: nat, root: real -> real)
    requires f.Valid() && f.dims == Volume(3, 3, 3) && f.ngene > 0 && c == 1 && k == 8
    ensures |StoreNeighbours(f, c, k, NaNs(Cells(f.dims.Count(), k)), InteriorVoxels(f.dims, c), root)| == 27 * 8
    ensures StoreNeighbours(f, c, k, NaNs(Cells(f.dims.Count(), k)), InteriorVoxels(f.dims, c), root)[112] != NaN
  {
    var centre := Pos(1, 1, 1);
    var buf := NaNs(Cells(f.dims.Count(), k));
    assert |buf| == 216;
    CentreStores(f, c, k, buf, root);
    SlotsNotNaN(f, c, centre, root);
    OffsetsCount(f.dims, c);
  }

  /** On the 3 x 3 x 3 volume only the centre voxel stores, from offset
      13 * 8 on. */
  lemma CentreStores(f: Field, c: nat, k: nat, buf: seq<Value>, root: real -> real)
    requires f.Valid() && f.dims == Volume(3, 3, 3) && c == 1 && k == 8
    ensures StoreNeighbours(f, c, k, buf, InteriorVoxels(f.dims, c), root)
         == Fill(buf, 104, SlotValues(f, c, Pos(1, 1, 1), root))
  {
    SingleInterior(f.dims, c);
    assert f.dims.Index(Pos(1, 1, 1)) == 13;
    StoreOne(f, c, k, buf, Pos(1, 1, 1), root);
  }

  /** With non-empty vectors every stored correlation is a number. */
  lemma SlotsNotNaN(f: Field, c: nat, p: Pos, root: real -> real)
    requires f.Valid() && Interior(f.dims, c, p) && f.ngene > 0
    ensures forall k :: 0 <= k < |SlotValues(f, c, p, root)| ==> SlotValues(f, c, p, root)[k] != NaN
  {
  }

  lemma StoreOne(f: Field, c: nat, stride: nat, buf: seq<Value>, p: Pos, root: real -> real)
    requires f.Valid() && Interior(f.dims, c, p)
    ensures StoreNeighbours(f, c, stride, buf, [p], root) == Fill(buf, f.dims.Index(p) * stride, SlotValues(f, c, p, root))
  {
    assert [p][1..] == [];
  }
}

=== FILE: ctmap.dfy ===
/** Scoring every voxel of a field against one reference vector (a cell-type
    centroid): the output holds, per voxel, the correlation of the voxel's
    vector with the reference. */
module CellTypeMaps {
  import opened Grid
  import opened Values
  import opened Fields
  import opened Correlation

  /** Number of vectors in an array whose last axis is the vector axis. */
  function Vectors(a: NdArray): nat
    requires |a.shape| > 0
  {
    Product(a.shape[..|a.shape| - 1])
  }

  /** The i-th vector of the array, read from offset i * n. */
  function Slice(a: NdArray, i: nat): (v: seq<real>)
    requires a.Valid() && |a.shape| > 0 && i < Vectors(a)
    ensures |v| == a.shape[|a.shape| - 1]
  {
    var n := a.shape[|a.shape| - 1];
    SliceFits(i, Vectors(a), n);
    a.data[i * n .. i * n + n]
  }

  /** calc_ctmap: the reference must have one axis and as many entries as the
      field's last axis; then every vector of the field is scored against it,
      and the scores take the field's shape without its last axis. */
  method CtMap(vec: NdArray, vf: NdArray, root: real -> real) returns (res: Result<ValueArray>)
    requires vec.Valid() && vf.Valid()
    requires |vec.shape| == 1 ==> |vf.shape| > 0
    ensures res == Err(RankError) <==> |vec.shape| != 1
    ensures res == Err(LengthMismatch) <==> |vec.shape| == 1 && vec.shape[0] != vf.shape[|vf.shape| - 1]
    ensures res.Ok? ==> |vec.shape| == 1 && |vf.shape| > 0 && |vec.data| == vf.shape[|vf.shape| - 1]
    ensures res.Ok? ==> res.value.shape == vf.shape[..|vf.shape| - 1] && res.value.Valid()
    ensures res.Ok? ==> forall i :: 0 <= i < |res.value.cells| ==> res.value.cells[i] == Corr(vec.data, Slice(vf, i), root)
    ensures res.Ok? && AsField(vf).Some? ==>
      forall p :: AsField(vf).value.dims.Contains(p) ==>
        0 <= AsField(vf).value.dims.Index(p) < |res.value.cells| &&
        res.value.cells[AsField(vf).value.dims.Index(p)] == Corr(vec.data, VoxelVector(AsField(vf).value, p), root)
  {
    if |vec.shape| != 1 {
      return Err(RankError);
    }
    var nd := |vf.shape|;
    if vec.shape[0] != vf.shape[nd - 1] {
      return Err(LengthMismatch);
    }
    assert |vec.data| == vec.shape[0] by {
      ProductPrefix(vec.shape, 1);
      assert vec.shape[..1] == vec.shape;
    }
    var count := Vectors(vf);
    var scores: seq<Value> := [];
    var i := 0;
    while i < count
      invariant 0 <= i <= count
      invariant |scores| == i
      invariant forall j :: 0 <= j < i ==> scores[j] == Corr(vec.data, Slice(vf, j), root)
    {
      scores := scores + [Corr(vec.data, Slice(vf, i), root)];
      i := i + 1;
    }
    res := Ok(ValueArray(vf.shape[..nd - 1], scores));
    if f :| AsField(vf) == Some(f) {
      forall p | f.dims.Contains(p)
        ensures 0 <= f.dims.Index(p) < |scores|
        ensures scores[f.dims.Index(p)] == Corr(vec.data, VoxelVector(f, p), root)
      {
        FieldVector(vf, f, p);
      }
    }
  }

  /** Read through the field view, the vector of voxel p is the slice at the
      voxel's row-major offset. */
  lemma FieldVector(a: NdArray, f: Field, p: Pos)
    requires a.Valid() && AsField(a) == Some(f) && f.dims.Contains(p)
    ensures 0 <= f.dims.Index(p) < Vectors(a)
    ensures VoxelVector(f, p) == Slice(a, f.dims.Index(p))
  {
    var s := a.shape;
    ProductPrefix(s, |s| - 1);
    IndexInRange(f.dims, p);
  }
}

=== FILE: fields.dfy ===
/** Dense arrays as the array layer hands them to the library: a shape and a
    contiguous row-major buffer of doubles. A field is such an array whose
    last axis holds the channel vector ("ngene" values) of every voxel. */
module Fields {
  import opened Grid
  import opened Values

  /** Number of elements of an array of the given shape. */
  function Product(shape: seq<nat>): nat
  {
    if |shape| == 0 then 1 else Product(shape[..|shape| - 1]) * shape[|shape| - 1]
  }

  lemma ProductPrefix(s: seq<nat>, n: nat)
    requires n <= |s|
    ensures n == 0 ==> Product(s[..n]) == 1
    ensures n == 1 ==> Product(s[..n]) == s[0]
    ensures n == 2 ==> Product(s[..n]) == s[0] * s[1]
    ensures n == 3 ==> Product(s[..n]) == s[0] * s[1] * s[2]
    ensures n == 4 ==> Product(s[..n]) == s[0] * s[1] * s[2] * s[3]
  {
    if n > 0 {
      ProductPrefix(s, n - 1);
      assert s[..n][..n - 1] == s[..n - 1];
      assert s == s[..|s|];
    }
  }

  /** A C-contiguous array of doubles of any rank. */
  datatype NdArray = NdArray(shape: seq<nat>, data: seq<real>)
  {
    predicate Valid()
    {
      |data| == Product(shape)
    }
  }

  /** An output array of the same layout whose cells are numbers or NaN. */
  datatype ValueArray = ValueArray(shape: seq<nat>, cells: seq<Value>)
  {
    predicate Valid()
    {
      |cells| == Product(shape)
    }
  }

  /** A planar or volumetric grid of channel vectors of length ngene. */
  datatype Field = Field(dims: Dims, ngene: nat, data: seq<real>)
  {
    predicate Valid()
    {
      |data| == dims.Count() * ngene
    }
  }

  /** The slice [i * ngene, (i + 1) * ngene) lies inside a buffer of count
      vectors whenever i < count. */
  lemma SliceFits(i: nat, count: nat, ngene: nat)
    requires i < count
    ensures i * ngene + ngene <= count * ngene
  {
    MulLeft(i + 1, count, ngene);
  }

  /** The channel vector of the voxel stored at offset i (vf + i * ngene). */
  function VectorAt(f: Field, i: int): (v: seq<real>)
    requires f.Valid() && 0 <= i < f.dims.Count()
    ensures |v| == f.ngene
  {
    var lo := i * f.ngene;
    SliceFits(i, f.dims.Count(), f.ngene);
    f.data[lo .. lo + f.ngene]
  }

  /** The channel vector of a voxel, read at its row-major offset. */
  function VoxelVector(f: Field, p: Pos): (v: seq<real>)
    requires f.Valid() && f.dims.Contains(p)
    ensures |v| == f.ngene
  {
    IndexInRange(f.dims, p);
    VectorAt(f, f.dims.Index(p))
  }

  /** Reads an array with two or three spatial axes plus the channel axis as a
      field (nd == 3 is planar, nd == 4 volumetric); any other rank is not a
      field. */
  function AsField(a: NdArray): (r: Option<Field>)
    ensures r.Some? <==> |a.shape| == 3 || |a.shape| == 4
    ensures r.Some? ==> r.value.data == a.data && r.value.ngene == a.shape[|a.shape| - 1]
    ensures r.Some? ==> (r.value.dims.Plane? <==> |a.shape| == 3)
    ensures r.Some? ==>
              r.value.dims == if |a.shape| == 3 then Plane(a.shape[0], a.shape[1])
                              else Volume(a.shape[0], a.shape[1], a.shape[2])
    ensures r.Some? && a.Valid() ==> r.value.Valid()
  {
    var s := a.shape;
    if |s| == 3 then
      assert Product(s) == s[0] * s[1] * 1 * s[2] by {
        ProductPrefix(s, 3);
        assert s[..3] == s;
      }
      Some(Field(Plane(s[0], s[1]), s[2], a.data))
    else if |s| == 4 then
      assert Product(s) == s[0] * s[1] * s[2] * s[3] by {
        ProductPrefix(s, 4);
        assert s[..4] == s;
      }
      Some(Field(Volume(s[0], s[1], s[2]), s[3], a.data))
    else
      None
  }
}

=== FILE: floodfill.dfy ===
/** The breadth-first region growing of `flood_fill`: starting from a seed
    voxel, a neighbour joins the region when the correlation of its channel
    vector with the seed's exceeds a threshold. The traversal is written once,
    over an arbitrary admission test `ok`, and a Variant flag selects either
    the code as written or the evidently intended code:

      - as written, a step towards lower coordinates is only taken from a
        coordinate above 1 (so coordinate 0 is never entered), the seed is
        not marked as visited, and in a volume the z + 1 step marks the
        current voxel instead of the one it enqueues;
      - intended, the lower guard is "above 0", the seed is marked at the
        start and every step marks the voxel it enqueues.

    Everything else (queue order, the count and the cap on it, the final
    size filter) is shared. */
module Flooding {
  import opened Grid
  import opened Values
  import opened Fields
  import opened Correlation

  /** The six unit steps, in the order the library tries them. */
  datatype Dir = XUp | XDown | YUp | YDown | ZUp | ZDown

  /** The steps of a rank: four in a plane, six in a volume. */
  function Dirs(d: Dims): seq<Dir>
  {
    if d.Plane? then [XUp, XDown, YUp, YDown] else [XUp, XDown, YUp, YDown, ZUp, ZDown]
  }

  function Target(p: Pos, dir: Dir): Pos
  {
    match dir
    case XUp => p.(x := p.x + 1)
    case XDown => p.(x := p.x - 1)
    case YUp => p.(y := p.y + 1)
    case YDown => p.(y := p.y - 1)
    case ZUp => p.(z := p.z + 1)
    case ZDown => p.(z := p.z - 1)
  }

  /** The lowest coordinate a downward step may land on. */
  function Low(v: Variant): int
  {
    if v == AsWritten then 1 else 0
  }

  /** The bounds test in front of each step. */
  predicate Guard(v: Variant, d: Dims, p: Pos, dir: Dir)
  {
    match dir
    case XUp => p.x < d.nx - 1
    case XDown => p.x > Low(v)
    case YUp => p.y < d.ny - 1
    case YDown => p.y > Low(v)
    case ZUp => p.z < d.Depth() - 1
    case ZDown => p.z > Low(v)
  }

  /** The voxel whose mask bit a successful step sets. */
  function MaskedBy(v: Variant, p: Pos, dir: Dir): Pos
  {
    if v == AsWritten && dir == ZUp then p else Target(p, dir)
  }

  function Abs(n: int): nat
  {
    if n < 0 then -n else n
  }

  /** Independent of the step table: q is one unit step from p along one axis,
      both lie in the field, and a coordinate the step changes is at least
      Low(v) in q. */
  predicate Adjacent(v: Variant, d: Dims, p: Pos, q: Pos)
  {
    && d.Contains(p) && d.Contains(q)
    && Abs(q.x - p.x) + Abs(q.y - p.y) + Abs(q.z - p.z) == 1
    && (q.x != p.x ==> q.x >= Low(v))
    && (q.y != p.y ==> q.y >= Low(v))
    && (q.z != p.z ==> q.z >= Low(v))
  }

  /** A guarded step from a voxel of the field is an adjacency. */
  lemma GuardAdjacent(v: Variant, d: Dims, p: Pos, dir: Dir)
    requires d.Contains(p) && Guard(v, d, p, dir)
    ensures Adjacent(v, d, p, Target(p, dir))
  {
  }

  /** Every adjacency is a guarded step. */
  lemma AdjacentDir(v: Variant, d: Dims, p: Pos, q: Pos) returns (dir: Dir)
    requires Adjacent(v, d, p, q)
    ensures dir in Dirs(d) && Guard(v, d, p, dir) && Target(p, dir) == q
  {
    if q.x == p.x + 1 {
      dir := XUp;
    } else if q.x == p.x - 1 {
      dir := XDown;
    } else if q.y == p.y + 1 {
      dir := YUp;
    } else if q.y == p.y - 1 {
      dir := YDown;
    } else if q.z == p.z + 1 {
      dir := ZUp;
    } else {
      dir := ZDown;
    }
  }

  // ---------------------------------------------------------------------
  // The traversal.

  /** The loop state: the list built so far, the queue, the visited mask
      (one flag per voxel), the counter cnt and whether the loop broke on
      the cap. */
  datatype Fill = Fill(out: seq<Pos>, queue: seq<Pos>, mask: seq<bool>, count: int, capped: bool)
  {
    /** Every voxel discovered so far, in discovery order. */
    function Found(): seq<Pos>
    {
      out + queue
    }
  }

  /** Cap on the counter once it is positive (max_pixels, or 0 if negative). */
  function Cap(max: int): nat
  {
    if max > 0 then max else 0
  }

  /** The shape every loop state keeps: a mask per voxel, a queue of voxels
      of the field, and an uncapped counter within the cap. */
  predicate WellFormed(d: Dims, max: int, s: Fill)
  {
    && |s.mask| == d.Count()
    && (forall i :: 0 <= i < |s.queue| ==> d.Contains(s.queue[i]))
    && (!s.capped ==> 0 <= s.count <= Cap(max))
  }

  /** The state before the loop: the seed queued, the mask cleared (as
      written) or holding only the seed (intended), cnt == 0. */
  function Start(v: Variant, d: Dims, seed: Pos): (s: Fill)
    requires d.Contains(seed)
    ensures s.out == [] && s.queue == [seed] && s.count == 0 && !s.capped
    ensures |s.mask| == d.Count()
    ensures forall q :: d.Contains(q) ==>
              0 <= d.Index(q) < |s.mask| && (s.mask[d.Index(q)] <==> v == Intended && q == seed)
  {
    IndexInRange(d, seed);
    var mask := seq(d.Count(), i => v == Intended && i == d.Index(seed));
    forall q | d.Contains(q)
      ensures 0 <= d.Index(q) < |mask| && (mask[d.Index(q)] <==> v == Intended && q == seed)
    {
      SameIndex(d, q, seed);
    }
    Fill([], [seed], mask, 0, false)
  }

  /** Two voxels of the field share an offset exactly when they are equal. */
  lemma SameIndex(d: Dims, p: Pos, q: Pos)
    requires d.Contains(p) && d.Contains(q)
    ensures 0 <= d.Index(p) < d.Count()
    ensures d.Index(p) == d.Index(q) <==> p == q
  {
    IndexInRange(d, p);
    if d.Index(p) == d.Index(q) {
      IndexInjective(d, p, q);
    }
  }

  /** One neighbour test: the step is taken when it passes its guard, its
      target is unmarked and ok admits it; taking it sets a mask bit and
      enqueues the target. */
  function Try(v: Variant, d: Dims, ok: Pos -> bool, p: Pos, dir: Dir, s: Fill): (s': Fill)
    requires d.Contains(p) && |s.mask| == d.Count()
    ensures |s'.mask| == |s.mask|
    ensures s'.out == s.out && s'.count == s.count && s'.capped == s.capped
    ensures s'.queue == s.queue
         || (s'.queue == s.queue + [Target(p, dir)] && d.Contains(Target(p, dir)) && ok(Target(p, dir)))
  {
    var q := Target(p, dir);
    if Guard(v, d, p, dir) then
      GuardAdjacent(v, d, p, dir);
      IndexInRange(d, q);
      if !s.mask[d.Index(q)] && ok(q) then
        var m := MaskedBy(v, p, dir);
        IndexInRange(d, m);
        s.(mask := s.mask[d.Index(m) := true], queue := s.queue + [q])
      else s
    else s
  }

  /** A step that passes its guard to an unmarked, admitted target sets the
      bit at offset m and enqueues the target. */
  lemma TryTaken(v: Variant, d: Dims, ok: Pos -> bool, p: Pos, dir: Dir, s: Fill, m: int)
    requires d.Contains(p) && |s.mask| == d.Count()
    requires Guard(v, d, p, dir) && ok(Target(p, dir)) && !Marked(d, s.mask, Target(p, dir))
    requires m == d.Index(MaskedBy(v, p, dir))
    ensures 0 <= m < |s.mask|
    ensures Try(v, d, ok, p, dir, s) == s.(mask := s.mask[m := true], queue := s.queue + [Target(p, dir)])
  {
    GuardAdjacent(v, d, p, dir);
    IndexInRange(d, Target(p, dir));
    IndexInRange(d, MaskedBy(v, p, dir));
  }

  /** A step that fails its guard, or whose target is marked or not
      admitted, changes nothing. */
  lemma TryBlocked(v: Variant, d: Dims, ok: Pos -> bool, p: Pos, dir: Dir, s: Fill)
    requires d.Contains(p) && |s.mask| == d.Count()
    requires !Guard(v, d, p, dir) || !ok(Target(p, dir)) || Marked(d, s.mask, Target(p, dir))
    ensures Try(v, d, ok, p, dir, s) == s
  {
    if Guard(v, d, p, dir) {
      GuardAdjacent(v, d, p, dir);
      IndexInRange(d, Target(p, dir));
    }
  }

  /** The neighbour tests of one pass, for the steps in dirs, in order. */
  function Visit(v: Variant, d: Dims, ok: Pos -> bool, p: Pos, dirs: seq<Dir>, s: Fill): (s': Fill)
    requires d.Contains(p) && |s.mask| == d.Count()
    ensures |s'.mask| == |s.mask|
    ensures s'.out == s.out && s'.count == s.count && s'.capped == s.capped
    ensures |s.queue| <= |s'.queue| && s'.queue[..|s.queue|] == s.queue
    ensures forall i :: |s.queue| <= i < |s'.queue| ==> d.Contains(s'.queue[i]) && ok(s'.queue[i])
    decreases |dirs|
  {
    if |dirs| == 0 then s
    else
      var next := Try(v, d, ok, p, dirs[0], s);
      var r := Visit(v, d, ok, p, dirs[1..], next);
      assert r.queue[..|s.queue|] == r.queue[..|next.queue|][..|s.queue|];
      r
  }

  /** The pass over the steps from the k-th on is the k-th test followed
      by the pass over the rest. */
  lemma VisitFrom(v: Variant, d: Dims, ok: Pos -> bool, p: Pos, ds: seq<Dir>, k: nat, s: Fill)
    requires d.Contains(p) && |s.mask| == d.Count() && k < |ds|
    ensures Visit(v, d, ok, p, ds[k..], s) == Visit(v, d, ok, p, ds[k + 1..], Try(v, d, ok, p, ds[k], s))
  {
    assert ds[k..][1..] == ds[k + 1..];
  }

  /** In a plane a pass tests x + 1, x - 1, y + 1, y - 1, in that order. */
  lemma VisitPlane(v: Variant, d: Dims, ok: Pos -> bool, p: Pos, s: Fill)
    requires d.Plane? && d.Contains(p) && |s.mask| == d.Count()
    ensures Visit(v, d, ok, p, Dirs(d), s)
         == Try(v, d, ok, p, YDown, Try(v, d, ok, p, YUp, Try(v, d, ok, p, XDown, Try(v, d, ok, p, XUp, s))))
  {
    var ds := Dirs(d);
    assert |ds| == 4 && ds[0] == XUp && ds[1] == XDown && ds[2] == YUp && ds[3] == YDown;
    var t1 := Try(v, d, ok, p, XUp, s);
    var t2 := Try(v, d, ok, p, XDown, t1);
    var t3 := Try(v, d, ok, p, YUp, t2);
    var t4 := Try(v, d, ok, p, YDown, t3);
    assert ds[0..] == ds;
    VisitFrom(v, d, ok, p, ds, 0, s);
    VisitFrom(v, d, ok, p, ds, 1, t1);
    VisitFrom(v, d, ok, p, ds, 2, t2);
    VisitFrom(v, d, ok, p, ds, 3, t3);
    assert Visit(v, d, ok, p, ds[4..], t4) == t4;
  }

  /** In a volume a pass tests x + 1, x - 1, y + 1, y - 1, z + 1, z - 1, in
      that order. */
  lemma VisitVolume(v: Variant, d: Dims, ok: Pos -> bool, p: Pos, s: Fill)
    requires d.Volume? && d.Contains(p) && |s.mask| == d.Count()
    ensures Visit(v, d, ok, p, Dirs(d), s)
         == Try(v, d, ok, p, ZDown, Try(v, d, ok, p, ZUp,
              Try(v, d, ok, p, YDown, Try(v, d, ok, p, YUp, Try(v, d, ok, p, XDown, Try(v, d, ok, p, XUp, s))))))
  {
    var ds := Dirs(d);
    assert |ds| == 6 && ds[0] == XUp && ds[1] == XDown && ds[2] == YUp && ds[3] == YDown && ds[4] == ZUp && ds[5] == ZDown;
    var t1 := Try(v, d, ok, p, XUp, s);
    var t2 := Try(v, d, ok, p, XDown, t1);
    var t3 := Try(v, d, ok, p, YUp, t2);
    var t4 := Try(v, d, ok, p, YDown, t3);
    var t5 := Try(v, d, ok, p, ZUp, t4);
    var t6 := Try(v, d, ok, p, ZDown, t5);
    assert ds[0..] == ds;
    VisitFrom(v, d, ok, p, ds, 0, s);
    VisitFrom(v, d, ok, p, ds, 1, t1);
    VisitFrom(v, d, ok, p, ds, 2, t2);
    VisitFrom(v, d, ok, p, ds, 3, t3);
    VisitFrom(v, d, ok, p, ds, 4, t4);
    VisitFrom(v, d, ok, p, ds, 5, t5);
    assert Visit(v, d, ok, p, ds[6..], t6) == t6;
  }

  /** One pass of the while loop. In a plane the counter is tested before
      the voxel is listed; in a volume the voxel is listed first, so a
      capped volume lists one voxel more (the list is cleared either way). */
  function Step(v: Variant, d: Dims, ok: Pos -> bool, max: int, s: Fill): (s': Fill)
    requires WellFormed(d, max, s) && !s.capped && |s.queue| > 0
    ensures WellFormed(d, max, s') && s'.count == s.count + 1
    ensures s'.capped <==> s.count + 1 > max
  {
    var p := s.queue[0];
    var c := s.count + 1;
    if c > max then
      if d.Plane? then s.(count := c, capped := true)
      else s.(out := s.out + [p], count := c, capped := true)
    else
      var popped := s.(out := s.out + [p], queue := s.queue[1..], count := c);
      var r := Visit(v, d, ok, p, Dirs(d), popped);
      assert forall i :: 0 <= i < |r.queue| ==> d.Contains(r.queue[i]) by {
        forall i | 0 <= i < |r.queue|
          ensures d.Contains(r.queue[i])
        {
          if i < |popped.queue| {
            assert r.queue[i] == r.queue[..|popped.queue|][i];
          }
        }
      }
      r
  }

  /** Budget left before the counter must exceed the cap. */
  function Budget(max: int, s: Fill): nat
  {
    if s.capped || s.count > Cap(max) then 0 else Cap(max) + 1 - s.count
  }

  /** The while loop: passes until the queue is empty or the cap breaks it. */
  function Traverse(v: Variant, d: Dims, ok: Pos -> bool, max: int, s: Fill): (t: Fill)
    requires WellFormed(d, max, s)
    ensures WellFormed(d, max, t)
    ensures t.capped || |t.queue| == 0
    ensures !s.capped ==> s.count <= t.count <= Cap(max) + 1
    decreases Budget(max, s)
  {
    if s.capped || |s.queue| == 0 then s
    else Traverse(v, d, ok, max, Step(v, d, ok, max, s))
  }

  /** The size filter after the loop: a count above the cap or below the
      minimum clears the list. */
  function Finish(min: int, max: int, t: Fill): seq<Pos>
  {
    if t.count > max || t.count < min then [] else t.out
  }

  /** The region grown from seed under the admission test ok. */
  function Flood(v: Variant, d: Dims, ok: Pos -> bool, seed: Pos, min: int, max: int): seq<Pos>
    requires d.Contains(seed)
  {
    var s := Start(v, d, seed);
    Finish(min, max, Traverse(v, d, ok, max, s))
  }

  // ---------------------------------------------------------------------
  // Loop invariants.

  predicate InField(d: Dims, e: seq<Pos>)
  {
    forall k :: 0 <= k < |e| ==> d.Contains(e[k])
  }

  /** par names, for every voxel after the first, an earlier voxel it was
      stepped to from; the voxel was admitted and is adjacent to it. */
  predicate Parents(v: Variant, d: Dims, ok: Pos -> bool, e: seq<Pos>, par: seq<nat>)
  {
    && |par| == |e|
    && forall k {:trigger par[k]} :: 1 <= k < |e| ==> par[k] < k && ok(e[k]) && Adjacent(v, d, e[par[k]], e[k])
  }

  /** Every voxel after the first was admitted and is adjacent to one found
      before it. */
  ghost predicate Linked(v: Variant, d: Dims, ok: Pos -> bool, e: seq<Pos>)
  {
    exists par :: Parents(v, d, ok, e, par)
  }

  predicate Marked(d: Dims, mask: seq<bool>, q: Pos)
  {
    0 <= d.Index(q) < |mask| && mask[d.Index(q)]
  }

  /** Only found voxels are marked. */
  ghost predicate MaskSound(d: Dims, mask: seq<bool>, e: seq<Pos>)
  {
    forall q {:trigger Marked(d, mask, q)} :: d.Contains(q) && Marked(d, mask, q) ==> q in e
  }

  /** The variants whose mask bits record exactly the voxels enqueued by a
      step: the intended code, and the code as written on a plane (where the
      misplaced z + 1 mark cannot occur). */
  predicate Tracked(v: Variant, d: Dims)
  {
    v == Intended || d.Plane?
  }

  /** The voxels whose mask bit was set when they were enqueued: all of them
      when the seed is marked at the start, all but the seed's first entry
      otherwise. */
  function Ledger(v: Variant, e: seq<Pos>): seq<Pos>
  {
    if v == Intended || |e| == 0 then e else e[1..]
  }

  ghost predicate MaskExact(d: Dims, mask: seq<bool>, l: seq<Pos>)
  {
    forall q {:trigger Marked(d, mask, q)} :: d.Contains(q) ==> (Marked(d, mask, q) <==> q in l)
  }

  /** Every admitted step out of the first n listed voxels leads to a found
      voxel. */
  predicate ClosedUpTo(v: Variant, d: Dims, ok: Pos -> bool, out: seq<Pos>, e: seq<Pos>)
  {
    forall i, dir {:trigger Guard(v, d, out[i], dir)} :: 0 <= i < |out| && dir in Dirs(d) && Guard(v, d, out[i], dir) && ok(Target(out[i], dir))
      ==> Target(out[i], dir) in e
  }

  /** What every neighbour test keeps of the found list e and the mask. */
  ghost predicate Sound(v: Variant, d: Dims, ok: Pos -> bool, e: seq<Pos>, mask: seq<bool>)
  {
    && InField(d, e) && Linked(v, d, ok, e) && MaskSound(d, mask, e)
    && (Tracked(v, d) ==> MaskExact(d, mask, Ledger(v, e)) && Distinct(Ledger(v, e)))
  }

  ghost predicate Inv(v: Variant, d: Dims, ok: Pos -> bool, seed: Pos, max: int, s: Fill)
  {
    && WellFormed(d, max, s) && !s.capped
    && |s.Found()| > 0 && s.Found()[0] == seed
    && |s.out| == s.count
    && Sound(v, d, ok, s.Found(), s.mask)
    && ClosedUpTo(v, d, ok, s.out, s.Found())
  }

  lemma StartInv(v: Variant, d: Dims, ok: Pos -> bool, seed: Pos, max: int)
    requires d.Contains(seed)
    ensures Inv(v, d, ok, seed, max, Start(v, d, seed))
  {
    var s := Start(v, d, seed);
    assert s.Found() == [seed];
    assert Parents(v, d, ok, [seed], [0]);
  }

  /** One neighbour test keeps the invariants and, when the step passes its
      guard and ok, leaves its target found. */
  lemma TryKeeps(v: Variant, d: Dims, ok: Pos -> bool, p: Pos, dir: Dir, s: Fill) returns (next: Fill)
    requires d.Contains(p) && |s.mask| == d.Count()
    requires |s.out| > 0 && p == s.out[|s.out| - 1]
    requires Sound(v, d, ok, s.Found(), s.mask)
    ensures next == Try(v, d, ok, p, dir, s)
    ensures next.out == s.out && |s.Found()| <= |next.Found()| && next.Found()[..|s.Found()|] == s.Found()
    ensures Sound(v, d, ok, next.Found(), next.mask)
    ensures Guard(v, d, p, dir) && ok(Target(p, dir)) ==> Target(p, dir) in next.Found()
  {
    var q := Target(p, dir);
    next := Try(v, d, ok, p, dir, s);
    if Guard(v, d, p, dir) && ok(q) && !Marked(d, s.mask, q) {
      GuardAdjacent(v, d, p, dir);
      var m := MaskedBy(v, p, dir);
      TryPush(v, d, ok, p, dir, s);
      var pushed := s.(mask := s.mask[d.Index(m) := true], queue := s.queue + [q]);
      assert next == pushed by {
        SameIndex(d, q, q);
        assert !s.mask[d.Index(q)];
      }
    } else {
      TrySkip(v, d, ok, p, dir, s);
    }
  }

  /** A pass over the steps dirs keeps the invariants, only appends to the
      found list, and leaves the target of every passed, admitted step
      found. */
  lemma {:induction false} VisitKeeps(v: Variant, d: Dims, ok: Pos -> bool, p: Pos, dirs: seq<Dir>, s: Fill)
    requires d.Contains(p) && |s.mask| == d.Count()
    requires |s.out| > 0 && p == s.out[|s.out| - 1]
    requires Sound(v, d, ok, s.Found(), s.mask)
    ensures var t := Visit(v, d, ok, p, dirs, s);
      && |s.Found()| <= |t.Found()| && t.Found()[..|s.Found()|] == s.Found()
      && Sound(v, d, ok, t.Found(), t.mask)
      && forall i :: 0 <= i < |dirs| && Guard(v, d, p, dirs[i]) && ok(Target(p, dirs[i])) ==> Target(p, dirs[i]) in t.Found()
    decreases |dirs|
  {
    if |dirs| > 0 {
      var next := TryKeeps(v, d, ok, p, dirs[0], s);
      var t := Visit(v, d, ok, p, dirs, s);
      assert t == Visit(v, d, ok, p, dirs[1..], next);
      VisitKeeps(v, d, ok, p, dirs[1..], next);
      assert t.Found()[..|s.Found()|] == t.Found()[..|next.Found()|][..|s.Found()|];
      forall i | 0 <= i < |dirs| && Guard(v, d, p, dirs[i]) && ok(Target(p, dirs[i]))
        ensures Target(p, dirs[i]) in t.Found()
      {
        if i == 0 {
          InPrefix(Target(p, dirs[i]), next.Found(), t.Found());
        } else {
          assert dirs[i] == dirs[1..][i - 1];
        }
      }
    }
  }

  /** A pass of the loop that does not break on the cap keeps the loop
      invariant. */
  lemma StepKeeps(v: Variant, d: Dims, ok: Pos -> bool, seed: Pos, max: int, s: Fill)
    requires Inv(v, d, ok, seed, max, s) && |s.queue| > 0
    ensures var t := Step(v, d, ok, max, s);
      t.capped || Inv(v, d, ok, seed, max, t)
  {
    var t := Step(v, d, ok, max, s);
    if !t.capped {
      var e, e' := s.Found(), t.Found();
      StepGrows(v, d, ok, max, s);
      assert e'[0] == e'[..|e|][0];
    }
  }

  /** A pass that lists p keeps the found list and mask sound, only appends
      to the found list, and closes p. */
  lemma StepGrows(v: Variant, d: Dims, ok: Pos -> bool, max: int, s: Fill)
    requires WellFormed(d, max, s) && !s.capped && |s.queue| > 0 && s.count + 1 <= max
    requires Sound(v, d, ok, s.Found(), s.mask) && ClosedUpTo(v, d, ok, s.out, s.Found())
    ensures var t := Step(v, d, ok, max, s);
      && t.out == s.out + [s.queue[0]]
      && |s.Found()| <= |t.Found()| && t.Found()[..|s.Found()|] == s.Found()
      && Sound(v, d, ok, t.Found(), t.mask)
      && ClosedUpTo(v, d, ok, t.out, t.Found())
  {
    var p := s.queue[0];
    var popped := s.(out := s.out + [p], queue := s.queue[1..], count := s.count + 1);
    assert popped.Found() == s.Found();
    StepVisits(v, d, ok, max, s);
    VisitCloses(v, d, ok, p, popped, s.out);
  }

  /** Visiting the neighbours of the voxel just listed keeps the found list
      sound and closes that voxel. */
  lemma VisitCloses(v: Variant, d: Dims, ok: Pos -> bool, p: Pos, u: Fill, out: seq<Pos>)
    requires d.Contains(p) && |u.mask| == d.Count() && u.out == out + [p]
    requires Sound(v, d, ok, u.Found(), u.mask) && ClosedUpTo(v, d, ok, out, u.Found())
    ensures var t := Visit(v, d, ok, p, Dirs(d), u);
      && |u.Found()| <= |t.Found()| && t.Found()[..|u.Found()|] == u.Found()
      && Sound(v, d, ok, t.Found(), t.mask)
      && ClosedUpTo(v, d, ok, t.out, t.Found())
  {
    var t := Visit(v, d, ok, p, Dirs(d), u);
    VisitKeeps(v, d, ok, p, Dirs(d), u);
    CloseStep(v, d, ok, out, u.Found(), p, t.Found());
  }

  /** A pass below the cap pops the head, lists it and visits its
      neighbours. */
  lemma StepVisits(v: Variant, d: Dims, ok: Pos -> bool, max: int, s: Fill)
    requires WellFormed(d, max, s) && !s.capped && |s.queue| > 0 && s.count + 1 <= max
    ensures var p := s.queue[0];
      Step(v, d, ok, max, s) == Visit(v, d, ok, p, Dirs(d), s.(out := s.out + [p], queue := s.queue[1..], count := s.count + 1))
  {
  }

  /** Listing p keeps the closure once every admitted step out of p has been
      found. */
  lemma CloseStep(v: Variant, d: Dims, ok: Pos -> bool, out: seq<Pos>, e: seq<Pos>, p: Pos, e': seq<Pos>)
    requires ClosedUpTo(v, d, ok, out, e) && |e| <= |e'| && e'[..|e|] == e
    requires forall i :: 0 <= i < |Dirs(d)| && Guard(v, d, p, Dirs(d)[i]) && ok(Target(p, Dirs(d)[i])) ==> Target(p, Dirs(d)[i]) in e'
    ensures ClosedUpTo(v, d, ok, out + [p], e')
  {
    var out' := out + [p];
    forall i, dir | 0 <= i < |out'| && dir in Dirs(d) && Guard(v, d, out'[i], dir) && ok(Target(out'[i], dir))
      ensures Target(out'[i], dir) in e'
    {
      if i < |out| {
        assert out'[i] == out[i];
        InPrefix(Target(out[i], dir), e, e');
      } else {
        var j :| 0 <= j < |Dirs(d)| && Dirs(d)[j] == dir;
      }
    }
  }

  /** The loop ends either broken on the cap, with a counter above it, or
      with an empty queue and the invariant intact. */
  lemma {:induction false} TraverseKeeps(v: Variant, d: Dims, ok: Pos -> bool, seed: Pos, max: int, s: Fill)
    requires Inv(v, d, ok, seed, max, s)
    ensures var t := Traverse(v, d, ok, max, s);
      if t.capped then t.count > max else Inv(v, d, ok, seed, max, t) && |t.queue| == 0
    decreases Budget(max, s)
  {
    if |s.queue| > 0 {
      var t := Step(v, d, ok, max, s);
      StepKeeps(v, d, ok, seed, max, s);
      if !t.capped {
        TraverseKeeps(v, d, ok, seed, max, t);
      }
    }
  }

  /** Every admitted step out of a closed list leads back into it. */
  ghost predicate Closed(v: Variant, d: Dims, ok: Pos -> bool, r: seq<Pos>)
  {
    forall i, q :: 0 <= i < |r| && Adjacent(v, d, r[i], q) && ok(q) ==> q in r
  }

  /** What the loop leaves behind when it does not break on the cap: every
      found voxel listed, the list sound and closed, and one entry per pass. */
  lemma TraverseEnds(v: Variant, d: Dims, ok: Pos -> bool, seed: Pos, max: int)
    requires d.Contains(seed)
    ensures var t := Traverse(v, d, ok, max, Start(v, d, seed));
      t.capped ==> t.count > max
    ensures var t := Traverse(v, d, ok, max, Start(v, d, seed));
      !t.capped ==>
        && |t.out| == t.count && 0 < |t.out| && t.out[0] == seed
        && Sound(v, d, ok, t.out, t.mask) && Closed(v, d, ok, t.out)
  {
    var s := Start(v, d, seed);
    var t := Traverse(v, d, ok, max, s);
    StartInv(v, d, ok, seed, max);
    TraverseKeeps(v, d, ok, seed, max, s);
    if !t.capped {
      assert t.Found() == t.out;
      forall i, q | 0 <= i < |t.out| && Adjacent(v, d, t.out[i], q) && ok(q)
        ensures q in t.out
      {
        var dir := AdjacentDir(v, d, t.out[i], q);
        assert Guard(v, d, t.out[i], dir);
      }
    }
  }

  /** A list grown from the seed: in the field, linked, and duplicate-free
      where the mask records exactly the enqueued voxels. */
  ghost predicate Grown(v: Variant, d: Dims, ok: Pos -> bool, seed: Pos, e: seq<Pos>)
  {
    && |e| > 0 && e[0] == seed && InField(d, e) && Linked(v, d, ok, e)
    && (Tracked(v, d) ==> Distinct(Ledger(v, e)))
  }

  /** When the loop breaks on the cap, it has already found more than max
      voxels: the listed ones, one per pass, and at least one queued. */
  lemma {:induction false} TraverseCapped(v: Variant, d: Dims, ok: Pos -> bool, seed: Pos, max: int, s: Fill)
    requires Inv(v, d, ok, seed, max, s)
    ensures Traverse(v, d, ok, max, s).capped ==> exists e :: Grown(v, d, ok, seed, e) && |e| > max
    decreases Budget(max, s)
  {
    if |s.queue| > 0 {
      var t := Step(v, d, ok, max, s);
      StepKeeps(v, d, ok, seed, max, s);
      if t.capped {
        assert |s.Found()| == |s.out| + |s.queue|;
        assert Grown(v, d, ok, seed, s.Found());
      } else {
        TraverseCapped(v, d, ok, seed, max, t);
      }
    }
  }

  /** The region a flood returns is empty, or starts at the seed and has
      between min and max voxels, all in the field; every voxel after the
      first was admitted and is adjacent to an earlier one; every admitted
      neighbour of a listed voxel is listed; and where the mask records
      exactly the enqueued voxels, nothing recorded is listed twice. The
      list is kept exactly when the loop ran out of queue (rather than
      breaking on the cap) after at least min passes, and it is then the
      loop's discovery order, one voxel per pass. */
  lemma FloodSound(v: Variant, d: Dims, ok: Pos -> bool, seed: Pos, min: int, max: int)
    requires d.Contains(seed)
    ensures var r := Flood(v, d, ok, seed, min, max);
      && (r == [] || (r[0] == seed && min <= |r| <= max))
      && InField(d, r) && Linked(v, d, ok, r) && Closed(v, d, ok, r)
      && (Tracked(v, d) ==> Distinct(Ledger(v, r)))
    ensures var r, t := Flood(v, d, ok, seed, min, max), Traverse(v, d, ok, max, Start(v, d, seed));
      && (r != [] <==> !t.capped && min <= t.count)
      && (r != [] ==> r == t.out && |r| == t.count)
  {
    var r := Flood(v, d, ok, seed, min, max);
    TraverseEnds(v, d, ok, seed, max);
    if r == [] {
      assert Parents(v, d, ok, r, []);
    }
  }

  /** The parent links of the result, read as: every voxel after the first
      was admitted and lies one step from an earlier one. */
  lemma FloodLinked(v: Variant, d: Dims, ok: Pos -> bool, seed: Pos, min: int, max: int)
    requires d.Contains(seed)
    ensures var r := Flood(v, d, ok, seed, min, max);
      && (r == [] || (r[0] == seed && min <= |r| <= max))
      && (forall k :: 1 <= k < |r| ==> ok(r[k]))
      && (forall k :: 1 <= k < |r| ==> exists i :: 0 <= i < k && Adjacent(v, d, r[i], r[k]))
      && (Tracked(v, d) ==> Distinct(Ledger(v, r)))
  {
    var r := Flood(v, d, ok, seed, min, max);
    FloodSound(v, d, ok, seed, min, max);
    var par :| Parents(v, d, ok, r, par);
    forall k | 1 <= k < |r|
      ensures ok(r[k]) && exists i :: 0 <= i < k && Adjacent(v, d, r[i], r[k])
    {
      assert par[k] < k && ok(r[k]) && Adjacent(v, d, r[par[k]], r[k]);
    }
  }

  /** Every listed voxel has an offset inside the mask and the field buffer,
      and the loop made at most max + 1 passes (one per counter tick). */
  lemma FloodInBounds(v: Variant, d: Dims, ok: Pos -> bool, seed: Pos, min: int, max: int)
    requires d.Contains(seed)
    ensures var r := Flood(v, d, ok, seed, min, max);
      forall i :: 0 <= i < |r| ==> 0 <= d.Index(r[i]) < d.Count()
    ensures Traverse(v, d, ok, max, Start(v, d, seed)).count <= Cap(max) + 1
  {
    var r := Flood(v, d, ok, seed, min, max);
    FloodSound(v, d, ok, seed, min, max);
    forall i | 0 <= i < |r|
      ensures 0 <= d.Index(r[i]) < d.Count()
    {
      IndexInRange(d, r[i]);
    }
  }

  /** As written, a downward step never lands on coordinate 0, so along each
      axis a listed voxel either keeps the seed's coordinate or is at least
      1. */
  lemma {:induction false} LowerEdge(d: Dims, ok: Pos -> bool, e: seq<Pos>, par: seq<nat>, k: nat)
    requires Parents(AsWritten, d, ok, e, par) && k < |e|
    ensures e[k].x >= 1 || e[k].x == e[0].x
    ensures e[k].y >= 1 || e[k].y == e[0].y
    ensures e[k].z >= 1 || e[k].z == e[0].z
    decreases k
  {
    if k > 0 {
      var j := par[k];
      LowerEdge(d, ok, e, par, j);
      assert Adjacent(AsWritten, d, e[j], e[k]) && Low(AsWritten) == 1;
    }
  }

  lemma FloodLowerEdge(d: Dims, ok: Pos -> bool, seed: Pos, min: int, max: int)
    requires d.Contains(seed)
    ensures forall q :: q in Flood(AsWritten, d, ok, seed, min, max) ==>
              && (q.x >= 1 || q.x == seed.x)
              && (q.y >= 1 || q.y == seed.y)
              && (q.z >= 1 || q.z == seed.z)
  {
    var r := Flood(AsWritten, d, ok, seed, min, max);
    FloodSound(AsWritten, d, ok, seed, min, max);
    var par :| Parents(AsWritten, d, ok, r, par);
    forall q | q in r
      ensures (q.x >= 1 || q.x == seed.x) && (q.y >= 1 || q.y == seed.y) && (q.z >= 1 || q.z == seed.z)
    {
      var k :| 0 <= k < |r| && r[k] == q;
      LowerEdge(d, ok, r, par, k);
    }
  }

  // ---------------------------------------------------------------------
  // The region as a reachability set.

  /** A walk through the field: consecutive voxels adjacent, every voxel
      after the first admitted. */
  ghost predicate Walk(v: Variant, d: Dims, ok: Pos -> bool, w: seq<Pos>)
  {
    && |w| > 0
    && forall i, j :: 0 <= i < j < |w| && j == i + 1 ==> Adjacent(v, d, w[i], w[j]) && ok(w[j])
  }

  ghost predicate Reachable(v: Variant, d: Dims, ok: Pos -> bool, seed: Pos, q: Pos)
  {
    exists w :: Walk(v, d, ok, w) && w[0] == seed && w[|w| - 1] == q
  }

  /** Every voxel of a linked list is reachable from its first voxel. */
  lemma {:induction false} LinkedReach(v: Variant, d: Dims, ok: Pos -> bool, e: seq<Pos>, par: seq<nat>, k: nat)
    requires Parents(v, d, ok, e, par) && k < |e|
    ensures Reachable(v, d, ok, e[0], e[k])
    decreases k
  {
    if k == 0 {
      assert Walk(v, d, ok, [e[0]]);
    } else {
      var j := par[k];
      LinkedReach(v, d, ok, e, par, j);
      var w :| Walk(v, d, ok, w) && w[0] == e[0] && w[|w| - 1] == e[j];
      var w' := w + [e[k]];
      assert forall i :: 0 <= i < |w| ==> w'[i] == w[i];
      assert Walk(v, d, ok, w');
    }
  }

  /** A closed list holding the start of a walk holds all of it. */
  lemma {:induction false} ClosedHoldsWalk(v: Variant, d: Dims, ok: Pos -> bool, r: seq<Pos>, w: seq<Pos>, k: nat)
    requires Closed(v, d, ok, r) && Walk(v, d, ok, w) && w[0] in r && k < |w|
    ensures w[k] in r
    decreases k
  {
    if k > 0 {
      ClosedHoldsWalk(v, d, ok, r, w, k - 1);
      var i :| 0 <= i < |r| && r[i] == w[k - 1];
      assert Adjacent(v, d, r[i], w[k]) && ok(w[k]);
    }
  }

  /** A non-empty region (see FloodSound for when it is kept) is exactly the
      set of voxels reachable from the seed through admitted neighbours. */
  lemma FloodIsReach(v: Variant, d: Dims, ok: Pos -> bool, seed: Pos, min: int, max: int, q: Pos)
    requires d.Contains(seed)
    ensures var r := Flood(v, d, ok, seed, min, max);
      r != [] ==> (q in r <==> Reachable(v, d, ok, seed, q))
  {
    var r := Flood(v, d, ok, seed, min, max);
    FloodSound(v, d, ok, seed, min, max);
    if r == [] {
    } else if q in r {
      var k :| 0 <= k < |r| && r[k] == q;
      var par :| Parents(v, d, ok, r, par);
      LinkedReach(v, d, ok, r, par, k);
    } else if Reachable(v, d, ok, seed, q) {
      var w :| Walk(v, d, ok, w) && w[0] == seed && w[|w| - 1] == q;
      ClosedHoldsWalk(v, d, ok, r, w, |w| - 1);
    }
  }

  /** The voxels of the field reachable from the seed through admitted
      neighbours. */
  ghost function Region(v: Variant, d: Dims, ok: Pos -> bool, seed: Pos): (R: set<Pos>)
    ensures forall q :: q in R <==> d.Contains(q) && Reachable(v, d, ok, seed, q)
  {
    var R := set i | 0 <= i < d.Count() && Reachable(v, d, ok, seed, d.Decode(i)) :: d.Decode(i);
    forall q
      ensures q in R <==> d.Contains(q) && Reachable(v, d, ok, seed, q)
    {
      if d.Contains(q) {
        DecodeIndex(d, q);
      }
      if q in R {
        var i :| 0 <= i < d.Count() && Reachable(v, d, ok, seed, d.Decode(i)) && q == d.Decode(i);
        IndexDecode(d, i);
      }
    }
    R
  }

  /** A list grown from the seed holds only voxels of the region. */
  lemma GrownInRegion(v: Variant, d: Dims, ok: Pos -> bool, seed: Pos, e: seq<Pos>)
    requires Grown(v, d, ok, seed, e)
    ensures Elements(e) <= Region(v, d, ok, seed)
  {
    var par :| Parents(v, d, ok, e, par);
    forall k | 0 <= k < |e|
      ensures e[k] in Region(v, d, ok, seed)
    {
      LinkedReach(v, d, ok, e, par, k);
    }
  }

  /** A closed list grown from the seed holds the whole region. */
  lemma ClosedIsRegion(v: Variant, d: Dims, ok: Pos -> bool, seed: Pos, e: seq<Pos>)
    requires Grown(v, d, ok, seed, e) && Closed(v, d, ok, e)
    ensures Elements(e) == Region(v, d, ok, seed)
  {
    GrownInRegion(v, d, ok, seed, e);
    forall q | q in Region(v, d, ok, seed)
      ensures q in Elements(e)
    {
      var w :| Walk(v, d, ok, w) && w[0] == seed && w[|w| - 1] == q;
      ClosedHoldsWalk(v, d, ok, e, w, |w| - 1);
    }
  }

  /** With the corrections, the flood keeps its list exactly when the region
      has between min and max voxels, and the list then holds every voxel of
      the region once. Capped or not, the loop never finds more voxels than
      the region has, so a region above max is cut and one within the
      bounds is listed in full. */
  lemma FloodRegionSize(d: Dims, ok: Pos -> bool, seed: Pos, min: int, max: int)
    requires d.Contains(seed)
    ensures var r, R := Flood(Intended, d, ok, seed, min, max), Region(Intended, d, ok, seed);
      && (r != [] <==> min <= |R| <= max)
      && (r != [] ==> r[0] == seed && Distinct(r) && Elements(r) == R && |r| == |R|)
  {
    var R := Region(Intended, d, ok, seed);
    var s := Start(Intended, d, seed);
    var t := Traverse(Intended, d, ok, max, s);
    FloodSound(Intended, d, ok, seed, min, max);
    TraverseEnds(Intended, d, ok, seed, max);
    if t.capped {
      StartInv(Intended, d, ok, seed, max);
      TraverseCapped(Intended, d, ok, seed, max, s);
      var e :| Grown(Intended, d, ok, seed, e) && |e| > max;
      GrownInRegion(Intended, d, ok, seed, e);
      DistinctCard(e);
      SubsetCard(Elements(e), R);
    } else {
      assert Grown(Intended, d, ok, seed, t.out);
      ClosedIsRegion(Intended, d, ok, seed, t.out);
      DistinctCard(t.out);
    }
  }

  lemma InPrefix<T>(x: T, a: seq<T>, b: seq<T>)
    requires x in a && |a| <= |b| && b[..|a|] == a
    ensures x in b
  {
    var i :| 0 <= i < |a| && a[i] == x;
    assert b[i] == b[..|a|][i];
  }

  /** A step that is not taken changes nothing; its target, if admitted
      behind a passed guard, was already found. */
  lemma TrySkip(v: Variant, d: Dims, ok: Pos -> bool, p: Pos, dir: Dir, s: Fill)
    requires d.Contains(p) && |s.mask| == d.Count()
    requires MaskSound(d, s.mask, s.Found())
    requires !(Guard(v, d, p, dir) && ok(Target(p, dir)) && !Marked(d, s.mask, Target(p, dir)))
    ensures Try(v, d, ok, p, dir, s) == s
    ensures Guard(v, d, p, dir) && ok(Target(p, dir)) ==> Target(p, dir) in s.Found()
  {
    var q := Target(p, dir);
    if Guard(v, d, p, dir) {
      GuardAdjacent(v, d, p, dir);
      SameIndex(d, q, q);
    }
  }

  /** A step that is taken keeps the invariants. */
  lemma TryPush(v: Variant, d: Dims, ok: Pos -> bool, p: Pos, dir: Dir, s: Fill)
    requires d.Contains(p) && |s.mask| == d.Count()
    requires |s.out| > 0 && p == s.out[|s.out| - 1]
    requires Sound(v, d, ok, s.Found(), s.mask)
    requires Guard(v, d, p, dir) && ok(Target(p, dir))
    requires !Marked(d, s.mask, Target(p, dir))
    ensures d.Contains(MaskedBy(v, p, dir)) && 0 <= d.Index(MaskedBy(v, p, dir)) < |s.mask|
    ensures var next := s.(mask := s.mask[d.Index(MaskedBy(v, p, dir)) := true], queue := s.queue + [Target(p, dir)]);
      && next.Found() == s.Found() + [Target(p, dir)]
      && Sound(v, d, ok, next.Found(), next.mask)
  {
    var q := Target(p, dir);
    var e := s.Found();
    var m := MaskedBy(v, p, dir);
    GuardAdjacent(v, d, p, dir);
    assert e[|s.out| - 1] == p;
    SameIndex(d, m, m);
    var next := s.(mask := s.mask[d.Index(m) := true], queue := s.queue + [q]);
    assert next.Found() == e + [q];
    assert Linked(v, d, ok, e + [q]) by {
      PushLinked(v, d, ok, e, |s.out| - 1, q);
    }
    assert MaskSound(d, next.mask, e + [q]) by {
      PushSound(d, s.mask, e, m, q);
    }
    assert InField(d, e + [q]);
    if Tracked(v, d) {
      assert Ledger(v, e + [q]) == Ledger(v, e) + [q];
      assert MaskExact(d, next.mask, Ledger(v, e) + [q]) && Distinct(Ledger(v, e) + [q]) by {
        PushExact(d, s.mask, Ledger(v, e), q);
      }
    }
  }

  lemma PushLinked(v: Variant, d: Dims, ok: Pos -> bool, e: seq<Pos>, j: nat, q: Pos)
    requires Linked(v, d, ok, e) && j < |e| && Adjacent(v, d, e[j], q) && ok(q)
    ensures Linked(v, d, ok, e + [q])
  {
    var par :| Parents(v, d, ok, e, par);
    var e', par' := e + [q], par + [j];
    forall k | 1 <= k < |e'|
      ensures par'[k] < k && ok(e'[k]) && Adjacent(v, d, e'[par'[k]], e'[k])
    {
      if k < |e| {
        assert par'[k] == par[k] && e'[par[k]] == e[par[k]] && e'[k] == e[k];
      } else {
        assert e'[j] == e[j];
      }
    }
    assert Parents(v, d, ok, e', par');
  }

  lemma PushSound(d: Dims, mask: seq<bool>, e: seq<Pos>, m: Pos, q: Pos)
    requires |mask| == d.Count() && d.Contains(m) && MaskSound(d, mask, e)
    requires m in e + [q]
    ensures 0 <= d.Index(m) < |mask|
    ensures MaskSound(d, mask[d.Index(m) := true], e + [q])
  {
    SameIndex(d, m, m);
    var mask' := mask[d.Index(m) := true];
    forall r | d.Contains(r) && Marked(d, mask', r)
      ensures r in e + [q]
    {
      SameIndex(d, r, m);
      if d.Index(r) != d.Index(m) {
        assert Marked(d, mask, r);
      }
    }
  }

  lemma PushExact(d: Dims, mask: seq<bool>, l: seq<Pos>, q: Pos)
    requires |mask| == d.Count() && d.Contains(q)
    requires MaskExact(d, mask, l) && Distinct(l) && !Marked(d, mask, q)
    ensures 0 <= d.Index(q) < |mask|
    ensures MaskExact(d, mask[d.Index(q) := true], l + [q]) && Distinct(l + [q])
  {
    SameIndex(d, q, q);
    forall r | d.Contains(r)
      ensures Marked(d, mask[d.Index(q) := true], r) <==> r in l + [q]
    {
      SameIndex(d, r, q);
      assert Marked(d, mask, r) <==> r in l;
    }
    DistinctSnoc(l, q);
  }

  lemma DistinctSnoc<T>(l: seq<T>, x: T)
    requires Distinct(l) && x !in l
    ensures Distinct(l + [x])
  {
    var l' := l + [x];
    forall i, j | 0 <= i < j < |l'|
      ensures l'[i] != l'[j]
    {
      if j < |l| {
        assert l'[i] == l[i] && l'[j] == l[j];
      } else {
        assert l'[i] == l[i];
      }
    }
  }

  // ---------------------------------------------------------------------
  // The library's admission test and entry point.

  /** The library's comparison `__corr__(seed, q) > r`; a NaN correlation
      compares false. */
  predicate Above(c: Value, r: real)
  {
    c.Num? && c.r > r
  }

  predicate Similar(f: Field, seed: Pos, q: Pos, r: real, root: real -> real)
    requires f.Valid() && f.dims.Contains(seed)
  {
    f.dims.Contains(q) && Above(Corr(VoxelVector(f, seed), VoxelVector(f, q), root), r)
  }

  /** The admission test of a field, seed and threshold as a predicate on
      voxels. */
  function Admission(f: Field, seed: Pos, r: real, root: real -> real): Pos -> bool
    requires f.Valid() && f.dims.Contains(seed)
  {
    q => Similar(f, seed, q, r, root)
  }

  /** `flood_fill` on a field, as written. */
  function FloodFill(f: Field, seed: Pos, r: real, min: int, max: int, root: real -> real): seq<Pos>
    requires f.Valid() && f.dims.Contains(seed)
  {
    Flood(AsWritten, f.dims, Admission(f, seed, r, root), seed, min, max)
  }

  /** `flood_fill` with the three corrections applied. */
  function FloodFillIntended(f: Field, seed: Pos, r: real, min: int, max: int, root: real -> real): seq<Pos>
    requires f.Valid() && f.dims.Contains(seed)
  {
    Flood(Intended, f.dims, Admission(f, seed, r, root), seed, min, max)
  }

  /** The library's result: empty, or the seed followed by voxels whose
      vectors correlate with the seed's vector above r, each one step from
      an earlier voxel; in a plane no voxel but the seed is listed twice. */
  lemma FloodFillSound(f: Field, seed: Pos, r: real, min: int, max: int, root: real -> real)
    requires f.Valid() && f.dims.Contains(seed)
    ensures var out := FloodFill(f, seed, r, min, max, root);
      && (out == [] || (out[0] == seed && min <= |out| <= max))
      && (forall k :: 1 <= k < |out| ==> Similar(f, seed, out[k], r, root))
      && (forall k :: 1 <= k < |out| ==> exists i :: 0 <= i < k && Adjacent(AsWritten, f.dims, out[i], out[k]))
      && (f.dims.Plane? && out != [] ==> Distinct(out[1..]))
  {
    var ok := Admission(f, seed, r, root);
    FloodLinked(AsWritten, f.dims, ok, seed, min, max);
  }

  /** With the corrections, the result is non-empty exactly when the voxels
      reachable from the seed through neighbours whose vectors correlate
      with the seed's above r number between min and max; it then lists
      each of them once, starting at the seed. */
  lemma FloodFillIntendedRegion(f: Field, seed: Pos, r: real, min: int, max: int, root: real -> real)
    requires f.Valid() && f.dims.Contains(seed)
    ensures var out, R := FloodFillIntended(f, seed, r, min, max, root), Region(Intended, f.dims, Admission(f, seed, r, root), seed);
      && (out != [] <==> min <= |R| <= max)
      && (out != [] ==> out[0] == seed && Distinct(out) && Elements(out) == R)
  {
    FloodRegionSize(f.dims, Admission(f, seed, r, root), seed, min, max);
  }

  /** The seed coordinates read from the pos argument for a field's rank. */
  function SeedOf(d: Dims, pos: seq<int>): Pos
    requires |pos| >= 3 || (d.Plane? && |pos| >= 2)
  {
    if d.Plane? then Pos(pos[0], pos[1], 0) else Pos(pos[0], pos[1], pos[2])
  }

  /** The `flood_fill` entry point: a pos argument that is not a vector is
      refused; an array that is neither a plane nor a volume of vectors
      leaves the list empty; otherwise the flood runs from the voxel pos
      names. */
  function FloodFillEntry(posRank: nat, pos: seq<int>, vf: NdArray, r: real, min: int, max: int, root: real -> real): (res: Result<seq<Pos>>)
    requires vf.Valid()
    requires posRank == 1 && AsField(vf).Some? ==>
               (|pos| >= 3 || (AsField(vf).value.dims.Plane? && |pos| >= 2))
               && AsField(vf).value.dims.Contains(SeedOf(AsField(vf).value.dims, pos))
    ensures res.Err? <==> posRank != 1
    ensures res.Err? ==> res.error == RankError
    ensures posRank == 1 && AsField(vf).None? ==> res == Ok([])
    ensures res.Ok? && res.value != [] ==>
              && AsField(vf).Some?
              && res.value[0] == SeedOf(AsField(vf).value.dims, pos)
              && min <= |res.value| <= max
              && forall k :: 0 <= k < |res.value| ==> AsField(vf).value.dims.Contains(res.value[k])
  {
    if posRank != 1 then Err(RankError)
    else match AsField(vf)
      case None => Ok([])
      case Some(f) =>
        var seed := SeedOf(f.dims, pos);
        FloodSound(AsWritten, f.dims, Admission(f, seed, r, root), seed, min, max);
        Ok(FloodFill(f, seed, r, min, max, root))
  }
}

=== FILE: floodfill_cases.dfy ===
/** Concrete runs of the flood fill that exhibit the quirks of the code as
    written, on fields small enough to follow pass by pass. Every voxel of
    the field is admitted: that is what a field of identical vectors gives
    for a negative threshold (UniformFieldAdmitsAll). */
module FloodFillCases {
  import opened Grid
  import opened Values
  import opened Fields
  import opened Correlation
  import opened Flooding

  /** A step whose target's bit is set at offset m changes nothing. */
  lemma TryMarked(v: Variant, d: Dims, ok: Pos -> bool, p: Pos, dir: Dir, s: Fill, m: int)
    requires d.Contains(p) && |s.mask| == d.Count()
    requires m == d.Index(Target(p, dir)) && 0 <= m < |s.mask| && s.mask[m]
    ensures Try(v, d, ok, p, dir, s) == s
  {
    assert Marked(d, s.mask, Target(p, dir));
    TryBlocked(v, d, ok, p, dir, s);
  }

  // ---------------------------------------------------------------------
  // A row of three cells, seeded in the middle: Plane(3, 1), seed (1, 0).

  lemma RowPass1(v: Variant, d: Dims, ok: Pos -> bool, b: Pos, c: Pos, s0: Fill)
    requires v == AsWritten && d == Plane(3, 1) && b == Pos(1, 0, 0) && c == Pos(2, 0, 0)
    requires ok(c)
    requires s0 == Fill([], [b], [false, false, false], 0, false)
    ensures WellFormed(d, 10, s0)
    ensures Step(v, d, ok, 10, s0) == Fill([b], [c], [false, false, true], 1, false)
  {
    var p0 := Fill([b], [], [false, false, false], 1, false);
    assert s0.(out := s0.out + [b], queue := s0.queue[1..], count := 1) == p0;
    var t1 := Fill([b], [c], [false, false, true], 1, false);
    assert Try(v, d, ok, b, XUp, p0) == t1 by {
      TryTaken(v, d, ok, b, XUp, p0, 2);
      assert p0.mask[2 := true] == t1.mask;
    }
    assert Try(v, d, ok, b, XDown, t1) == t1 by {
      TryBlocked(v, d, ok, b, XDown, t1);
    }
    assert Try(v, d, ok, b, YUp, t1) == t1 by {
      TryBlocked(v, d, ok, b, YUp, t1);
    }
    assert Try(v, d, ok, b, YDown, t1) == t1 by {
      TryBlocked(v, d, ok, b, YDown, t1);
    }
    VisitPlane(v, d, ok, b, p0);
  }

  lemma RowPass2(v: Variant, d: Dims, ok: Pos -> bool, b: Pos, c: Pos, s1: Fill)
    requires v == AsWritten && d == Plane(3, 1) && b == Pos(1, 0, 0) && c == Pos(2, 0, 0)
    requires ok(b)
    requires s1 == Fill([b], [c], [false, false, true], 1, false)
    ensures WellFormed(d, 10, s1)
    ensures Step(v, d, ok, 10, s1) == Fill([b, c], [b], [false, true, true], 2, false)
  {
    var p1 := Fill([b, c], [], [false, false, true], 2, false);
    assert s1.(out := s1.out + [c], queue := s1.queue[1..], count := 2) == p1;
    assert Try(v, d, ok, c, XUp, p1) == p1 by {
      TryBlocked(v, d, ok, c, XUp, p1);
    }
    var t2 := Fill([b, c], [b], [false, true, true], 2, false);
    assert Try(v, d, ok, c, XDown, p1) == t2 by {
      TryTaken(v, d, ok, c, XDown, p1, 1);
      assert p1.mask[1 := true] == t2.mask;
    }
    assert Try(v, d, ok, c, YUp, t2) == t2 by {
      TryBlocked(v, d, ok, c, YUp, t2);
    }
    assert Try(v, d, ok, c, YDown, t2) == t2 by {
      TryBlocked(v, d, ok, c, YDown, t2);
    }
    VisitPlane(v, d, ok, c, p1);
  }

  lemma RowPass3(v: Variant, d: Dims, ok: Pos -> bool, b: Pos, c: Pos, s2: Fill)
    requires v == AsWritten && d == Plane(3, 1) && b == Pos(1, 0, 0) && c == Pos(2, 0, 0)
    requires s2 == Fill([b, c], [b], [false, true, true], 2, false)
    ensures WellFormed(d, 10, s2)
    ensures Step(v, d, ok, 10, s2) == Fill([b, c, b], [], [false, true, true], 3, false)
  {
    var p2 := Fill([b, c, b], [], [false, true, true], 3, false);
    assert s2.(out := s2.out + [b], queue := s2.queue[1..], count := 3) == p2;
    assert Try(v, d, ok, b, XUp, p2) == p2 by {
      TryMarked(v, d, ok, b, XUp, p2, 2);
    }
    assert Try(v, d, ok, b, XDown, p2) == p2 by {
      TryBlocked(v, d, ok, b, XDown, p2);
    }
    assert Try(v, d, ok, b, YUp, p2) == p2 by {
      TryBlocked(v, d, ok, b, YUp, p2);
    }
    assert Try(v, d, ok, b, YDown, p2) == p2 by {
      TryBlocked(v, d, ok, b, YDown, p2);
    }
    VisitPlane(v, d, ok, b, p2);
  }

  /** The three passes over the row, chained into the loop. */
  lemma RowRun(ok: Pos -> bool)
    requires ok(Pos(1, 0, 0)) && ok(Pos(2, 0, 0))
    ensures Flood(AsWritten, Plane(3, 1), ok, Pos(1, 0, 0), 0, 10) == [Pos(1, 0, 0), Pos(2, 0, 0), Pos(1, 0, 0)]
  {
    var v, d := AsWritten, Plane(3, 1);
    var b, c := Pos(1, 0, 0), Pos(2, 0, 0);
    var s0 := Start(v, d, b);
    assert s0 == Fill([], [b], [false, false, false], 0, false);
    RowPass1(v, d, ok, b, c, s0);
    var s1 := Fill([b], [c], [false, false, true], 1, false);
    RowPass2(v, d, ok, b, c, s1);
    var s2 := Fill([b, c], [b], [false, true, true], 2, false);
    RowPass3(v, d, ok, b, c, s2);
    var s3 := Fill([b, c, b], [], [false, true, true], 3, false);
    assert Traverse(v, d, ok, 10, s3) == s3;
    assert Traverse(v, d, ok, 10, s2) == s3;
    assert Traverse(v, d, ok, 10, s1) == s3;
    assert Traverse(v, d, ok, 10, s0) == s3;
  }

  /** As written, the row seeded in the middle lists the seed twice (it is
      re-entered from (2, 0) because its mask bit was never set) and never
      lists (0, 0), although (0, 0) is admitted and next to the seed. */
  lemma RowAsWritten(ok: Pos -> bool)
    requires forall q :: Plane(3, 1).Contains(q) ==> ok(q)
    ensures Flood(AsWritten, Plane(3, 1), ok, Pos(1, 0, 0), 0, 10) == [Pos(1, 0, 0), Pos(2, 0, 0), Pos(1, 0, 0)]
    ensures !Distinct(Flood(AsWritten, Plane(3, 1), ok, Pos(1, 0, 0), 0, 10))
    ensures ok(Pos(0, 0, 0)) && Pos(0, 0, 0) !in Flood(AsWritten, Plane(3, 1), ok, Pos(1, 0, 0), 0, 10)
  {
    assert Plane(3, 1).Contains(Pos(0, 0, 0)) && Plane(3, 1).Contains(Pos(1, 0, 0)) && Plane(3, 1).Contains(Pos(2, 0, 0));
    RowRun(ok);
    var r := [Pos(1, 0, 0), Pos(2, 0, 0), Pos(1, 0, 0)];
    assert r[0] == r[2];
  }

  // ---------------------------------------------------------------------
  // Two rows of three cells stacked in z: Volume(3, 1, 2), seed (1, 0, 0).
  // Offsets are 2 * x + z, so a, b, c, dd sit at 2, 4, 3, 5.

  lemma VolumePass1(v: Variant, d: Dims, ok: Pos -> bool, a: Pos, b: Pos, c: Pos, dd: Pos, s0: Fill)
    requires v == AsWritten && d == Volume(3, 1, 2)
    requires a == Pos(1, 0, 0) && b == Pos(2, 0, 0) && c == Pos(1, 0, 1) && dd == Pos(2, 0, 1)
    requires ok(b) && ok(c)
    requires s0 == Fill([], [a], [false, false, false, false, false, false], 0, false)
    ensures WellFormed(d, 10, s0)
    ensures Step(v, d, ok, 10, s0) == Fill([a], [b, c], [false, false, true, false, true, false], 1, false)
  {
    var s := Fill([a], [], [false, false, false, false, false, false], 1, false);
    assert s0.(out := s0.out + [a], queue := s0.queue[1..], count := 1) == s;
    var t1 := Fill([a], [b], [false, false, false, false, true, false], 1, false);
    assert Try(v, d, ok, a, XUp, s) == t1 by {
      TryTaken(v, d, ok, a, XUp, s, 4);
      assert s.mask[4 := true] == t1.mask;
    }
    assert Try(v, d, ok, a, XDown, t1) == t1 by {
      TryBlocked(v, d, ok, a, XDown, t1);
    }
    assert Try(v, d, ok, a, YUp, t1) == t1 by {
      TryBlocked(v, d, ok, a, YUp, t1);
    }
    assert Try(v, d, ok, a, YDown, t1) == t1 by {
      TryBlocked(v, d, ok, a, YDown, t1);
    }
    var t2 := Fill([a], [b, c], [false, false, true, false, true, false], 1, false);
    assert Try(v, d, ok, a, ZUp, t1) == t2 by {
      TryTaken(v, d, ok, a, ZUp, t1, 2);
      assert t1.mask[2 := true] == t2.mask;
    }
    assert Try(v, d, ok, a, ZDown, t2) == t2 by {
      TryBlocked(v, d, ok, a, ZDown, t2);
    }
    VisitVolume(v, d, ok, a, s);
  }

  lemma VolumePass2(v: Variant, d: Dims, ok: Pos -> bool, a: Pos, b: Pos, c: Pos, dd: Pos, s0: Fill)
    requires v == AsWritten && d == Volume(3, 1, 2)
    requires a == Pos(1, 0, 0) && b == Pos(2, 0, 0) && c == Pos(1, 0, 1) && dd == Pos(2, 0, 1)
    requires ok(dd)
    requires s0 == Fill([a], [b, c], [false, false, true, false, true, false], 1, false)
    ensures WellFormed(d, 10, s0)
    ensures Step(v, d, ok, 10, s0) == Fill([a, b], [c, dd], [false, false, true, false, true, false], 2, false)
  {
    var s := Fill([a, b], [c], [false, false, true, false, true, false], 2, false);
    assert s0.(out := s0.out + [b], queue := s0.queue[1..], count := 2) == s;
    assert Try(v, d, ok, b, XUp, s) == s by {
      TryBlocked(v, d, ok, b, XUp, s);
    }
    assert Try(v, d, ok, b, XDown, s) == s by {
      TryMarked(v, d, ok, b, XDown, s, 2);
    }
    assert Try(v, d, ok, b, YUp, s) == s by {
      TryBlocked(v, d, ok, b, YUp, s);
    }
    assert Try(v, d, ok, b, YDown, s) == s by {
      TryBlocked(v, d, ok, b, YDown, s);
    }
    var t1 := Fill([a, b], [c, dd], [false, false, true, false, true, false], 2, false);
    assert Try(v, d, ok, b, ZUp, s) == t1 by {
      TryTaken(v, d, ok, b, ZUp, s, 4);
      assert s.mask[4 := true] == t1.mask;
    }
    assert Try(v, d, ok, b, ZDown, t1) == t1 by {
      TryBlocked(v, d, ok, b, ZDown, t1);
    }
    VisitVolume(v, d, ok, b, s);
  }

  lemma VolumePass3(v: Variant, d: Dims, ok: Pos -> bool, a: Pos, b: Pos, c: Pos, dd: Pos, s0: Fill)
    requires v == AsWritten && d == Volume(3, 1, 2)
    requires a == Pos(1, 0, 0) && b == Pos(2, 0, 0) && c == Pos(1, 0, 1) && dd == Pos(2, 0, 1)
    requires ok(dd)
    requires s0 == Fill([a, b], [c, dd], [false, false, true, false, true, false], 2, false)
    ensures WellFormed(d, 10, s0)
    ensures Step(v, d, ok, 10, s0) == Fill([a, b, c], [dd, dd], [false, false, true, false, true, true], 3, false)
  {
    var s := Fill([a, b, c], [dd], [false, false, true, false, true, false], 3, false);
    assert s0.(out := s0.out + [c], queue := s0.queue[1..], count := 3) == s;
    var t1 := Fill([a, b, c], [dd, dd], [false, false, true, false, true, true], 3, false);
    assert Try(v, d, ok, c, XUp, s) == t1 by {
      TryTaken(v, d, ok, c, XUp, s, 5);
      assert s.mask[5 := true] == t1.mask;
    }
    assert Try(v, d, ok, c, XDown, t1) == t1 by {
      TryBlocked(v, d, ok, c, XDown, t1);
    }
    assert Try(v, d, ok, c, YUp, t1) == t1 by {
      TryBlocked(v, d, ok, c, YUp, t1);
    }
    assert Try(v, d, ok, c, YDown, t1) == t1 by {
      TryBlocked(v, d, ok, c, YDown, t1);
    }
    assert Try(v, d, ok, c, ZUp, t1) == t1 by {
      TryBlocked(v, d, ok, c, ZUp, t1);
    }
    assert Try(v, d, ok, c, ZDown, t1) == t1 by {
      TryBlocked(v, d, ok, c, ZDown, t1);
    }
    VisitVolume(v, d, ok, c, s);
  }

  lemma VolumePass4(v: Variant, d: Dims, ok: Pos -> bool, a: Pos, b: Pos, c: Pos, dd: Pos, s0: Fill)
    requires v == AsWritten && d == Volume(3, 1, 2)
    requires a == Pos(1, 0, 0) && b == Pos(2, 0, 0) && c == Pos(1, 0, 1) && dd == Pos(2, 0, 1)
    requires ok(c)
    requires s0 == Fill([a, b, c], [dd, dd], [false, false, true, false, true, true], 3, false)
    ensures WellFormed(d, 10, s0)
    ensures Step(v, d, ok, 10, s0) == Fill([a, b, c, dd], [dd, c], [false, false, true, true, true, true], 4, false)
  {
    var s := Fill([a, b, c, dd], [dd], [false, false, true, false, true, true], 4, false);
    assert s0.(out := s0.out + [dd], queue := s0.queue[1..], count := 4) == s;
    assert Try(v, d, ok, dd, XUp, s) == s by {
      TryBlocked(v, d, ok, dd, XUp, s);
    }
    var t1 := Fill([a, b, c, dd], [dd, c], [false, false, true, true, true, true], 4, false);
    assert Try(v, d, ok, dd, XDown, s) == t1 by {
      TryTaken(v, d, ok, dd, XDown, s, 3);
      assert s.mask[3 := true] == t1.mask;
    }
    assert Try(v, d, ok, dd, YUp, t1) == t1 by {
      TryBlocked(v, d, ok, dd, YUp, t1);
    }
    assert Try(v, d, ok, dd, YDown, t1) == t1 by {
      TryBlocked(v, d, ok, dd, YDown, t1);
    }
    assert Try(v, d, ok, dd, ZUp, t1) == t1 by {
      TryBlocked(v, d, ok, dd, ZUp, t1);
    }
    assert Try(v, d, ok, dd, ZDown, t1) == t1 by {
      TryBlocked(v, d, ok, dd, ZDown, t1);
    }
    VisitVolume(v, d, ok, dd, s);
  }

  lemma VolumePass5(v: Variant, d: Dims, ok: Pos -> bool, a: Pos, b: Pos, c: Pos, dd: Pos, s0: Fill)
    requires v == AsWritten && d == Volume(3, 1, 2)
    requires a == Pos(1, 0, 0) && b == Pos(2, 0, 0) && c == Pos(1, 0, 1) && dd == Pos(2, 0, 1)
    requires s0 == Fill([a, b, c, dd], [dd, c], [false, false, true, true, true, true], 4, false)
    ensures WellFormed(d, 10, s0)
    ensures Step(v, d, ok, 10, s0) == Fill([a, b, c, dd, dd], [c], [false, false, true, true, true, true], 5, false)
  {
    var s := Fill([a, b, c, dd, dd], [c], [false, false, true, true, true, true], 5, false);
    assert s0.(out := s0.out + [dd], queue := s0.queue[1..], count := 5) == s;
    assert Try(v, d, ok, dd, XUp, s) == s by {
      TryBlocked(v, d, ok, dd, XUp, s);
    }
    assert Try(v, d, ok, dd, XDown, s) == s by {
      TryMarked(v, d, ok, dd, XDown, s, 3);
    }
    assert Try(v, d, ok, dd, YUp, s) == s by {
      TryBlocked(v, d, ok, dd, YUp, s);
    }
    assert Try(v, d, ok, dd, YDown, s) == s by {
      TryBlocked(v, d, ok, dd, YDown, s);
    }
    assert Try(v, d, ok, dd, ZUp, s) == s by {
      TryBlocked(v, d, ok, dd, ZUp, s);
    }
    assert Try(v, d, ok, dd, ZDown, s) == s by {
      TryBlocked(v, d, ok, dd, ZDown, s);
    }
    VisitVolume(v, d, ok, dd, s);
  }

  lemma VolumePass6(v: Variant, d: Dims, ok: Pos -> bool, a: Pos, b: Pos, c: Pos, dd: Pos, s0: Fill)
    requires v == AsWritten && d == Volume(3, 1, 2)
    requires a == Pos(1, 0, 0) && b == Pos(2, 0, 0) && c == Pos(1, 0, 1) && dd == Pos(2, 0, 1)
    requires s0 == Fill([a, b, c, dd, dd], [c], [false, false, true, true, true, true], 5, false)
    ensures WellFormed(d, 10, s0)
    ensures Step(v, d, ok, 10, s0) == Fill([a, b, c, dd, dd, c], [], [false, false, true, true, true, true], 6, false)
  {
    var s := Fill([a, b, c, dd, dd, c], [], [false, false, true, true, true, true], 6, false);
    assert s0.(out := s0.out + [c], queue := s0.queue[1..], count := 6) == s;
    assert Try(v, d, ok, c, XUp, s) == s by {
      TryMarked(v, d, ok, c, XUp, s, 5);
    }
    assert Try(v, d, ok, c, XDown, s) == s by {
      TryBlocked(v, d, ok, c, XDown, s);
    }
    assert Try(v, d, ok, c, YUp, s) == s by {
      TryBlocked(v, d, ok, c, YUp, s);
    }
    assert Try(v, d, ok, c, YDown, s) == s by {
      TryBlocked(v, d, ok, c, YDown, s);
    }
    assert Try(v, d, ok, c, ZUp, s) == s by {
      TryBlocked(v, d, ok, c, ZUp, s);
    }
    assert Try(v, d, ok, c, ZDown, s) == s by {
      TryBlocked(v, d, ok, c, ZDown, s);
    }
    VisitVolume(v, d, ok, c, s);
  }

  /** As written, in the volume the z + 1 steps mark the voxel they leave
      instead of the one they enqueue, so (2, 0, 1) and (1, 0, 1) are each
      enqueued, and listed, twice: a repeat that the plane can only produce
      for the seed. */
  lemma VolumeAsWritten(ok: Pos -> bool)
    requires forall q :: Volume(3, 1, 2).Contains(q) ==> ok(q)
    ensures Flood(AsWritten, Volume(3, 1, 2), ok, Pos(1, 0, 0), 0, 10)
         == [Pos(1, 0, 0), Pos(2, 0, 0), Pos(1, 0, 1), Pos(2, 0, 1), Pos(2, 0, 1), Pos(1, 0, 1)]
    ensures !Distinct(Flood(AsWritten, Volume(3, 1, 2), ok, Pos(1, 0, 0), 0, 10)[1..])
  {
    var v, d := AsWritten, Volume(3, 1, 2);
    var a, b, c, dd := Pos(1, 0, 0), Pos(2, 0, 0), Pos(1, 0, 1), Pos(2, 0, 1);
    assert ok(b) && ok(c) && ok(dd);
    var m0 := [false, false, false, false, false, false];
    var s0 := Start(v, d, a);
    assert s0 == Fill([], [a], m0, 0, false);
    var m1 := [false, false, true, false, true, false];
    var m3 := [false, false, true, false, true, true];
    var m4 := [false, false, true, true, true, true];
    var s1 := Fill([a], [b, c], m1, 1, false);
    var s2 := Fill([a, b], [c, dd], m1, 2, false);
    var s3 := Fill([a, b, c], [dd, dd], m3, 3, false);
    var s4 := Fill([a, b, c, dd], [dd, c], m4, 4, false);
    var s5 := Fill([a, b, c, dd, dd], [c], m4, 5, false);
    var s6 := Fill([a, b, c, dd, dd, c], [], m4, 6, false);
    VolumePass1(v, d, ok, a, b, c, dd, s0);
    VolumePass2(v, d, ok, a, b, c, dd, s1);
    VolumePass3(v, d, ok, a, b, c, dd, s2);
    VolumePass4(v, d, ok, a, b, c, dd, s3);
    VolumePass5(v, d, ok, a, b, c, dd, s4);
    VolumePass6(v, d, ok, a, b, c, dd, s5);
    assert Traverse(v, d, ok, 10, s6) == s6;
    assert Traverse(v, d, ok, 10, s5) == s6;
    assert Traverse(v, d, ok, 10, s4) == s6;
    assert Traverse(v, d, ok, 10, s3) == s6;
    assert Traverse(v, d, ok, 10, s2) == s6;
    assert Traverse(v, d, ok, 10, s1) == s6;
    assert Traverse(v, d, ok, 10, s0) == s6;
    var r := Flood(v, d, ok, a, 0, 10);
    assert r == [a, b, c, dd, dd, c];
    assert r[1..][2] == r[1..][3];
  }

  // ---------------------------------------------------------------------
  // Fields that admit every voxel.

  /** A field whose every channel value is 1.0. */
  predicate Uniform(f: Field)
  {
    forall i :: 0 <= i < |f.data| ==> f.data[i] == 1.0
  }

  /** In a uniform field every vector is constant, so its correlation with
      the seed's vector is exactly 0 (the zero standard deviation case), and
      any negative threshold admits every voxel. */
  lemma UniformFieldAdmitsAll(f: Field, seed: Pos, r: real, root: real -> real)
    requires f.Valid() && f.dims.Contains(seed) && f.ngene > 0 && Uniform(f)
    requires root(0.0) == 0.0 && r < 0.0
    ensures forall q :: f.dims.Contains(q) ==> Admission(f, seed, r, root)(q)
  {
    forall q | f.dims.Contains(q)
      ensures Similar(f, seed, q, r, root)
    {
      var a, b := VoxelVector(f, seed), VoxelVector(f, q);
      IndexInRange(f.dims, q);
      var lo := f.dims.Index(q) * f.ngene;
      SliceFits(f.dims.Index(q), f.dims.Count(), f.ngene);
      assert forall i :: 0 <= i < |b| ==> b[i] == f.data[lo + i];
      CorrWithConstant(a, b, 1.0, root);
    }
  }

  /** `flood_fill` as written on a uniform row of three cells, seeded in the
      middle, with a negative threshold. */
  lemma RowFloodFill(f: Field, root: real -> real)
    requires f == Field(Plane(3, 1), 1, [1.0, 1.0, 1.0]) && root(0.0) == 0.0
    ensures FloodFill(f, Pos(1, 0, 0), -1.0, 0, 10, root) == [Pos(1, 0, 0), Pos(2, 0, 0), Pos(1, 0, 0)]
  {
    UniformFieldAdmitsAll(f, Pos(1, 0, 0), -1.0, root);
    RowAsWritten(Admission(f, Pos(1, 0, 0), -1.0, root));
  }

  /** `flood_fill` as written on a uniform 3 x 1 x 2 volume, seeded at
      (1, 0, 0), with a negative threshold. */
  lemma VolumeFloodFill(f: Field, root: real -> real)
    requires f == Field(Volume(3, 1, 2), 1, [1.0, 1.0, 1.0, 1.0, 1.0, 1.0]) && root(0.0) == 0.0
    ensures FloodFill(f, Pos(1, 0, 0), -1.0, 0, 10, root)
         == [Pos(1, 0, 0), Pos(2, 0, 0), Pos(1, 0, 1), Pos(2, 0, 1), Pos(2, 0, 1), Pos(1, 0, 1)]
  {
    UniformFieldAdmitsAll(f, Pos(1, 0, 0), -1.0, root);
    VolumeAsWritten(Admission(f, Pos(1, 0, 0), -1.0, root));
  }
}

=== FILE: grid.dfy ===
/** Integer grid geometry shared by every component: voxel coordinates, the
    row-major offsets computed by the I2D/I3D macros, and the box enumeration
    that the nested `for x / for y / for z` loops of the library walk through. */
module Grid {

  /** A voxel coordinate (the library's pos3d). A coordinate of a planar
      field is written with z == 0. */
  datatype Pos = Pos(x: int, y: int, z: int)

  /** Row-major offset of (x, y) in a plane whose rows hold yl cells (I2D). */
  function I2D(x: int, y: int, yl: int): int
  {
    x * yl + y
  }

  /** Row-major offset of (x, y, z) in a volume of yl rows of zl cells (I3D). */
  function I3D(x: int, y: int, z: int, yl: int, zl: int): int
  {
    x * yl * zl + y * zl + z
  }

  /** Division by a positive divisor has one quotient and one remainder. */
  lemma DivModUnique(n: int, d: int, q: int, r: int)
    requires 0 < d && 0 <= r < d && n == q * d + r
    ensures n / d == q && n % d == r
  {
    var q', r' := n / d, n % d;
    assert n == q' * d + r';
    if q' > q {
      var k := q' - q;
      assert k * d == q' * d - q * d;
      MulLeft(1, k, d);
      assert false;
    } else if q' < q {
      var k := q - q';
      assert k * d == q * d - q' * d;
      MulLeft(1, k, d);
      assert false;
    }
  }

  lemma MulLeft(a: int, b: int, c: int)
    requires 0 <= c && a <= b
    ensures a * c <= b * c
  {
  }

  /** I2D maps the rectangle [0, xl) x [0, yl) into [0, xl * yl). */
  lemma I2DBounds(x: int, y: int, xl: int, yl: int)
    requires 0 <= x < xl && 0 <= y < yl
    ensures 0 <= I2D(x, y, yl) < xl * yl
  {
    MulLeft(x + 1, xl, yl);
    assert I2D(x, y, yl) < (x + 1) * yl;
  }

  /** I2D is undone by division and remainder by the row length. */
  lemma I2DDecode(x: int, y: int, yl: int)
    requires 0 <= y < yl
    ensures I2D(x, y, yl) / yl == x && I2D(x, y, yl) % yl == y
  {
    DivModUnique(I2D(x, y, yl), yl, x, y);
  }

  /** A volume offset is a plane offset of (x, y) refined by z. */
  lemma I3DIsNestedI2D(x: int, y: int, z: int, yl: int, zl: int)
    ensures I3D(x, y, z, yl, zl) == I2D(I2D(x, y, yl), z, zl)
  {
    calc {
      I2D(I2D(x, y, yl), z, zl);
      (x * yl + y) * zl + z;
      { assert (x * yl + y) * zl == x * yl * zl + y * zl; }
      I3D(x, y, z, yl, zl);
    }
  }

  /** The spatial extent of a field: a plane (2 spatial axes, the library's
      nd == 3 case) or a volume (3 spatial axes, nd == 4). */
  datatype Dims = Plane(nx: nat, ny: nat) | Volume(nx: nat, ny: nat, nz: nat)
  {
    /** Extent of the third axis; a plane is one cell deep. */
    function Depth(): nat
    {
      if Plane? then 1 else nz
    }

    /** Number of voxels (nvec). */
    function Count(): nat
    {
      nx * ny * Depth()
    }

    predicate Contains(p: Pos)
    {
      0 <= p.x < nx && 0 <= p.y < ny && 0 <= p.z < Depth()
    }

    /** Offset of a voxel in the row-major buffer, exactly as the library's
        macros compute it for each rank. */
    function Index(p: Pos): int
    {
      if Plane? then I2D(p.x, p.y, ny) else I3D(p.x, p.y, p.z, ny, nz)
    }

    /** The voxel stored at a buffer offset. */
    function Decode(i: int): (p: Pos)
      requires 0 <= i < Count()
    {
      CountFactors(this);
      if Plane? then Pos(i / ny, i % ny, 0)
      else Pos((i / nz) / ny, (i / nz) % ny, i % nz)
    }
  }

  lemma CountFactors(d: Dims)
    requires d.Count() > 0
    ensures d.nx > 0 && d.ny > 0 && d.Depth() > 0
  {
  }

  /** Every voxel of the field has an offset inside the buffer. */
  lemma IndexInRange(d: Dims, p: Pos)
    requires d.Contains(p)
    ensures 0 <= d.Index(p) < d.Count()
  {
    I2DBounds(p.x, p.y, d.nx, d.ny);
    if d.Volume? {
      I3DIsNestedI2D(p.x, p.y, p.z, d.ny, d.nz);
      I2DBounds(I2D(p.x, p.y, d.ny), p.z, d.nx * d.ny, d.nz);
    }
  }

  /** Decoding the offset of a voxel gives the voxel back. */
  lemma DecodeIndex(d: Dims, p: Pos)
    requires d.Contains(p)
    ensures 0 <= d.Index(p) < d.Count()
    ensures d.Decode(d.Index(p)) == p
  {
    IndexInRange(d, p);
    var i := d.Index(p);
    if d.Plane? {
      I2DDecode(p.x, p.y, d.ny);
    } else {
      var xy := I2D(p.x, p.y, d.ny);
      I3DIsNestedI2D(p.x, p.y, p.z, d.ny, d.nz);
      I2DDecode(xy, p.z, d.nz);
      I2DDecode(p.x, p.y, d.ny);
      assert i == p.x * (d.ny * d.nz) + (p.y * d.nz + p.z);
      assert 0 <= p.y * d.nz + p.z < d.ny * d.nz by {
        I2DBounds(p.y, p.z, d.ny, d.nz);
      }
      DivModUnique(i, d.ny * d.nz, p.x, p.y * d.nz + p.z);
    }
  }

  /** A quotient of an offset below m * dv lies below m. */
  lemma QuotientBelow(i: int, dv: int, m: int)
    requires 0 < dv && 0 <= i < m * dv
    ensures 0 <= i / dv < m
  {
    var q := i / dv;
    assert q * dv <= i;
    if q >= m {
      MulLeft(m, q, dv);
      assert false;
    }
  }

  /** Every buffer offset holds exactly one voxel of the field. */
  lemma IndexDecode(d: Dims, i: int)
    requires 0 <= i < d.Count()
    ensures d.Contains(d.Decode(i)) && d.Index(d.Decode(i)) == i
  {
    CountFactors(d);
    if d.Plane? {
      PlaneDecode(d, i);
    } else {
      VolumeDecode(d, i);
    }
  }

  lemma PlaneDecode(d: Dims, i: int)
    requires d.Plane? && 0 <= i < d.Count()
    ensures d.Contains(d.Decode(i)) && d.Index(d.Decode(i)) == i
  {
    CountFactors(d);
    assert i < d.nx * d.ny;
    QuotientBelow(i, d.ny, d.nx);
  }

  lemma VolumeDecode(d: Dims, i: int)
    requires d.Volume? && 0 <= i < d.Count()
    ensures d.Contains(d.Decode(i)) && d.Index(d.Decode(i)) == i
  {
    CountFactors(d);
    var p := d.Decode(i);
    var xy := i / d.nz;
    assert i == xy * d.nz + p.z;
    assert 0 <= xy < d.nx * d.ny by {
      assert i < (d.nx * d.ny) * d.nz;
      QuotientBelow(i, d.nz, d.nx * d.ny);
    }
    QuotientBelow(xy, d.ny, d.nx);
    assert xy == p.x * d.ny + p.y;
    I3DIsNestedI2D(p.x, p.y, p.z, d.ny, d.nz);
  }

  /** Distinct voxels never share a buffer offset. */
  lemma IndexInjective(d: Dims, p: Pos, q: Pos)
    requires d.Contains(p) && d.Contains(q) && d.Index(p) == d.Index(q)
    ensures p == q
  {
    DecodeIndex(d, p);
    DecodeIndex(d, q);
  }

  /** Lexicographic order on coordinates: x first, then y, then z. */
  predicate Before(p: Pos, q: Pos)
  {
    p.x < q.x || (p.x == q.x && (p.y < q.y || (p.y == q.y && p.z < q.z)))
  }

  predicate Ascending(s: seq<Pos>)
  {
    forall i, j :: 0 <= i < j < |s| ==> Before(s[i], s[j])
  }

  predicate Distinct<T(==)>(s: seq<T>)
  {
    forall i, j :: 0 <= i < j < |s| ==> s[i] != s[j]
  }

  /** Membership in a non-empty sequence: the head or the tail. */
  lemma HeadOrTail<T>(s: seq<T>, x: T)
    requires |s| > 0
    ensures x in s <==> x == s[0] || x in s[1..]
  {
    assert s == [s[0]] + s[1..];
  }

  /** The tail of a duplicate-free sequence is duplicate-free and misses the
      head. */
  lemma DistinctTail<T>(s: seq<T>)
    requires |s| > 0 && Distinct(s)
    ensures Distinct(s[1..]) && s[0] !in s[1..]
  {
    var t := s[1..];
    forall i, j | 0 <= i < j < |t| ensures t[i] != t[j] {
      assert t[i] == s[i + 1] && t[j] == s[j + 1];
    }
    forall i | 0 <= i < |t| ensures t[i] != s[0] {
      assert t[i] == s[i + 1];
    }
  }

  /** The values a sequence holds, as a set. */
  function Elements<T(==)>(s: seq<T>): set<T>
  {
    set x | x in s
  }

  /** A duplicate-free sequence holds as many values as it has entries. */
  lemma {:induction false} DistinctCard<T>(s: seq<T>)
    requires Distinct(s)
    ensures |Elements(s)| == |s|
    decreases |s|
  {
    if |s| > 0 {
      DistinctTail(s);
      DistinctCard(s[1..]);
      forall x
        ensures x in Elements(s) <==> x == s[0] || x in Elements(s[1..])
      {
        HeadOrTail(s, x);
      }
      assert Elements(s) == {s[0]} + Elements(s[1..]);
    }
  }

  /** A subset is no larger than its superset. */
  lemma {:induction false} SubsetCard<T>(a: set<T>, b: set<T>)
    requires a <= b
    ensures |a| <= |b|
    decreases a
  {
    if a != {} {
      var x :| x in a;
      SubsetCard(a - {x}, b - {x});
    }
  }

  lemma AscendingDistinct(s: seq<Pos>)
    requires Ascending(s)
    ensures Distinct(s)
  {
    forall i, j | 0 <= i < j < |s| ensures s[i] != s[j] {
      assert Before(s[i], s[j]);
    }
  }

  lemma AscendingConcat(a: seq<Pos>, b: seq<Pos>)
    requires Ascending(a) && Ascending(b)
    requires forall p, q :: p in a && q in b ==> Before(p, q)
    ensures Ascending(a + b)
  {
    var s := a + b;
    forall i, j | 0 <= i < j < |s| ensures Before(s[i], s[j]) {
      if j < |a| {
        assert s[i] == a[i] && s[j] == a[j];
      } else if i >= |a| {
        assert s[i] == b[i - |a|] && s[j] == b[j - |a|];
      } else {
        assert s[i] in a && s[j] in b;
      }
    }
  }

  /** Number of integers in [lo, hi). */
  function Span(lo: int, hi: int): nat
  {
    if lo < hi then hi - lo else 0
  }

  lemma SpanStep(lo: int, hi: int, k: int)
    requires lo < hi
    ensures Span(lo, hi) * k == k + Span(lo + 1, hi) * k
  {
    assert Span(lo, hi) == Span(lo + 1, hi) + 1;
  }

  predicate InBox(lo: Pos, hi: Pos, p: Pos)
  {
    lo.x <= p.x < hi.x && lo.y <= p.y < hi.y && lo.z <= p.z < hi.z
  }

  /** The innermost loop: z from z0 up to z1, at fixed x and y. */
  function Row(x: int, y: int, z0: int, z1: int): (r: seq<Pos>)
    ensures |r| == Span(z0, z1)
    ensures forall p :: p in r <==> p.x == x && p.y == y && z0 <= p.z < z1
    ensures Ascending(r)
    decreases z1 - z0
  {
    if z0 >= z1 then []
    else
      var rest := Row(x, y, z0 + 1, z1);
      AscendingConcat([Pos(x, y, z0)], rest);
      [Pos(x, y, z0)] + rest
  }

  /** The two inner loops: y from y0 up to y1, each running z over [z0, z1). */
  function Slab(x: int, y0: int, y1: int, z0: int, z1: int): (r: seq<Pos>)
    ensures |r| == Span(y0, y1) * Span(z0, z1)
    ensures forall p :: p in r <==> p.x == x && y0 <= p.y < y1 && z0 <= p.z < z1
    ensures Ascending(r)
    decreases y1 - y0
  {
    if y0 >= y1 then []
    else
      var row := Row(x, y0, z0, z1);
      var rest := Slab(x, y0 + 1, y1, z0, z1);
      AscendingConcat(row, rest);
      SpanStep(y0, y1, Span(z0, z1));
      row + rest
  }

  /** The triple loop `for x in [lo.x, hi.x) for y in [lo.y, hi.y) for z in
      [lo.z, hi.z)`: every point of the box exactly once, in visiting order. */
  function Box(lo: Pos, hi: Pos): (r: seq<Pos>)
    ensures |r| == Span(lo.x, hi.x) * (Span(lo.y, hi.y) * Span(lo.z, hi.z))
    ensures forall p :: p in r <==> InBox(lo, hi, p)
    ensures Ascending(r)
    decreases hi.x - lo.x
  {
    if lo.x >= hi.x then []
    else
      var slab := Slab(lo.x, lo.y, hi.y, lo.z, hi.z);
      var rest := Box(lo.(x := lo.x + 1), hi);
      AscendingConcat(slab, rest);
      SpanStep(lo.x, hi.x, Span(lo.y, hi.y) * Span(lo.z, hi.z));
      slab + rest
  }
}

=== FILE: kde.dfy ===
/** Kernel density estimation onto a sparse voxel map. Every sample scatters
    kernel mass over a window of voxels around it into a worker-local map;
    the workers then add their maps into the shared result.

    The worker split is an arbitrary partition of the samples, the kernel
    value is an arbitrary function `mass` of the sample and the voxel (its
    floating-point value is not modelled), and sums are exact. */
module Kde {
  import opened Grid
  import opened Values

  /** A sample point in continuous voxel coordinates. */
  datatype Sample = Sample(x: real, y: real, z: real)

  /** A sparse density: the voxels touched so far and their accumulated mass. */
  type Density = map<Pos, real>

  /** The kernel mass a sample puts on a voxel. */
  type Kernel = (Sample, Pos) -> real

  /** How the windows are cut: which guard is in force, the half-width
      ("maxdist") and the extent of the grid along each axis. */
  datatype Scan = Scan(v: Variant, md: int, shape: Pos)

  function Abs(n: int): nat
  {
    if n < 0 then -n else n
  }

  function Max(a: int, b: int): int
  {
    if a < b then b else a
  }

  function Min(a: int, b: int): int
  {
    if a < b then a else b
  }

  /** A double-to-int conversion: truncation toward zero. */
  function Trunc(r: real): (n: int)
    ensures r >= 0.0 ==> 0 <= n && n as real <= r < n as real + 1.0
    ensures r < 0.0 ==> n <= 0 && n as real - 1.0 < r <= n as real
  {
    if r >= 0.0 then r.Floor else -((-r).Floor)
  }

  /** The pruning half-width: the truncated product of bandwidth and pruning
      coefficient when the coefficient is positive, and the sentinel -1
      ("no pruning") otherwise. */
  function MaxDist(h: real, prune: real): (m: int)
    ensures prune <= 0.0 ==> m == -1
    ensures prune > 0.0 && h >= 0.0 ==> 0 <= m && m as real <= h * prune < m as real + 1.0
  {
    if prune > 0.0 then Trunc(h * prune) else -1
  }

  /** Whether the window is cut down around the sample. As written the guard
      is `maxdist > 0`, so a half-width of 0 falls back to the whole grid;
      the intended guard only excludes the -1 sentinel. */
  predicate Pruned(sc: Scan)
  {
    if sc.v == AsWritten then sc.md > 0 else sc.md >= 0
  }

  /** The voxel the window is centred on: the truncated coordinates. */
  function Centre(s: Sample): Pos
  {
    Pos(Trunc(s.x), Trunc(s.y), Trunc(s.z))
  }

  /** q lies within half-width md of c along every axis. */
  predicate Near(c: Pos, q: Pos, md: int)
  {
    Abs(q.x - c.x) <= md && Abs(q.y - c.y) <= md && Abs(q.z - c.z) <= md
  }

  predicate InShape(shape: Pos, q: Pos)
  {
    0 <= q.x < shape.x && 0 <= q.y < shape.y && 0 <= q.z < shape.z
  }

  /** Which voxels a sample reaches, stated without reference to loop
      bounds: the grid, intersected with the cube around the centre when
      pruning is in force. */
  predicate Reaches(sc: Scan, s: Sample, q: Pos)
  {
    InShape(sc.shape, q) && (Pruned(sc) ==> Near(Centre(s), q, sc.md))
  }

  /** Lower loop bound along one axis. */
  function Start(sc: Scan, c: int): int
  {
    if Pruned(sc) then Max(0, c - sc.md) else 0
  }

  /** Upper (exclusive) loop bound along one axis. */
  function End(sc: Scan, c: int, extent: int): int
  {
    if Pruned(sc) then Min(extent, c + sc.md + 1) else extent
  }

  /** The loop bounds along one axis admit exactly the coordinates of the
      grid that lie within the half-width of the centre (all of them when
      pruning is off). */
  lemma AxisWindow(sc: Scan, c: int, extent: int, k: int)
    ensures Start(sc, c) <= k < End(sc, c, extent)
        <==> 0 <= k < extent && (Pruned(sc) ==> Abs(k - c) <= sc.md)
  {
  }

  /** The voxels a sample visits, in the order of the triple loop. */
  function Window(sc: Scan, s: Sample): (keys: seq<Pos>)
    ensures forall q :: q in keys <==> Reaches(sc, s, q)
    ensures Distinct(keys)
  {
    var c := Centre(s);
    var lo := Pos(Start(sc, c.x), Start(sc, c.y), Start(sc, c.z));
    var hi := Pos(End(sc, c.x, sc.shape.x), End(sc, c.y, sc.shape.y), End(sc, c.z, sc.shape.z));
    var keys := Box(lo, hi);
    forall q ensures q in keys <==> Reaches(sc, s, q) {
      AxisWindow(sc, c.x, sc.shape.x, q.x);
      AxisWindow(sc, c.y, sc.shape.y, q.y);
      AxisWindow(sc, c.z, sc.shape.z, q.z);
    }
    AscendingDistinct(keys);
    keys
  }

  /** With a positive half-width every visited voxel lies inside the grid and
      inside [max(0, c - md), min(shape, c + md + 1)) on each axis. */
  lemma WindowBounds(sc: Scan, s: Sample, q: Pos)
    requires sc.md > 0 && q in Window(sc, s)
    ensures InShape(sc.shape, q)
    ensures Max(0, Centre(s).x - sc.md) <= q.x < Min(sc.shape.x, Centre(s).x + sc.md + 1)
    ensures Max(0, Centre(s).y - sc.md) <= q.y < Min(sc.shape.y, Centre(s).y + sc.md + 1)
    ensures Max(0, Centre(s).z - sc.md) <= q.z < Min(sc.shape.z, Centre(s).z + sc.md + 1)
  {
    assert Reaches(sc, s, q);
  }

  /** A non-positive pruning coefficient scans the whole grid, in either
      variant. */
  lemma NoPruneFullScan(v: Variant, h: real, prune: real, shape: Pos, s: Sample, q: Pos)
    requires prune <= 0.0
    ensures q in Window(Scan(v, MaxDist(h, prune), shape), s) <==> InShape(shape, q)
  {
  }

  /** As written, a half-width of 0 also scans the whole grid. */
  lemma ZeroFullScan(shape: Pos, s: Sample, q: Pos)
    ensures q in Window(Scan(AsWritten, 0, shape), s) <==> InShape(shape, q)
  {
  }

  /** With the intended guard a wider half-width never visits fewer
      voxels. */
  lemma IntendedMonotone(shape: Pos, s: Sample, md1: int, md2: int, q: Pos)
    requires 0 <= md1 <= md2
    requires q in Window(Scan(Intended, md1, shape), s)
    ensures q in Window(Scan(Intended, md2, shape), s)
  {
    assert Reaches(Scan(Intended, md1, shape), s, q);
  }

  /** For a non-negative bandwidth, a larger positive pruning coefficient
      never gives a smaller half-width. */
  lemma MaxDistMonotone(h: real, p1: real, p2: real)
    requires h >= 0.0 && 0.0 < p1 <= p2
    ensures MaxDist(h, p1) <= MaxDist(h, p2)
  {
    var m1, m2 := MaxDist(h, p1), MaxDist(h, p2);
    var a, b := h * p1, h * p2;
    ScaleMonotone(h, p1, p2);
    assert m1 as real <= a;
    assert b < m2 as real + 1.0;
    assert (m1 - m2) as real < 1.0;
  }

  lemma ScaleMonotone(h: real, x: real, y: real)
    requires h >= 0.0 && x <= y
    ensures h * x <= h * y
  {
    assert h * y - h * x == h * (y - x);
  }

  /** With the intended guard the windows grow with the pruning coefficient,
      for positive coefficients (a coefficient of 0 or less switches pruning
      off and scans the whole grid). */
  lemma IntendedCoefficientMonotone(h: real, p1: real, p2: real, shape: Pos, s: Sample, q: Pos)
    requires h >= 0.0 && 0.0 < p1 <= p2
    requires q in Window(Scan(Intended, MaxDist(h, p1), shape), s)
    ensures q in Window(Scan(Intended, MaxDist(h, p2), shape), s)
  {
    MaxDistMonotone(h, p1, p2);
    IntendedMonotone(shape, s, MaxDist(h, p1), MaxDist(h, p2), q);
  }

  /** As written the windows do not grow with the pruning coefficient: on a
      grid of five voxels in a row, with bandwidth 1, a coefficient of 0.5
      truncates to half-width 0 and visits the voxel at x = 0, which a
      coefficient of 1 (half-width 1) around x = 2 does not. */
  lemma AsWrittenNotMonotone()
    ensures MaxDist(1.0, 0.5) == 0 && MaxDist(1.0, 1.0) == 1
    ensures Pos(0, 0, 0) in Window(Scan(AsWritten, MaxDist(1.0, 0.5), Pos(5, 1, 1)), Sample(2.0, 0.0, 0.0))
    ensures Pos(0, 0, 0) !in Window(Scan(AsWritten, MaxDist(1.0, 1.0), Pos(5, 1, 1)), Sample(2.0, 0.0, 0.0))
  {
    var s := Sample(2.0, 0.0, 0.0);
    assert Centre(s) == Pos(2, 0, 0);
    assert Reaches(Scan(AsWritten, 0, Pos(5, 1, 1)), s, Pos(0, 0, 0));
    assert !Reaches(Scan(AsWritten, 1, Pos(5, 1, 1)), s, Pos(0, 0, 0));
  }

  /** The mass recorded for a voxel; absent voxels read as 0, as `+=` on a
      missing key of the map starts from a value-initialised 0. */
  function Get(m: Density, q: Pos): real
  {
    if q in m then m[q] else 0.0
  }

  /** `m[q] += w`: inserts q when absent, even when w is 0. */
  function Add(m: Density, q: Pos, w: real): (r: Density)
    ensures r.Keys == m.Keys + {q}
    ensures Get(r, q) == Get(m, q) + w
    ensures forall p :: p != q ==> Get(r, p) == Get(m, p)
  {
    m[q := Get(m, q) + w]
  }

  /** The innermost loop body, run over a list of voxels for one sample. */
  function Scatter(m: Density, keys: seq<Pos>, s: Sample, mass: Kernel): Density
    decreases |keys|
  {
    if |keys| == 0 then m else Scatter(Add(m, keys[0], mass(s, keys[0])), keys[1..], s, mass)
  }

  /** One worker: its samples in order, each scattered over its window. */
  function Local(sc: Scan, m: Density, part: seq<Sample>, mass: Kernel): Density
    decreases |part|
  {
    if |part| == 0 then m else Local(sc, Scatter(m, Window(sc, part[0]), part[0], mass), part[1..], mass)
  }

  /** The critical section: `arr[k] += v` for every entry of a local map, in
      the map's own iteration order, here any duplicate-free listing of its
      keys. */
  function MergeInOrder(arr: Density, local: Density, order: seq<Pos>): Density
    decreases |order|
  {
    if |order| == 0 then arr
    else MergeInOrder(Add(arr, order[0], Get(local, order[0])), local, order[1..])
  }

  /** All workers, entering the critical section one after another. */
  function Combine(arr: Density, locals: seq<Density>, orders: seq<seq<Pos>>): Density
    requires |orders| == |locals|
    decreases |locals|
  {
    if |locals| == 0 then arr
    else Combine(MergeInOrder(arr, locals[0], orders[0]), locals[1..], orders[1..])
  }

  /** An admissible iteration order of a map: each key exactly once. */
  predicate Lists(order: seq<Pos>, m: Density)
  {
    Distinct(order) && (forall q | q in order :: q in m) && (forall q | q in m :: q in order)
  }

  /** The whole estimator: per-worker maps over the parts of the sample list,
      then merged into arr in the given worker and key orders. */
  function Estimate(v: Variant, arr: Density, parts: seq<seq<Sample>>, shape: Pos,
                    h: real, prune: real, mass: Kernel, orders: seq<seq<Pos>>): (r: Density)
    requires |orders| == |parts|
    requires forall i :: 0 <= i < |parts| ==> Lists(orders[i], Local(Scan(v, MaxDist(h, prune), shape), map[], parts[i], mass))
    ensures forall q :: q in r <==> q in arr || q in Touched(Scan(v, MaxDist(h, prune), shape), Flatten(parts))
    ensures forall q :: Get(r, q) == Get(arr, q) + Total(Scan(v, MaxDist(h, prune), shape), Flatten(parts), mass, q)
  {
    var sc := Scan(v, MaxDist(h, prune), shape);
    var locals := seq(|parts|, i requires 0 <= i < |parts| => Local(sc, map[], parts[i], mass));
    var r := Combine(arr, locals, orders);
    forall q
      ensures q in r <==> q in arr || q in Touched(sc, Flatten(parts))
      ensures Get(r, q) == Get(arr, q) + Total(sc, Flatten(parts), mass, q)
    {
      CombineAt(sc, arr, parts, locals, orders, mass, q);
    }
    r
  }

  // ---------------------------------------------------------------------
  // The reference definition: what the map should hold, whatever the split.

  function Flatten(parts: seq<seq<Sample>>): seq<Sample>
  {
    if |parts| == 0 then [] else parts[0] + Flatten(parts[1..])
  }

  /** What one sample contributes to one voxel. */
  function Contribution(sc: Scan, s: Sample, mass: Kernel, q: Pos): real
  {
    if Reaches(sc, s, q) then mass(s, q) else 0.0
  }

  /** The total mass all samples put on a voxel. */
  function Total(sc: Scan, ss: seq<Sample>, mass: Kernel, q: Pos): real
  {
    if |ss| == 0 then 0.0 else Contribution(sc, ss[0], mass, q) + Total(sc, ss[1..], mass, q)
  }

  /** The voxels some sample reaches. */
  function Touched(sc: Scan, ss: seq<Sample>): (t: set<Pos>)
    ensures forall q :: q in t <==> exists s :: s in ss && Reaches(sc, s, q)
  {
    if |ss| == 0 then {}
    else
      var w := Window(sc, ss[0]);
      var t := (set q | q in w) + Touched(sc, ss[1..]);
      assert forall s :: s in ss <==> s == ss[0] || s in ss[1..];
      t
  }

  // ---------------------------------------------------------------------
  // Accumulation lemmas.

  /** Scattering one sample over a duplicate-free list of voxels adds its
      mass on exactly those voxels and inserts them into the map. */
  lemma {:induction false} ScatterAt(m: Density, keys: seq<Pos>, s: Sample, mass: Kernel, q: Pos)
    requires Distinct(keys)
    ensures q in Scatter(m, keys, s, mass) <==> q in m || q in keys
    ensures Get(Scatter(m, keys, s, mass), q) == Get(m, q) + (if q in keys then mass(s, q) else 0.0)
    decreases |keys|
  {
    if |keys| > 0 {
      DistinctTail(keys);
      ScatterAt(Add(m, keys[0], mass(s, keys[0])), keys[1..], s, mass, q);
      HeadOrTail(keys, q);
    }
  }

  /** One worker's map holds, for every voxel, the mass its samples put there,
      and it lists exactly the voxels they reach. */
  lemma {:induction false} LocalAt(sc: Scan, m: Density, part: seq<Sample>, mass: Kernel, q: Pos)
    ensures q in Local(sc, m, part, mass) <==> q in m || q in Touched(sc, part)
    ensures Get(Local(sc, m, part, mass), q) == Get(m, q) + Total(sc, part, mass, q)
    decreases |part|
  {
    if |part| > 0 {
      var s := part[0];
      var w := Window(sc, s);
      ScatterAt(m, w, s, mass, q);
      LocalAt(sc, Scatter(m, w, s, mass), part[1..], mass, q);
      assert q in Touched(sc, part) <==> q in w || q in Touched(sc, part[1..]);
      assert (q in w) == Reaches(sc, s, q);
    }
  }

  /** Under a kernel that is never negative, as a Gaussian is, the mass the
      samples put on a voxel is never negative. */
  lemma {:induction false} TotalNonNegative(sc: Scan, ss: seq<Sample>, mass: Kernel, q: Pos)
    requires forall s, p :: mass(s, p) >= 0.0
    ensures Total(sc, ss, mass, q) >= 0.0
    decreases |ss|
  {
    if |ss| > 0 {
      TotalNonNegative(sc, ss[1..], mass, q);
    }
  }

  /** Under such a kernel, accumulation never lowers an entry of the map. */
  lemma LocalGrows(sc: Scan, m: Density, part: seq<Sample>, mass: Kernel, q: Pos)
    requires forall s, p :: mass(s, p) >= 0.0
    ensures q in m ==> q in Local(sc, m, part, mass)
    ensures Get(Local(sc, m, part, mass), q) >= Get(m, q)
  {
    LocalAt(sc, m, part, mass, q);
    TotalNonNegative(sc, part, mass, q);
  }

  /** Merging a local map in any duplicate-free order adds it entry by entry. */
  lemma {:induction false} MergeAt(arr: Density, local: Density, order: seq<Pos>, q: Pos)
    requires Distinct(order)
    ensures q in MergeInOrder(arr, local, order) <==> q in arr || q in order
    ensures Get(MergeInOrder(arr, local, order), q) == Get(arr, q) + (if q in order then Get(local, q) else 0.0)
    decreases |order|
  {
    if |order| > 0 {
      DistinctTail(order);
      MergeAt(Add(arr, order[0], Get(local, order[0])), local, order[1..], q);
      HeadOrTail(order, q);
    }
  }

  /** The merge does not depend on the order the local map is walked in. */
  lemma MergeOrderFree(arr: Density, local: Density, o1: seq<Pos>, o2: seq<Pos>)
    requires Lists(o1, local) && Lists(o2, local)
    ensures MergeInOrder(arr, local, o1) == MergeInOrder(arr, local, o2)
  {
    var a := MergeInOrder(arr, local, o1);
    var b := MergeInOrder(arr, local, o2);
    forall q ensures (q in a <==> q in b) && Get(a, q) == Get(b, q) {
      MergeAt(arr, local, o1, q);
      MergeAt(arr, local, o2, q);
    }
    SameDensity(a, b);
  }

  /** Two densities with the same voxels and the same mass on each are equal. */
  lemma SameDensity(a: Density, b: Density)
    requires forall q :: (q in a <==> q in b) && Get(a, q) == Get(b, q)
    ensures a == b
  {
    assert a.Keys == b.Keys;
    forall q | q in a ensures a[q] == b[q] {
      assert Get(a, q) == Get(b, q);
    }
  }

  lemma {:induction false} TotalAppend(sc: Scan, a: seq<Sample>, b: seq<Sample>, mass: Kernel, q: Pos)
    ensures Total(sc, a + b, mass, q) == Total(sc, a, mass, q) + Total(sc, b, mass, q)
    decreases |a|
  {
    if |a| > 0 {
      assert (a + b)[1..] == a[1..] + b;
      TotalAppend(sc, a[1..], b, mass, q);
    } else {
      assert a + b == b;
    }
  }

  lemma TouchedAppend(sc: Scan, a: seq<Sample>, b: seq<Sample>)
    ensures Touched(sc, a + b) == Touched(sc, a) + Touched(sc, b)
  {
    forall q ensures q in Touched(sc, a + b) <==> q in Touched(sc, a) || q in Touched(sc, b) {
      if q in Touched(sc, a + b) {
        var s :| s in a + b && Reaches(sc, s, q);
        assert s in a || s in b;
      }
      if q in Touched(sc, a) {
        var s :| s in a && Reaches(sc, s, q);
        assert s in a + b;
      }
      if q in Touched(sc, b) {
        var s :| s in b && Reaches(sc, s, q);
        assert s in a + b;
      }
    }
  }

  /** One worker's turn in the critical section adds the mass of its part. */
  lemma MergeLocalAt(sc: Scan, arr: Density, part: seq<Sample>, order: seq<Pos>, mass: Kernel, q: Pos)
    requires Lists(order, Local(sc, map[], part, mass))
    ensures q in MergeInOrder(arr, Local(sc, map[], part, mass), order) <==> q in arr || q in Touched(sc, part)
    ensures Get(MergeInOrder(arr, Local(sc, map[], part, mass), order), q) == Get(arr, q) + Total(sc, part, mass, q)
  {
    var l := Local(sc, map[], part, mass);
    LocalAt(sc, map[], part, mass, q);
    MergeAt(arr, l, order, q);
    assert q in order <==> q in l;
  }

  /** Merging the workers' maps one after another adds, for every voxel, the
      mass of every sample of every part. */
  lemma {:induction false} CombineAt(sc: Scan, arr: Density, parts: seq<seq<Sample>>, locals: seq<Density>,
                                     orders: seq<seq<Pos>>, mass: Kernel, q: Pos)
    requires |locals| == |parts| == |orders|
    requires forall i :: 0 <= i < |parts| ==> locals[i] == Local(sc, map[], parts[i], mass)
    requires forall i :: 0 <= i < |parts| ==> Lists(orders[i], locals[i])
    ensures q in Combine(arr, locals, orders) <==> q in arr || q in Touched(sc, Flatten(parts))
    ensures Get(Combine(arr, locals, orders), q) == Get(arr, q) + Total(sc, Flatten(parts), mass, q)
    decreases |parts|
  {
    if |parts| > 0 {
      MergeLocalAt(sc, arr, parts[0], orders[0], mass, q);
      var arr' := MergeInOrder(arr, locals[0], orders[0]);
      assert Combine(arr, locals, orders) == Combine(arr', locals[1..], orders[1..]);
      CombineAt(sc, arr', parts[1..], locals[1..], orders[1..], mass, q);
      var rest := Flatten(parts[1..]);
      assert Flatten(parts) == parts[0] + rest;
      TouchedAppend(sc, parts[0], rest);
      TotalAppend(sc, parts[0], rest, mass, q);
    }
  }

  // ---------------------------------------------------------------------
  // Independence from the split.

  /** The total on a voxel depends only on which samples there are, not on
      their order. */
  lemma {:induction false} TotalPermutation(sc: Scan, a: seq<Sample>, b: seq<Sample>, mass: Kernel, q: Pos)
    requires multiset(a) == multiset(b)
    ensures Total(sc, a, mass, q) == Total(sc, b, mass, q)
    decreases |a|
  {
    if |a| == 0 {
      assert |b| == |multiset(b)| == 0;
    } else {
      var x := a[0];
      assert x in multiset(b);
      var i :| 0 <= i < |b| && b[i] == x;
      var b' := b[..i] + b[i + 1..];
      assert b == b[..i] + [x] + b[i + 1..];
      assert a == [x] + a[1..];
      assert multiset(b) == multiset(b[..i]) + multiset{x} + multiset(b[i + 1..]);
      assert multiset(b') == multiset(b[..i]) + multiset(b[i + 1..]);
      assert multiset(a) == multiset{x} + multiset(a[1..]);
      assert multiset(a[1..]) == multiset(a) - multiset{x};
      assert multiset(b') == multiset(b) - multiset{x};
      TotalPermutation(sc, a[1..], b', mass, q);
      TotalAppend(sc, b[..i] + [x], b[i + 1..], mass, q);
      TotalAppend(sc, b[..i], [x], mass, q);
      TotalAppend(sc, b[..i], b[i + 1..], mass, q);
    }
  }

  lemma TouchedPermutation(sc: Scan, a: seq<Sample>, b: seq<Sample>)
    requires multiset(a) == multiset(b)
    ensures Touched(sc, a) == Touched(sc, b)
  {
    forall q ensures q in Touched(sc, a) <==> q in Touched(sc, b) {
      if q in Touched(sc, a) {
        var s :| s in a && Reaches(sc, s, q);
        assert s in multiset(b);
      }
      if q in Touched(sc, b) {
        var s :| s in b && Reaches(sc, s, q);
        assert s in multiset(a);
      }
    }
  }

  /** The estimate is the same for every split of the samples among workers,
      every order of the workers in the critical section and every iteration
      order of the local maps: it depends only on the samples themselves. */
  lemma EstimateSplitFree(v: Variant, arr: Density, p1: seq<seq<Sample>>, o1: seq<seq<Pos>>,
                          p2: seq<seq<Sample>>, o2: seq<seq<Pos>>, shape: Pos, h: real, prune: real, mass: Kernel)
    requires |o1| == |p1| && |o2| == |p2|
    requires forall i :: 0 <= i < |p1| ==> Lists(o1[i], Local(Scan(v, MaxDist(h, prune), shape), map[], p1[i], mass))
    requires forall i :: 0 <= i < |p2| ==> Lists(o2[i], Local(Scan(v, MaxDist(h, prune), shape), map[], p2[i], mass))
    requires multiset(Flatten(p1)) == multiset(Flatten(p2))
    ensures Estimate(v, arr, p1, shape, h, prune, mass, o1) == Estimate(v, arr, p2, shape, h, prune, mass, o2)
  {
    var sc := Scan(v, MaxDist(h, prune), shape);
    var r1 := Estimate(v, arr, p1, shape, h, prune, mass, o1);
    var r2 := Estimate(v, arr, p2, shape, h, prune, mass, o2);
    TouchedPermutation(sc, Flatten(p1), Flatten(p2));
    forall q ensures (q in r1 <==> q in r2) && Get(r1, q) == Get(r2, q) {
      TotalPermutation(sc, Flatten(p1), Flatten(p2), mass, q);
    }
    SameDensity(r1, r2);
  }

  /** Run by a single worker, the estimate holds exactly the voxels the
      samples reach, each with the sum of the samples' kernel mass there. */
  lemma EstimateSingleWorker(v: Variant, samples: seq<Sample>, order: seq<Pos>, shape: Pos,
                             h: real, prune: real, mass: Kernel, q: Pos)
    requires Lists(order, Local(Scan(v, MaxDist(h, prune), shape), map[], samples, mass))
    ensures q in Estimate(v, map[], [samples], shape, h, prune, mass, [order])
        <==> exists s :: s in samples && Reaches(Scan(v, MaxDist(h, prune), shape), s, q)
    ensures Get(Estimate(v, map[], [samples], shape, h, prune, mass, [order]), q)
        == Total(Scan(v, MaxDist(h, prune), shape), samples, mass, q)
  {
    assert Flatten([samples]) == samples + Flatten([]);
    assert Flatten([samples]) == samples;
  }
}

=== FILE: values.dfy ===
/** The scalar and outcome types the entry points of the library hand back. */
module Values {

  /** A double as the library stores it in an output buffer: a number, or the
      NPY_NAN sentinel that marks an undefined cell. */
  datatype Value = NaN | Num(r: real)

  /** Selects, where the library has a defect, between the code as written
      and the evidently intended code. */
  datatype Variant = AsWritten | Intended

  datatype Option<T> = None | Some(value: T)

  /** Why an entry point refuses its arguments before computing anything. */
  datatype Error =
    | RankError        // an array has a number of axes the entry point does not handle
    | LengthMismatch   // a vector does not match the channel axis of the field

  /** Either the computed result or the validation error (a NULL return). */
  datatype Result<T> = Ok(value: T) | Err(error: Error)
}
